=== FILE: README.md ===
# EODHD fundamentals transformer, modelled in Dafny

This project models `transformer/agent.py`, the part of the ETL pipeline that turns EODHD
fundamentals payloads into database tables. The payloads are decoded JSON, one per ticker.
The model covers:

- `Agent.FIELDS`: the eight configured tables, each with the section it reads and the columns
  it fills (module `Schema`).
- `Agent.valcheck`: the normalisation every value goes through (module `Normalise`). It rests on
  models of `datetime.strptime(_, "%Y-%m-%d")` (module `IsoDate`), of `round(_, 4)` and of
  `float(int)` (module `Rounding`).
- `Agent.transform`, table by table (module `Rows`):
  - section tables, which read the entries of one payload section;
  - root tables, whose columns name a top-level key and an output name joined by '#';
  - the activities table, filled from `ESGScores.ActivitiesInvolvement`;
  - the balance table, filled from the first two quarterly balance-sheet records.
- The loop over tickers and the combine step that builds `etl.eodhd_fundamentals` from the
  dividends, valuation and highlights tables (module `Transform`). This includes
  `Agent.find_ticker`.

Python values and containers are written out explicitly:

- A Python dict is an ordered association list (module `Assoc`). Iteration order is insertion
  order. Assigning to a present key overwrites it where it stands, and assigning to a new key
  appends it.
- A JSON value is the datatype `PyJson.Json`. The container operations `in`, `[]` and `len`
  follow Python's rules for dicts, lists and strings (module `PyJson`).
- Every exception the code can raise is an `Err` of `Outcomes.Result`. Examples are a
  `KeyError` for a missing key, a `TypeError` for iterating a number, and an `OverflowError`
  for `float` of a huge integer.

`float(str)` is CPython's own parser. It is the parameter `parse` throughout: `Some(x)` where
`float` returns x, and `None` where it raises `ValueError`. `Agent.timenow()` is the opaque
cell `Now`.

The proofs are in `RowFacts`, `ConfigFacts`, `TableFacts` and `TransformFacts`. Each part of
the computation is related to an independent reference:

- **Row shapes**: each table's row has the ticker first, then every configured column in order
  holding its normalised value, then the timestamp.
- **The loop**: each table of the loop's output is the concatenation, in ticker order, of what
  every ticker with a truthy payload contributes (`TransformFacts.TableOf`).
- **The combine step**: each combined row is a first-wins lookup through the base row and the
  rows `find_ticker` finds in the other part tables (`TransformFacts.FirstGet`).
- **Dates**: `strptime` accepts exactly the spellings of valid dates, and parsing a formatted
  date gives it back.

## Model

| member | source | states |
|---|---|---|
| Normalise.Valcheck | transformer/agent.py:307-335 | The only error is OverflowError, for a non-sentinel integer of magnitude at least 2^1024 - 2^970 on a non-date field. A date field keeps a valid date of year 1900 or later verbatim and nulls everything else. A non-date field is null exactly for the sentinels. A string changes only when `float` accepts it, and then becomes that parsed number rounded to four places. An integer becomes the nearest double. `True` becomes 1.0, since bool is a subclass of int. A changed value is a float rounded to four places. Floats and containers pass through. |
| Normalise.DateIdempotent | transformer/agent.py:315-323 | Normalising a date field never fails, and normalising the result again changes nothing. |
| Normalise.NonDateSettles | transformer/agent.py:309-335 | A second pass over a non-date result changes nothing, except that a result of 0.0 now reads as the sentinel 0 and becomes null. |
| Normalise.ZeroSpellings | transformer/agent.py:309 | "0" and 0.0 are sentinels, but the string "0.0" is a number and becomes 0.0. |
| Normalise.LargeIntegerConverts | transformer/agent.py:331-332 | On a non-date field, the integer 2^1000 converts without OverflowError. |
| Normalise.NumericExamples | transformer/agent.py:325-332 | "12.34567" becomes 12.3457, 7 becomes 7.0, unparsable text stays verbatim, and True becomes 1.0. |
| Normalise.DateBefore1900 | transformer/agent.py:317-319 | "1899-12-31" parses but is nulled, because its year is before 1900. |
| Normalise.DateFrom1900 | transformer/agent.py:317-321 | "1900-01-01" is kept verbatim. |
| Normalise.NotADate | transformer/agent.py:315-323 | Text that is not a date, and a non-string value, are nulled on a date field. |
| IsoDate.StrptimeSpells | transformer/agent.py:317 | `strptime(s, "%Y-%m-%d")` gives a date d exactly when d is a valid calendar date and s is one of its accepted spellings. |
| IsoDate.FormatRoundTrip | transformer/agent.py:317 | Parsing the zero-padded `YYYY-MM-DD` form of a valid date gives the date back. |
| Rounding.Round4 | transformer/agent.py:327 | `round(x, 4)` on a real has at most four places, is within half a unit of the fourth place of x, leaves a value of four places unchanged, and on a tie picks the multiple of 0.0001 whose last digit is even. |
| Rounding.RoundFloat | transformer/agent.py:327 | `round(x, 4)` is within half a unit of the fourth place of x, has at most four places, rounds a tie to the even fourth digit, and leaves infinities and NaN alone. |
| Rounding.RoundHalfEven | transformer/agent.py:327 | Examples of ties: 0.00005 and -0.00005 round to 0.0, 0.00015 rounds up to 0.0002, and 0.03125 rounds down to 0.0312. |
| Rounding.IntToFloat | transformer/agent.py:331-332 | `float(i)` succeeds exactly when the magnitude of i is below 2^1024 - 2^970, with the nearest double to i, and otherwise raises OverflowError. |
| Rounding.FloatLimitValue | transformer/agent.py:331-332 | The overflow bound is 2^1024 - 2^970. |
| Rounding.BelowFloatLimit | transformer/agent.py:331-332 | One below the overflow bound rounds to the largest double, 2^1024 - 2^971. |
| Rounding.AtFloatLimit | transformer/agent.py:331-332 | The overflow bound is the tie between the largest double and 2^1024, and rounds to the even 2^1024, which is past the double range. |
| Rounding.LargePowerConverts | transformer/agent.py:331-332 | `float(2**1000)` succeeds. |
| Rounding.NearestDouble | transformer/agent.py:331-332 | The nearest double lies within half a spacing of the integer, where the spacing is 1 below 2^53 and doubles with each further bit, and keeps the integer's sign. |
| Rounding.RoundQuotient | transformer/agent.py:331-332 | The chosen multiple of the spacing is within half a spacing of the magnitude, and on a tie it is the even multiple, as round-half-even conversion to double does. |
| Rounding.SpacingBelow | transformer/agent.py:331-332 | Below 2^53 neighbouring doubles are 1 apart. |
| Rounding.SpacingAtLimit | transformer/agent.py:331-332 | At 2^53 neighbouring doubles are 2 apart. |
| Rounding.NearestDoubleBelow | transformer/agent.py:331-332 | An integer of magnitude below 2^53 converts exactly. |
| Rounding.LimitExact | transformer/agent.py:331-332 | 2^53 and -2^53 convert exactly. |
| Rounding.NearestDoubleExact | transformer/agent.py:331-332 | An integer of magnitude at most 2^53 converts exactly. |
| Rounding.FirstInexact | transformer/agent.py:331-332 | 2^53 + 1 is the first integer that does not convert exactly: it becomes 2^53. |
| Schema.SplitJoin | transformer/agent.py:226 | Splitting a '#'-join of '#'-free parts gives the parts back. |
| Schema.Split | transformer/agent.py:243-244 | The parts of `s.split("#")` are '#'-free, there is at least one, and joining them gives s. |
| Schema.Lower | transformer/agent.py:247 | `lower()` keeps the length, leaves no capital letter, maps each capital to its lower-case letter, and changes nothing else. |
| Assoc.Set | transformer/agent.py:165 | After `d[k] = v`, k maps to v and every other key keeps its value. |
| Assoc.SetKeys | transformer/agent.py:141-142 | A new key goes to the end of the key order, and an existing key keeps its place. |
| Assoc.Remove | transformer/agent.py:296 | `del d[k]` succeeds exactly when k is present, otherwise raises KeyError(k), and leaves every other key as it was. |
| Assoc.RemoveKeys | transformer/agent.py:296 | On distinct keys, `del d[k]` leaves the other keys in their order. |
| Assoc.MissingAppend | transformer/agent.py:278-294 | The columns a first-wins copy adds from two sources in turn are those it adds from the first, then those still missing from the second. |
| RowFacts.SectionRowSpec | transformer/agent.py:214-238 | A section table's row is the ticker, then each configured field under its output name holding the normalised entry (or null when absent), then the timestamp. |
| RowFacts.SectionAbsentAllNull | transformer/agent.py:216-222 | An absent or "NA" section gives null in every configured column. |
| RowFacts.RootRowSpec | transformer/agent.py:240-259 | A root table's row is the ticker, then each column's output name holding the normalised top-level value (or null), then the timestamp. |
| RowFacts.SplitColumn | transformer/agent.py:243-244 | A root column built from '#'-free halves splits back into the key it reads and its output name. |
| RowFacts.ActivitiesAbsentAllNull | transformer/agent.py:146-173 | Without ESGScores.ActivitiesInvolvement (absent or "NA"), every known activity column is null, between the ticker and the timestamp. |
| RowFacts.ActivitiesCopied | transformer/agent.py:155-172 | With a dict of well-formed entries, each known activity's column holds the Involvement of its last entry, or is absent when none names it. No other column appears. |
| RowFacts.CopyFromDictSpec | transformer/agent.py:159-165 | Copying well-formed entries always succeeds, and each column ends as the last-entry-wins reading says. |
| RowFacts.CopyFromDictFails | transformer/agent.py:160-162 | An entry without an Activity or an Involvement makes the copy fail. |
| RowFacts.ActivitiesListFails | transformer/agent.py:159-160 | A list whose first element is not an integer raises TypeError when used as an index. |
| RowFacts.NoFinancialsNoRows | transformer/agent.py:177-180 | Without Financials, nested or flat, a ticker gets no balance rows. |
| RowFacts.MissingBalanceSheet | transformer/agent.py:181-182 | A Financials dict without Balance_Sheet raises KeyError. |
| RowFacts.NoQuarterlyNoRows | transformer/agent.py:186-191 | A balance sheet without quarterly data, or with empty quarterly data, gives no rows. |
| RowFacts.FirstTwoRecords | transformer/agent.py:193-200 | Only the first two quarterly records, in dict order, are read. |
| RowFacts.QuarterRowsSpec | transformer/agent.py:202-210 | Each record gives at most one row, and every row has the ticker first, more than two columns and the timestamp. |
| RowFacts.QuarterRowNone | transformer/agent.py:202-203 | A None quarterly record is skipped: it gives no row. |
| RowFacts.QuarterRowSpec | transformer/agent.py:202-210 | A dict record fails exactly when one of its fields fails to normalise. Otherwise, with fewer than two fields it gives no row. With two or more it gives one row: the ticker, then each field in order holding its normalised value, then the timestamp. |
| RowFacts.BalanceCellsSpec | transformer/agent.py:205-206 | A record's fields are appended in order, each holding its value normalised with a date flag for "date" in its key. The loop fails exactly when some field's normalisation fails. |
| RowFacts.BalanceRowsAtMostTwo | transformer/agent.py:175-212 | A ticker gets at most two balance rows, each so shaped. |
| Rows.TickerRows | transformer/agent.py:140-144 | A ticker's rows for the configured tables succeed exactly when every table's rows do, and come one entry per table in configuration order. |
| Transform.FindTicker | transformer/agent.py:341-347 | `find_ticker` returns the first row whose ticker cell equals the ticker, or nothing when no row matches. It cannot fail when every row has a ticker cell. |
| Transform.CombineRows | transformer/agent.py:274-298 | The combined table has one row per base row, in base order. It fails exactly when some row's combination fails. |
| TransformFacts.CopyMissingSpec | transformer/agent.py:278-282 | Copying the missing columns: the target keeps its own values, the source fills the rest, the keys stay distinct, the first key stays first, and the columns are the target's in their order followed by the source's new ones in source order. |
| TransformFacts.CopyMissingKeys | transformer/agent.py:278-282 | The copied row's columns are the target's, in order, followed by the source's columns the target lacked, in source order. |
| TransformFacts.MergeOthersSpec | transformer/agent.py:284-294 | Merging the other tables' rows is the first-wins lookup through the rows `find_ticker` returns. It fails exactly when a table is missing, or when a row before that table's first matching row lacks a ticker cell. The merged row's columns are its own, in order, followed by each partner's new columns, partner by partner. |
| TransformFacts.MergeOthersKeys | transformer/agent.py:284-294 | The merged row keeps its columns in front and adds each partner's columns it lacked, partner by partner and in each partner's order. |
| TransformFacts.CombineRowSpec | transformer/agent.py:275-297 | A combined row succeeds exactly when the base row has a ticker, the lookups succeed and some merged row has a timestamp. It then starts with the ticker, ends with a fresh timestamp, has distinct keys, and every other column is the first-wins value. The order of the columns in between is stated by TransformFacts.CombineRowKeys. |
| TransformFacts.CombineRowKeys | transformer/agent.py:275-297 | The combined row's columns: the ticker, then the base row's and the partners' columns other than the ticker and the timestamp, each at its first appearance, then the timestamp. |
| TransformFacts.MergedRowKeys | transformer/agent.py:276-294 | Before the timestamp moves, the row's columns are the ticker, then the base row's and the partners' other columns at their first appearance. |
| TransformFacts.DropTablesSpec | transformer/agent.py:300-302 | Deleting the part tables removes each of them, present or not, and changes nothing else. |
| TransformFacts.ApplyRuleSpec | transformer/agent.py:270-302 | The combine rule succeeds exactly when the reference combined table does. It stores that table under its key, removes the parts and keeps every other table. |
| TransformFacts.AddRowsSpec | transformer/agent.py:140-142 | One ticker's rows go to the end of each configured table. |
| TransformFacts.AddRowsNewKeys | transformer/agent.py:140-142 | The first ticker with a truthy payload creates the tables in configuration order. |
| TransformFacts.CollectSpec | transformer/agent.py:136-144 | The loop succeeds exactly when every table's reference concatenation does. Each table is that concatenation, and the tables appear in configuration order once some payload is truthy. |
| TransformFacts.CollectNothing | transformer/agent.py:136-138 | With no truthy payload, the loop adds nothing. |
| TransformFacts.RunWithoutData | transformer/agent.py:136-138 | With no truthy payload, `transform` raises KeyError for the dividends table. |
| TransformFacts.RunSucceeds | transformer/agent.py:133-302 | `transform` succeeds exactly when some payload is truthy, the loop succeeds and the fundamentals table can be combined. |
| TransformFacts.RunCombines | transformer/agent.py:261-302 | After the loop, the fundamentals table is the combined table and its three parts are gone. Every other table is as the loop left it, with distinct names. |
| TransformFacts.FieldsDistinct | transformer/agent.py:7-128 | The configured table names are distinct. |
| TableFacts.TableOfFramed | transformer/agent.py:136-172 | A table that gives one framed row per ticker has one row per ticker with a truthy payload, in ticker order. A framed row has the ticker first and the timestamp last. |
| TableFacts.BalanceTableBound | transformer/agent.py:175-212 | The balance table has at most two rows per ticker with a truthy payload. |
| TableFacts.BasicsOneRowEach | transformer/agent.py:20-33 | The basics table gives each ticker exactly one framed row. |
| TableFacts.EsgScoresOneRowEach | transformer/agent.py:34-48 | The ESG scores table gives each ticker exactly one framed row. |
| TableFacts.KnownActivitiesOneRowEach | transformer/agent.py:49-68 | The activities table gives each ticker exactly one framed row. |
| TableFacts.SharesStatsOneRowEach | transformer/agent.py:108-118 | The shares stats table gives each ticker exactly one framed row. |
| TableFacts.DividendsOneRowEach | transformer/agent.py:119-126 | The dividends table gives each ticker exactly one framed row. |
| TableFacts.HighlightsOneRowEach | transformer/agent.py:69-96 | The highlights table gives each ticker exactly one framed row. |
| TableFacts.ValuationOneRowEach | transformer/agent.py:97-107 | The valuation table gives each ticker exactly one framed row. |
| TableFacts.CombinedFramed | transformer/agent.py:274-298 | Combining framed rows keeps each row's ticker first and puts the timestamp last. |
| TableFacts.RunBasics | transformer/agent.py:133-259 | The output's basics table has one framed row per ticker with a truthy payload, in ticker order. |
| TableFacts.RunEsgScores | transformer/agent.py:133-238 | The output's ESG scores table has one framed row per ticker with a truthy payload, in ticker order. |
| TableFacts.RunActivities | transformer/agent.py:133-173 | The output's activities table has one framed row per ticker with a truthy payload, in ticker order. |
| TableFacts.RunSharesStats | transformer/agent.py:133-238 | The output's shares stats table has one framed row per ticker with a truthy payload, in ticker order. |
| TableFacts.RunBalance | transformer/agent.py:175-212 | When `transform` succeeds, some ticker has a truthy payload, and the balance table exists with at most two rows per such ticker. |
| TableFacts.RunFundamentals | transformer/agent.py:261-302 | The output's fundamentals table has one framed row per ticker with a truthy payload, in ticker order. |
| ConfigFacts.BasicsColumns | transformer/agent.py:20-33 | Each basics column is its top-level key and output name joined by '#'. |
| ConfigFacts.DividendsColumns | transformer/agent.py:119-126 | Each dividends column is its top-level key and output name joined by '#'. |
| ConfigFacts.HighlightsClean | transformer/agent.py:69-96 | The highlights columns have no '#', are distinct, and are neither the ticker nor the timestamp column. |

## Left out

- `client/eodhd.py`, `client/engine.py`, `database/helper.py` and `main.py` are not part of this model. They fetch the payloads over HTTP and write the tables to the database.
- The conversion of each table to a pandas DataFrame (line 304) is left out. The model's output is the dict of row lists that line converts.
- `Agent.timenow()` reads the clock. Every timestamp is the same opaque cell `Now`, so the model does not distinguish two calls.
- `float(str)` is CPython's float parser, so it is the parameter `parse` and not modelled.
- Rounding.NearestDouble: its own contract bounds the distance to the integer but does not state that a tie goes to the even multiple. That is stated by Rounding.RoundQuotient, which it applies.
- Rounding.RoundFloat: rounds the exact real value of a double. It does not model the binary representation, under which `round` of a decimal-looking tie can go either way.
- RowFacts.SectionRowSpec: stated only for field lists without '#', which every configured section table has. The rename `k, name = k.split("#")` of a field with '#' is modelled by Rows.SourceAndName but has no row-level contract. RowFacts.SectionAbsentAllNull has the same restriction.
- RowFacts.QuarterRowSpec: describes the row only for records whose keys are distinct and are neither the ticker nor the timestamp column. Other records are covered only by RowFacts.QuarterRowsSpec's shape.
- Schema.Lower: lower-cases ASCII letters only. Python's `str.lower()` also maps non-ASCII capitals.
- IsoDate.StrptimeSpells: accepts ASCII digits only. Python's `\d` in `_strptime` also matches other Unicode digits.
- JSON objects with duplicate keys are left out. Every dict in the model is what Python builds, with distinct keys; the proofs assume distinct keys where they need them.
- Transform.ApplyRule: requires that the combined table is not one of its own parts. With the one configured rule this always holds. Otherwise Python's `result[key]` would alias a part table while rows are appended to it.
- Transform.FindTicker: compares ticker cells by structural equality. Python `==` also equates e.g. 1 and 1.0, but ticker cells are always the payload dict's string keys.
- TransformFacts.RunCombines: states which tables the output holds through lookups, not the key order in which they appear.

=== FILE: assoc.dfy ===
/**
 * Python dicts as ordered association lists. A dict built by Python has
 * distinct keys, and its iteration order is insertion order, which is the
 * order of the list.
 */
module Assoc {
  import opened Outcomes

  type Dict<V> = seq<(string, V)>

  /** The keys of `d`, in iteration order. */
  function Keys<V>(d: Dict<V>): (ks: seq<string>)
    ensures |ks| == |d|
    ensures forall i :: 0 <= i < |d| ==> ks[i] == d[i].0
  {
    if |d| == 0 then [] else [d[0].0] + Keys(d[1..])
  }

  predicate Distinct(ks: seq<string>) {
    forall i, j :: 0 <= i < j < |ks| ==> ks[i] != ks[j]
  }

  /** Dropping the first of distinct keys leaves distinct keys without it. */
  lemma DistinctTail(names: seq<string>)
    requires Distinct(names) && |names| > 0
    ensures Distinct(names[1..]) && names[0] !in names[1..]
  {
    var rest := names[1..];
    forall i, j | 0 <= i < j < |rest| ensures rest[i] != rest[j] {
      assert rest[i] == names[i + 1] && rest[j] == names[j + 1];
    }
    forall j | 0 <= j < |rest| ensures rest[j] != names[0] {
      assert rest[j] == names[j + 1];
    }
  }

  /** `d[k]` when `k in d`. */
  function Get<V>(d: Dict<V>, k: string): (r: Option<V>)
    ensures r.Some? <==> k in Keys(d)
    ensures r.Some? ==> (k, r.value) in d
  {
    if |d| == 0 then None
    else if d[0].0 == k then Some(d[0].1)
    else Get(d[1..], k)
  }

  /** `d[k] = v`: overwrites the entry of `k` where it stands, or appends a new one. */
  function Set<V>(d: Dict<V>, k: string, v: V): (r: Dict<V>)
    ensures Get(r, k) == Some(v)
    ensures forall j :: j != k ==> Get(r, j) == Get(d, j)
  {
    if |d| == 0 then [(k, v)]
    else if d[0].0 == k then [(k, v)] + d[1..]
    else [d[0]] + Set(d[1..], k, v)
  }

  /** `del d[k]`: removes the entry of `k`, or raises KeyError. */
  function Remove<V>(d: Dict<V>, k: string): (r: Result<Dict<V>>)
    ensures r.Ok? <==> k in Keys(d)
    ensures r.Err? ==> r.error == KeyError(k)
    ensures r.Ok? ==> forall j :: j != k ==> Get(r.value, j) == Get(d, j)
    ensures r.Ok? && Distinct(Keys(d)) ==> k !in Keys(r.value) && Distinct(Keys(r.value))
    ensures r.Ok? && Distinct(Keys(d)) ==> forall j :: j in Keys(r.value) <==> j in Keys(d) && j != k
    ensures r.Ok? && |d| > 0 && d[0].0 != k ==> |r.value| > 0 && r.value[0] == d[0]
  {
    if |d| == 0 then Err(KeyError(k))
    else if d[0].0 == k then Ok(d[1..])
    else
      assert Keys(d[1..]) == Keys(d)[1..];
      var rest :- Remove(d[1..], k);
      assert Distinct(Keys(d)) ==> d[0].0 !in Keys(rest);
      Ok([d[0]] + rest)
  }

  /**
   * The keys of `src` that `have` lacks, each once, in order of first
   * appearance: the columns a first-wins copy adds after those already there.
   */
  function Missing(have: seq<string>, src: seq<string>): (m: seq<string>)
    ensures forall k :: k in m <==> k in src && k !in have
    ensures Distinct(m)
    decreases |src|
  {
    if |src| == 0 then []
    else if src[0] in have then Missing(have, src[1..])
    else
      var m := Missing(have + [src[0]], src[1..]);
      DistinctCons(src[0], m);
      [src[0]] + m
  }

  /** A new key in front of distinct keys keeps them distinct. */
  lemma DistinctCons(x: string, ks: seq<string>)
    requires Distinct(ks) && x !in ks
    ensures Distinct([x] + ks)
  {
    var all := [x] + ks;
    forall i, j | 0 <= i < j < |all| ensures all[i] != all[j] {
      assert all[j] == ks[j - 1];
      if i > 0 {
        assert all[i] == ks[i - 1];
      }
    }
  }

  /** Only which of `src`'s keys `have` holds matters to `Missing`. */
  lemma {:induction false} MissingSame(h1: seq<string>, h2: seq<string>, src: seq<string>)
    requires forall k :: k in src ==> (k in h1 <==> k in h2)
    ensures Missing(h1, src) == Missing(h2, src)
    decreases |src|
  {
    if |src| > 0 {
      assert src[0] in src;
      assert forall k :: k in src[1..] ==> k in src;
      MissingSame(h1 + [src[0]], h2 + [src[0]], src[1..]);
      if src[0] !in h1 {
        MissingSame(h1, h2, src[1..]);
      } else {
        MissingSame(h1, h2, src[1..]);
      }
    }
  }

  /** Distinct keys none of which are present are all missing, in their order. */
  lemma {:induction false} MissingAll(have: seq<string>, src: seq<string>)
    requires Distinct(src)
    requires forall k :: k in src ==> k !in have
    ensures Missing(have, src) == src
    decreases |src|
  {
    if |src| > 0 {
      DistinctTail(src);
      assert forall k :: k in src[1..] ==> k in src;
      MissingAll(have + [src[0]], src[1..]);
      assert [src[0]] + src[1..] == src;
    }
  }

  /** The keys missing from two lists in turn: the second list is checked against the first's additions too. */
  lemma {:induction false} MissingAppend(have: seq<string>, a: seq<string>, b: seq<string>)
    ensures Missing(have, a + b) == Missing(have, a) + Missing(have + Missing(have, a), b)
    decreases |a|
  {
    if |a| == 0 {
      assert a + b == b && have + [] == have;
    } else {
      var x := a[0];
      var rest := a[1..];
      assert (a + b)[0] == x && (a + b)[1..] == rest + b;
      if x in have {
        assert Missing(have, a) == Missing(have, rest);
        MissingAppend(have, rest, b);
      } else {
        var h := have + [x];
        var m := Missing(h, rest);
        assert Missing(have, a) == [x] + m;
        MissingAppend(h, rest, b);
        Associative(have, [x], m);
        Associative([x], m, Missing(h + m, b));
      }
    }
  }

  lemma Associative<T>(x: seq<T>, y: seq<T>, z: seq<T>)
    ensures (x + y) + z == x + (y + z)
  {
  }

  /** Adding the keys missing from `a` and then those still missing from `b` is adding those missing from `a + b`. */
  lemma MissingThen(have: seq<string>, a: seq<string>, b: seq<string>)
    ensures (have + Missing(have, a)) + Missing(have + Missing(have, a), b) == have + Missing(have, a + b)
  {
    MissingAppend(have, a, b);
    var m := Missing(have, a);
    Associative(have, m, Missing(have + m, b));
  }

  /** Taking the keys missing from `h2` out of those missing from `h1` is taking those missing from both. */
  lemma {:induction false} MissingTwice(h1: seq<string>, h2: seq<string>, src: seq<string>)
    ensures Missing(h2, Missing(h1, src)) == Missing(h1 + h2, src)
    decreases |src|
  {
    if |src| > 0 {
      var x := src[0];
      var rest := src[1..];
      if x in h1 {
        MissingTwice(h1, h2, rest);
      } else if x in h2 {
        var m := Missing(h1 + [x], rest);
        assert Missing(h1, src) == [x] + m;
        assert Missing(h2, [x] + m) == Missing(h2, m) by { assert ([x] + m)[1..] == m; }
        MissingTwice(h1 + [x], h2, rest);
        MissingSame(h1 + [x] + h2, h1 + h2, rest);
      } else {
        var m := Missing(h1 + [x], rest);
        assert Missing(h1, src) == [x] + m;
        assert Missing(h2, [x] + m) == [x] + Missing(h2 + [x], m) by { assert ([x] + m)[1..] == m; }
        MissingTwice(h1 + [x], h2 + [x], rest);
        MissingSame(h1 + [x] + (h2 + [x]), h1 + h2 + [x], rest);
      }
    }
  }

  /** `del d[k]` on distinct keys leaves the other keys in their order. */
  lemma {:induction false} RemoveKeys<V>(d: Dict<V>, k: string)
    ensures Remove(d, k).Ok? && Distinct(Keys(d)) ==> Keys(Remove(d, k).value) == Missing([k], Keys(d))
    decreases |d|
  {
    if |d| > 0 && Distinct(Keys(d)) {
      var ks := Keys(d);
      assert Keys(d[1..]) == ks[1..];
      DistinctTail(ks);
      if d[0].0 == k {
        MissingAll([k], ks[1..]);
      } else if Remove(d, k).Ok? {
        RemoveKeys(d[1..], k);
        var rest := Remove(d[1..], k).value;
        KeysCons(d[0], rest);
        MissingSame([k] + [ks[0]], [k], ks[1..]);
      }
    }
  }

  lemma KeysAppend<V>(d: Dict<V>, e: (string, V))
    ensures Keys(d + [e]) == Keys(d) + [e.0]
  {
    var ks := Keys(d + [e]);
    assert |ks| == |Keys(d) + [e.0]|;
    forall i | 0 <= i < |ks| ensures ks[i] == (Keys(d) + [e.0])[i] {
      assert (d + [e])[i].0 == ks[i];
    }
  }

  lemma KeysCons<V>(e: (string, V), rest: Dict<V>)
    ensures Keys([e] + rest) == [e.0] + Keys(rest)
  {
    assert ([e] + rest)[1..] == rest;
  }

  /** Setting a new key appends its entry. */
  lemma {:induction false} SetAppends<V>(d: Dict<V>, k: string, v: V)
    requires k !in Keys(d)
    ensures Set(d, k, v) == d + [(k, v)]
    decreases |d|
  {
    if |d| > 0 {
      assert Keys(d)[0] == d[0].0;
      assert Keys(d[1..]) == Keys(d)[1..];
      calc {
        Set(d, k, v);
        [d[0]] + Set(d[1..], k, v);
        { SetAppends(d[1..], k, v); }
        [d[0]] + (d[1..] + [(k, v)]);
        { ConsAppend(d[0], d[1..], (k, v)); }
        ([d[0]] + d[1..]) + [(k, v)];
        { assert [d[0]] + d[1..] == d; }
        d + [(k, v)];
      }
    }
  }

  lemma ConsAppend<T>(x: T, s: seq<T>, y: T)
    ensures [x] + (s + [y]) == ([x] + s) + [y]
  {
  }

  /** Setting a key already present overwrites its entry where it stands. */
  lemma {:induction false} SetInPlace<V>(d: Dict<V>, k: string, v: V)
    requires k in Keys(d)
    ensures Keys(Set(d, k, v)) == Keys(d)
    decreases |d|
  {
    KeysCons(d[0], d[1..]);
    assert d == [d[0]] + d[1..];
    if d[0].0 == k {
      KeysCons((k, v), d[1..]);
    } else {
      SetInPlace(d[1..], k, v);
      KeysCons(d[0], Set(d[1..], k, v));
    }
  }

  /** Setting a key other than the first leaves the first entry in front. */
  lemma SetHead<V>(d: Dict<V>, k: string, v: V)
    requires |d| > 0 && d[0].0 != k
    ensures |Set(d, k, v)| > 0 && Set(d, k, v)[0] == d[0]
  {
  }

  /** A new key goes to the end of the key list. */
  lemma SetKeys<V>(d: Dict<V>, k: string, v: V)
    ensures Keys(Set(d, k, v)) == if k in Keys(d) then Keys(d) else Keys(d) + [k]
  {
    if k !in Keys(d) {
      SetAppends(d, k, v);
      KeysAppend(d, (k, v));
    } else {
      SetInPlace(d, k, v);
    }
  }

  /** Setting a key keeps the keys distinct. */
  lemma SetDistinct<V>(d: Dict<V>, k: string, v: V)
    requires Distinct(Keys(d))
    ensures Distinct(Keys(Set(d, k, v)))
  {
    SetKeys(d, k, v);
    if k !in Keys(d) {
      var ks := Keys(d) + [k];
      forall i, j | 0 <= i < j < |ks| ensures ks[i] != ks[j] {
        if j == |ks| - 1 {
          assert ks[i] == Keys(d)[i];
        }
      }
    }
  }

  /** In a dict with distinct keys, every entry is what `Get` finds for its key. */
  lemma {:induction false} GetEntry<V>(d: Dict<V>, i: int)
    requires Distinct(Keys(d))
    requires 0 <= i < |d|
    ensures Get(d, d[i].0) == Some(d[i].1)
  {
    if i > 0 {
      assert d[0].0 == Keys(d)[0] != Keys(d)[i] == d[i].0;
      assert Keys(d[1..]) == Keys(d)[1..];
      GetEntry(d[1..], i - 1);
    }
  }
}

=== FILE: configfacts.dfy ===
/**
 * Facts about the configured tables of `Agent.FIELDS`: their output
 * columns carry no '#', are distinct, and never collide with the ticker or
 * timestamp columns.
 */
module ConfigFacts {
  import opened Assoc
  import opened Schema
  import opened Rows
  import opened RowFacts

  predicate FreshSeconds(pairs: seq<(string, string)>) {
    (forall i, j :: 0 <= i < j < |pairs| ==> pairs[i].1 != pairs[j].1)
    && forall i :: 0 <= i < |pairs| ==> pairs[i].1 != TickerColumn && pairs[i].1 != StampColumn
  }

  /** Root columns built from pairs with fresh, distinct names meet the root-table lemma's terms. */
  lemma RootPairsReady(pairs: seq<(string, string)>)
    requires HashFree(pairs) && FreshSeconds(pairs)
    ensures Paired(RootColumns(pairs)) && Fresh(RootNames(RootColumns(pairs)))
  {
    RootColumnsNames(pairs);
  }

  /** The basics columns are their pairs joined at '#'. */
  lemma BasicsColumns()
    ensures BasicsFields == RootColumns(BasicsPairs)
  {
    BasicsColumnsFront();
    BasicsColumnsMiddle();
    BasicsColumnsBack();
    var columns := RootColumns(BasicsPairs);
    assert |columns| == |BasicsFields| == 9;
    forall i | 0 <= i < 9 ensures columns[i] == BasicsFields[i] {
    }
  }

  lemma BasicsColumnsFront()
    ensures forall i :: 0 <= i < 3 ==> BasicsFields[i] == RootColumn(BasicsPairs[i].0, BasicsPairs[i].1)
  {
    assert BasicsFields[0] == RootColumn(BasicsPairs[0].0, BasicsPairs[0].1);
    assert BasicsFields[1] == RootColumn(BasicsPairs[1].0, BasicsPairs[1].1);
    assert BasicsFields[2] == RootColumn(BasicsPairs[2].0, BasicsPairs[2].1);
  }

  lemma BasicsColumnsMiddle()
    ensures forall i :: 3 <= i < 6 ==> BasicsFields[i] == RootColumn(BasicsPairs[i].0, BasicsPairs[i].1)
  {
    assert BasicsFields[3] == RootColumn(BasicsPairs[3].0, BasicsPairs[3].1);
    assert BasicsFields[4] == RootColumn(BasicsPairs[4].0, BasicsPairs[4].1);
    assert BasicsFields[5] == RootColumn(BasicsPairs[5].0, BasicsPairs[5].1);
  }

  lemma BasicsColumnsBack()
    ensures forall i :: 6 <= i < 9 ==> BasicsFields[i] == RootColumn(BasicsPairs[i].0, BasicsPairs[i].1)
  {
    assert BasicsFields[6] == RootColumn(BasicsPairs[6].0, BasicsPairs[6].1);
    assert BasicsFields[7] == RootColumn(BasicsPairs[7].0, BasicsPairs[7].1);
    assert BasicsFields[8] == RootColumn(BasicsPairs[8].0, BasicsPairs[8].1);
  }

  /** The dividends columns are their pairs joined at '#'. */
  lemma DividendsColumns()
    ensures DividendsFields == RootColumns(DividendsPairs)
  {
    DividendRateColumn();
    DividendYieldColumn();
    PayoutRatioColumn();
    var columns := RootColumns(DividendsPairs);
    assert |columns| == |DividendsFields| == 3;
    forall i | 0 <= i < 3 ensures columns[i] == DividendsFields[i] {
      assert columns[i] == RootColumn(DividendsPairs[i].0, DividendsPairs[i].1);
    }
  }

  lemma DividendRateColumn()
    ensures RootColumn("SplitsDividends::ForwardAnnualDividendRate", "ForwardAnnualDividendRate")
      == "SplitsDividends::ForwardAnnualDividendRate#ForwardAnnualDividendRate"
  {
  }

  lemma DividendYieldColumn()
    ensures RootColumn("SplitsDividends::ForwardAnnualDividendYield", "ForwardAnnualDividendYield")
      == "SplitsDividends::ForwardAnnualDividendYield#ForwardAnnualDividendYield"
  {
  }

  lemma PayoutRatioColumn()
    ensures RootColumn("SplitsDividends::PayoutRatio", "PayoutRatio") == "SplitsDividends::PayoutRatio#PayoutRatio"
  {
  }

  lemma BasicsNamesFresh()
    ensures FreshSeconds(BasicsPairs)
  {
  }

  lemma DividendsNamesFresh()
    ensures FreshSeconds(DividendsPairs)
  {
  }

  lemma PlainHalves(fields: seq<string>, k: nat)
    requires k <= |fields| && Plain(fields[..k]) && Plain(fields[k..])
    ensures Plain(fields)
  {
    forall i | 0 <= i < |fields| ensures NoHash(fields[i]) {
      if i < k {
        assert fields[..k][i] == fields[i];
      } else {
        assert fields[k..][i - k] == fields[i];
      }
    }
  }

  lemma EsgScoresClean()
    ensures Clean(EsgScoresFields)
  {
    assert NoHash("RatingDate") && NoHash("TotalEsg") && NoHash("TotalEsgPercentile") && NoHash("EnvironmentScore");
    assert NoHash("EnvironmentScorePercentile") && NoHash("GovernanceScore") && NoHash("GovernanceScorePercentile");
    assert NoHash("ControversyLevel") && NoHash("SocialScore") && NoHash("SocialScorePercentile");
  }

  lemma HighlightsPlainFront()
    ensures Plain(HighlightsFields[..12])
  {
    assert NoHash("EBITDA") && NoHash("PERatio") && NoHash("PEGRatio") && NoHash("WallStreetTargetPrice");
    assert NoHash("BookValue") && NoHash("DividendShare") && NoHash("DividendYield") && NoHash("EarningsShare");
    assert NoHash("EPSEstimateCurrentYear") && NoHash("EPSEstimateNextYear");
    assert NoHash("EPSEstimateNextQuarter") && NoHash("EPSEstimateCurrentQuarter");
  }

  lemma HighlightsPlainBack()
    ensures Plain(HighlightsFields[12..])
  {
    assert NoHash("MostRecentQuarter") && NoHash("ProfitMargin") && NoHash("OperatingMarginTTM") && NoHash("ReturnOnAssetsTTM");
    assert NoHash("ReturnOnEquityTTM") && NoHash("RevenueTTM") && NoHash("RevenuePerShareTTM");
    assert NoHash("QuarterlyRevenueGrowthYOY") && NoHash("GrossProfitTTM") && NoHash("DilutedEpsTTM");
    assert NoHash("QuarterlyEarningsGrowthYOY");
  }

  lemma HighlightsDistinctHalves()
    ensures Distinct(HighlightsFields[..12]) && Distinct(HighlightsFields[12..])
  {
  }

  lemma HighlightsDistinctAcross()
    ensures forall i, j :: 0 <= i < 12 <= j < |HighlightsFields| ==> HighlightsFields[i] != HighlightsFields[j]
  {
  }

  lemma DistinctHalves(names: seq<string>, k: nat)
    requires k <= |names| && Distinct(names[..k]) && Distinct(names[k..])
    requires forall i, j :: 0 <= i < k <= j < |names| ==> names[i] != names[j]
    ensures Distinct(names)
  {
    forall i, j | 0 <= i < j < |names| ensures names[i] != names[j] {
      if j < k {
        assert names[..k][i] == names[i] && names[..k][j] == names[j];
      } else if k <= i {
        assert names[k..][i - k] == names[i] && names[k..][j - k] == names[j];
      }
    }
  }

  lemma HighlightsUnframed()
    ensures forall i :: 0 <= i < |HighlightsFields| ==> HighlightsFields[i] != TickerColumn && HighlightsFields[i] != StampColumn
  {
  }

  lemma FreshFromParts(names: seq<string>)
    requires Distinct(names)
    requires forall i :: 0 <= i < |names| ==> names[i] != TickerColumn && names[i] != StampColumn
    ensures Fresh(names)
  {
  }

  lemma HighlightsFresh()
    ensures Fresh(HighlightsFields)
  {
    HighlightsDistinctHalves();
    HighlightsDistinctAcross();
    DistinctHalves(HighlightsFields, 12);
    HighlightsUnframed();
    FreshFromParts(HighlightsFields);
  }

  lemma HighlightsClean()
    ensures Clean(HighlightsFields)
  {
    HighlightsPlainFront();
    HighlightsPlainBack();
    PlainHalves(HighlightsFields, 12);
    HighlightsFresh();
  }

  lemma ValuationClean()
    ensures Clean(ValuationFields)
  {
    assert NoHash("TrailingPE") && NoHash("ForwardPE") && NoHash("PriceSalesTTM");
    assert NoHash("PriceBookMRQ") && NoHash("EnterpriseValueRevenue") && NoHash("EnterpriseValueEbitda");
  }

  lemma SharesStatsClean()
    ensures Clean(SharesStatsFields)
  {
    assert NoHash("SharesOutstanding") && NoHash("SharesFloat") && NoHash("SharesShortPriorMonth");
    assert NoHash("ShortRatio") && NoHash("ShortPercentOutstanding") && NoHash("ShortPercentFloat");
  }

  lemma KnownActivitiesFresh()
    ensures Fresh(KnownActivities)
  {
  }
}

=== FILE: isodate.dfy ===
/**
 * `datetime.strptime(value, "%Y-%m-%d")` on strings, following the regular
 * expressions CPython's `_strptime` compiles for the three directives:
 *   %Y  four digits
 *   %m  1[0-2] | 0[1-9] | [1-9]
 *   %d  3[01] | [12]digit | 0[1-9] | [1-9] | space[1-9]
 * The match is anchored at the start; text left after the day is rejected
 * ("unconverted data remains"), and the date must exist in the proleptic
 * Gregorian calendar with a year from 1 to 9999.
 */
module IsoDate {
  import opened Outcomes

  datatype Date = Date(year: int, month: int, day: int)

  predicate IsDigit(c: char) {
    '0' <= c <= '9'
  }

  function DigitValue(c: char): (n: int)
    requires IsDigit(c)
    ensures 0 <= n <= 9
  {
    c as int - '0' as int
  }

  function Digit(n: int): (c: char)
    requires 0 <= n <= 9
    ensures IsDigit(c) && DigitValue(c) == n
  {
    (n + '0' as int) as char
  }

  predicate IsLeap(y: int) {
    y % 4 == 0 && (y % 100 != 0 || y % 400 == 0)
  }

  function DaysInMonth(y: int, m: int): int
    requires 1 <= m <= 12
  {
    if m == 2 then (if IsLeap(y) then 29 else 28)
    else if m in {4, 6, 9, 11} then 30
    else 31
  }

  /** The dates `datetime.date(year, month, day)` accepts. */
  predicate Valid(d: Date) {
    && 1 <= d.year <= 9999
    && 1 <= d.month <= 12
    && 1 <= d.day <= DaysInMonth(d.year, d.month)
  }

  /**
   * The %m group followed by the literal '-': the month and the number of
   * characters the group took. The alternatives are tried in regex order.
   */
  function MonthField(r: string): (f: Option<(int, nat)>)
    ensures f.Some? ==> 1 <= f.value.0 <= 12 && 1 <= f.value.1 <= 2 && f.value.1 < |r| && r[f.value.1] == '-'
  {
    if |r| >= 3 && r[0] == '1' && '0' <= r[1] <= '2' && r[2] == '-' then Some((10 + DigitValue(r[1]), 2))
    else if |r| >= 3 && r[0] == '0' && '1' <= r[1] <= '9' && r[2] == '-' then Some((DigitValue(r[1]), 2))
    else if |r| >= 2 && '1' <= r[0] <= '9' && r[1] == '-' then Some((DigitValue(r[0]), 1))
    else None
  }

  /** The %d group: the first alternative matching a prefix of `r` wins. */
  function DayField(r: string): (f: Option<(int, nat)>)
    ensures f.Some? ==> 1 <= f.value.0 <= 31 && 1 <= f.value.1 <= 2 && f.value.1 <= |r|
  {
    if |r| >= 2 && r[0] == '3' && '0' <= r[1] <= '1' then Some((30 + DigitValue(r[1]), 2))
    else if |r| >= 2 && '1' <= r[0] <= '2' && IsDigit(r[1]) then Some((10 * DigitValue(r[0]) + DigitValue(r[1]), 2))
    else if |r| >= 2 && r[0] == '0' && '1' <= r[1] <= '9' then Some((DigitValue(r[1]), 2))
    else if |r| >= 1 && '1' <= r[0] <= '9' then Some((DigitValue(r[0]), 1))
    else if |r| >= 2 && r[0] == ' ' && '1' <= r[1] <= '9' then Some((DigitValue(r[1]), 2))
    else None
  }

  /** `strptime(s, "%Y-%m-%d")`: the parsed date, or None where Python raises ValueError. */
  function Strptime(s: string): (r: Option<Date>)
    ensures r.Some? ==> Valid(r.value)
  {
    if |s| < 5 || !IsDigit(s[0]) || !IsDigit(s[1]) || !IsDigit(s[2]) || !IsDigit(s[3]) || s[4] != '-' then None
    else
      var year := 1000 * DigitValue(s[0]) + 100 * DigitValue(s[1]) + 10 * DigitValue(s[2]) + DigitValue(s[3]);
      match MonthField(s[5..])
      case None => None
      case Some(mf) =>
        var rest := s[5 + mf.1 + 1..];
        match DayField(rest)
        case None => None
        case Some(df) =>
          if df.1 != |rest| then None
          else if Valid(Date(year, mf.0, df.0)) then Some(Date(year, mf.0, df.0))
          else None
  }

  // ---------------------------------------------------------------------
  // The accepted spellings of a date, as an independent description.

  function Year4(y: int): string
    requires 0 <= y <= 9999
  {
    var r1 := y % 1000;
    var r2 := r1 % 100;
    [Digit(y / 1000), Digit(r1 / 100), Digit(r2 / 10), Digit(r2 % 10)]
  }

  function Pad2(n: int): string
    requires 0 <= n <= 99
  {
    [Digit(n / 10), Digit(n % 10)]
  }

  /** Zero-padded, or a single digit below ten. */
  function MonthSpellings(m: int): set<string>
    requires 1 <= m <= 12
  {
    {Pad2(m)} + (if m <= 9 then {[Digit(m)]} else {})
  }

  /** Zero-padded, or below ten a single digit or a digit after one space. */
  function DaySpellings(d: int): set<string>
    requires 1 <= d <= 31
  {
    {Pad2(d)} + (if d <= 9 then {[Digit(d)], [' ', Digit(d)]} else {})
  }

  /** `s` writes the valid date `d` as year-month-day. */
  ghost predicate Spells(s: string, d: Date)
    requires Valid(d)
  {
    exists ms, ds :: ms in MonthSpellings(d.month) && ds in DaySpellings(d.day)
      && s == Year4(d.year) + "-" + ms + "-" + ds
  }

  /** The conventional zero-padded form. */
  function Format(d: Date): (s: string)
    requires Valid(d)
    ensures |s| == 10
  {
    Year4(d.year) + "-" + Pad2(d.month) + "-" + Pad2(d.day)
  }

  // ---------------------------------------------------------------------
  // Strptime accepts exactly the spellings of valid dates.

  lemma YearDigits(y: int)
    requires 0 <= y <= 9999
    ensures var t := Year4(y);
      1000 * DigitValue(t[0]) + 100 * DigitValue(t[1]) + 10 * DigitValue(t[2]) + DigitValue(t[3]) == y
  {
  }

  lemma DigitsYear(a: char, b: char, c: char, e: char)
    requires IsDigit(a) && IsDigit(b) && IsDigit(c) && IsDigit(e)
    ensures var y := 1000 * DigitValue(a) + 100 * DigitValue(b) + 10 * DigitValue(c) + DigitValue(e);
      0 <= y <= 9999 && Year4(y) == [a, b, c, e]
  {
    var y := 1000 * DigitValue(a) + 100 * DigitValue(b) + 10 * DigitValue(c) + DigitValue(e);
    var r1 := 100 * DigitValue(b) + 10 * DigitValue(c) + DigitValue(e);
    var r2 := 10 * DigitValue(c) + DigitValue(e);
    assert y / 1000 == DigitValue(a) && y % 1000 == r1;
    assert r1 / 100 == DigitValue(b) && r1 % 100 == r2;
    assert r2 / 10 == DigitValue(c) && r2 % 10 == DigitValue(e);
    DigitRoundTrip(a);
    DigitRoundTrip(b);
    DigitRoundTrip(c);
    DigitRoundTrip(e);
  }

  lemma DigitRoundTrip(c: char)
    requires IsDigit(c)
    ensures Digit(DigitValue(c)) == c
  {
  }

  lemma MonthFieldOfSpelling(m: int, ms: string, tail: string)
    requires 1 <= m <= 12 && ms in MonthSpellings(m)
    ensures MonthField(ms + "-" + tail) == Some((m, |ms|))
  {
    var r := ms + "-" + tail;
    if ms == Pad2(m) {
      assert r[0] == Digit(m / 10) && r[1] == Digit(m % 10) && r[2] == '-';
    } else {
      assert ms == [Digit(m)];
      assert r[0] == Digit(m) && r[1] == '-';
    }
  }

  lemma DayFieldOfSpelling(d: int, ds: string)
    requires 1 <= d <= 31 && ds in DaySpellings(d)
    ensures DayField(ds) == Some((d, |ds|))
  {
  }

  lemma StrptimeComplete(s: string, d: Date)
    requires Valid(d) && Spells(s, d)
    ensures Strptime(s) == Some(d)
  {
    var ms, ds :| ms in MonthSpellings(d.month) && ds in DaySpellings(d.day)
      && s == Year4(d.year) + "-" + ms + "-" + ds;
    StrptimeOfParts(d, ms, ds);
  }

  /** A year, a month spelling and a day spelling, joined by '-', parse back to the date. */
  lemma StrptimeOfParts(d: Date, ms: string, ds: string)
    requires Valid(d) && ms in MonthSpellings(d.month) && ds in DaySpellings(d.day)
    ensures Strptime(Year4(d.year) + "-" + ms + "-" + ds) == Some(d)
  {
    var y := Year4(d.year);
    var s := y + "-" + ms + "-" + ds;
    assert s[..4] == y && s[4] == '-';
    assert s[0] == y[0] && s[1] == y[1] && s[2] == y[2] && s[3] == y[3];
    YearDigits(d.year);
    var tail := ms + "-" + ds;
    assert s == (y + "-") + tail;
    DropFront(y + "-", tail);
    MonthFieldOfSpelling(d.month, ms, ds);
    assert s[5 + |ms| + 1..] == ds;
    DayFieldOfSpelling(d.day, ds);
  }

  lemma DropFront(a: string, b: string)
    ensures (a + b)[|a|..] == b
  {
  }

  lemma SpellingOfMonthField(r: string)
    requires MonthField(r).Some?
    ensures r[..MonthField(r).value.1] in MonthSpellings(MonthField(r).value.0)
  {
    var m := MonthField(r).value.0;
    var ms := r[..MonthField(r).value.1];
    if MonthField(r).value.1 == 2 {
      DigitRoundTrip(r[1]);
      assert ms == Pad2(m);
    } else {
      DigitRoundTrip(r[0]);
      assert ms == [Digit(m)];
    }
  }

  lemma SpellingOfDayField(r: string)
    requires DayField(r).Some? && DayField(r).value.1 == |r|
    ensures r in DaySpellings(DayField(r).value.0)
  {
    var d := DayField(r).value.0;
    if |r| == 2 {
      DigitRoundTrip(r[1]);
      if r[0] == ' ' {
        assert r == [' ', Digit(d)];
      } else {
        DigitRoundTrip(r[0]);
        assert r == Pad2(d);
      }
    } else {
      DigitRoundTrip(r[0]);
      assert r == [Digit(d)];
    }
  }

  lemma {:induction false} StrptimeSound(s: string, d: Date)
    requires Strptime(s) == Some(d)
    ensures Valid(d) && Spells(s, d)
  {
    DigitsYear(s[0], s[1], s[2], s[3]);
    var r := s[5..];
    var mf := MonthField(r).value;
    var ms := r[..mf.1];
    var rest := s[5 + mf.1 + 1..];
    SpellingOfMonthField(r);
    SpellingOfDayField(rest);
    assert s[..4] == Year4(d.year);
    assert s == s[..4] + "-" + ms + "-" + rest;
  }

  /** A string parses to `d` exactly when `d` exists and the string spells it. */
  lemma StrptimeSpells(s: string, d: Date)
    ensures Strptime(s) == Some(d) <==> Valid(d) && Spells(s, d)
  {
    if Strptime(s) == Some(d) {
      StrptimeSound(s, d);
    }
    if Valid(d) && Spells(s, d) {
      StrptimeComplete(s, d);
    }
  }

  /** The zero-padded form of a valid date parses back to it. */
  lemma FormatRoundTrip(d: Date)
    requires Valid(d)
    ensures Strptime(Format(d)) == Some(d)
  {
    assert Pad2(d.month) in MonthSpellings(d.month);
    assert Pad2(d.day) in DaySpellings(d.day);
    StrptimeComplete(Format(d), d);
  }
}

=== FILE: normalise.dfy ===
/**
 * `Agent.valcheck`: the value normalisation every configured field goes
 * through. `float(str)` is CPython's own parser and is left as the parameter
 * `parse`: Some(x) where it returns x, None where it raises ValueError.
 */
module Normalise {
  import opened Outcomes
  import opened PyJson
  import opened IsoDate
  import opened Rounding

  /**
   * `value in ["NA", "NaN", "", 0, "0", None]`. Python compares with `==`,
   * so False and 0.0 are caught by the 0.
   */
  predicate IsSentinel(v: Json) {
    match v
    case JNull => true
    case JBool(b) => !b
    case JInt(i) => i == 0
    case JFloat(f) => f == Finite(0.0)
    case JStr(s) => s == "NA" || s == "NaN" || s == "" || s == "0"
    case _ => false
  }

  /** A string `strptime(_, "%Y-%m-%d")` accepts whose year is at least 1900. */
  predicate IsModernDate(v: Json) {
    v.JStr? && Strptime(v.s).Some? && Strptime(v.s).value.year >= 1900
  }

  /** An integer `float()` raises OverflowError on. */
  predicate TooBigForFloat(v: Json) {
    v.JInt? && !(-FloatLimit < v.i < FloatLimit)
  }

  function Valcheck(parse: string -> Option<Float>, v: Json, date: bool): (r: Result<Json>)
    // the only exception: float() of a huge integer on a non-date field
    ensures r.Err? <==> !date && !IsSentinel(v) && TooBigForFloat(v)
    ensures r.Err? ==> r.error == OverflowError
    // date fields keep a valid modern date verbatim and null out everything else
    ensures date ==> r == Ok(if !IsSentinel(v) && IsModernDate(v) then v else JNull)
    // a non-date field is null exactly for the sentinels
    ensures !date && r.Ok? ==> (r.value == JNull <==> IsSentinel(v))
    // a non-date value that changes becomes a float rounded to four places
    ensures !date && r.Ok? && !IsSentinel(v) && r.value != v ==>
      r.value.JFloat? && (r.value.f.Finite? ==> FourPlaces(r.value.f.r))
    // strings change only when float() accepts them, integers always become floats
    ensures !date && v.JStr? && !IsSentinel(v) ==> (r == Ok(v) <==> parse(v.s).None?)
    // a string float() accepts becomes that number rounded to four places
    ensures !date && v.JStr? && !IsSentinel(v) && parse(v.s).Some? ==> r == Ok(JFloat(RoundFloat(parse(v.s).value)))
    // an integer becomes the nearest double, which is already integral
    ensures !date && v.JInt? && r.Ok? && !IsSentinel(v) ==> r.value == JFloat(Finite(NearestDouble(v.i) as real))
    // bool is a subclass of int: True becomes 1.0
    ensures !date && v == JBool(true) ==> r == Ok(JFloat(Finite(1.0)))
    // floats and containers pass through unrounded
    ensures !date && (v.JFloat? || v.JArr? || v.JObj?) ==> r == Ok(if IsSentinel(v) then JNull else v)
  {
    if IsSentinel(v) then Ok(JNull)
    else if date then
      (match v
       case JStr(s) =>
         (match Strptime(s)
          case Some(d) => if d.year < 1900 then Ok(JNull) else Ok(v)
          case None => Ok(JNull))
       case _ => Ok(JNull))
    else
      match v
      case JStr(s) =>
        (match parse(s)
         case Some(f) => Ok(JFloat(RoundFloat(f)))
         case None => Ok(v))
      case JInt(i) =>
        var f :- IntToFloat(i);
        RoundIntegral(NearestDouble(i));
        Ok(JFloat(RoundFloat(f)))
      case JBool(b) =>
        Ok(JFloat(RoundFloat(Finite(if b then 1.0 else 0.0))))
      case _ => Ok(v)
  }

  /** Normalising a date field a second time changes nothing. */
  lemma DateIdempotent(parse: string -> Option<Float>, v: Json)
    ensures Valcheck(parse, v, true).Ok?
    ensures Valcheck(parse, Valcheck(parse, v, true).value, true) == Valcheck(parse, v, true)
  {
  }

  /**
   * A second pass over a non-date result changes nothing, except that a
   * string rounding to 0.0 comes back as 0.0 and then reads as the sentinel 0.
   */
  lemma NonDateSettles(parse: string -> Option<Float>, v: Json)
    requires Valcheck(parse, v, false).Ok?
    ensures var w := Valcheck(parse, v, false).value;
      Valcheck(parse, w, false) == Ok(if w == JFloat(Finite(0.0)) then JNull else w)
  {
  }

  /** "0" is a sentinel but "0.0" is a number, so the two spellings of zero differ. */
  lemma ZeroSpellings(parse: string -> Option<Float>)
    requires parse("0.0") == Some(Finite(0.0))
    ensures Valcheck(parse, JStr("0"), false) == Ok(JNull)
    ensures Valcheck(parse, JStr("0.0"), false) == Ok(JFloat(Finite(0.0)))
    ensures Valcheck(parse, JFloat(Finite(0.0)), false) == Ok(JNull)
  {
    assert !IsSentinel(JStr("0.0"));
  }

  /** An integer far beyond 2^53 but inside the double range converts: `valcheck(2**1000)` is a float. */
  lemma LargeIntegerConverts(parse: string -> Option<Float>)
    ensures Valcheck(parse, JInt(Pow2(1000)), false).Ok?
  {
    LargePowerConverts();
  }

  /** Examples of numeric normalisation. */
  lemma NumericExamples(parse: string -> Option<Float>)
    requires parse("12.34567") == Some(Finite(12.34567))
    requires parse("N/A-ish") == None
    ensures Valcheck(parse, JStr("12.34567"), false) == Ok(JFloat(Finite(12.3457)))
    ensures Valcheck(parse, JInt(7), false) == Ok(JFloat(Finite(7.0)))
    ensures Valcheck(parse, JStr("N/A-ish"), false) == Ok(JStr("N/A-ish"))
    ensures Valcheck(parse, JBool(true), false) == Ok(JFloat(Finite(1.0)))
  {
    assert !IsSentinel(JStr("12.34567"));
    assert !IsSentinel(JStr("N/A-ish"));
    assert (12.34567 * 10000.0).Floor == 123456;
    NearestDoubleExact(7);
  }

  /** A day-before-1900 date parses but is nulled. */
  lemma DateBefore1900(parse: string -> Option<Float>)
    ensures Valcheck(parse, JStr("1899-12-31"), true) == Ok(JNull)
  {
    var d := Date(1899, 12, 31);
    assert Year4(1899) == "1899";
    assert Pad2(12) == "12" && Pad2(31) == "31";
    assert Format(d) == "1899-12-31";
    FormatRoundTrip(d);
  }

  /** The first day of 1900 is kept verbatim. */
  lemma DateFrom1900(parse: string -> Option<Float>)
    ensures Valcheck(parse, JStr("1900-01-01"), true) == Ok(JStr("1900-01-01"))
  {
    var d := Date(1900, 1, 1);
    assert Year4(1900) == "1900";
    assert Pad2(1) == "01";
    assert Format(d) == "1900-01-01";
    FormatRoundTrip(d);
    assert !IsSentinel(JStr("1900-01-01"));
  }

  /** Text that is not a date, and non-string values, are nulled. */
  lemma NotADate(parse: string -> Option<Float>)
    ensures Valcheck(parse, JStr("not-a-date"), true) == Ok(JNull)
    ensures Valcheck(parse, JInt(20240101), true) == Ok(JNull)
  {
    assert !IsSentinel(JStr("not-a-date"));
    assert !IsDigit("not-a-date"[0]);
  }
}

=== FILE: outcomes.dfy ===
/** Option and Result types, with the Python exception kinds the transformer can raise. */
module Outcomes {

  datatype Option<+T> = None | Some(value: T) {
    function GetOr(default: T): T {
      match this
      case Some(v) => v
      case None => default
    }
  }

  /** The exception classes a transformer run can end with. */
  datatype Error =
    | KeyError(key: string)   // missing dict key (the key is kept when it is a string)
    | TypeError               // `in` or `[]` applied to a value that does not support it
    | ValueError              // a field spec that does not unpack into two names
    | IndexError              // list index out of range, or a missing `#` part
    | AttributeError          // `.items()` on a value that is not a dict
    | OverflowError           // float() of an integer beyond the double range

  /** A computation that either returns a value or raises. Usable with `:-`. */
  datatype Result<+T> = Ok(value: T) | Err(error: Error) {
    predicate IsFailure() {
      Err?
    }

    /** `:-` calls this on failures only; it is total so that a `:-` that cannot fail leaves no dead check. */
    function PropagateFailure<U>(): Result<U>
    {
      match this
      case Err(e) => Err(e)
      case Ok(_) => Err(TypeError)
    }

    function Extract(): T
      requires Ok?
    {
      value
    }
  }
}

=== FILE: pyjson.dfy ===
/**
 * Decoded JSON values and the few Python operations the transformer applies
 * to them: truthiness, `key in x`, `x[key]`, `len(x)` and list indexing.
 * An object's field list stands for a Python dict, so its keys are distinct.
 */
module PyJson {
  import opened Outcomes
  import opened Assoc

  /** A Python float: a finite value, an infinity, or NaN. */
  datatype Float = Finite(r: real) | Infinite(negative: bool) | NaN

  datatype Json =
    | JNull
    | JBool(b: bool)
    | JInt(i: int)
    | JFloat(f: Float)
    | JStr(s: string)
    | JArr(items: seq<Json>)
    | JObj(fields: Dict<Json>)

  /** Python's `bool(v)`: None, False, zero and empty containers are false; NaN is true. */
  predicate Truthy(v: Json) {
    match v
    case JNull => false
    case JBool(b) => b
    case JInt(i) => i != 0
    case JFloat(f) => f != Finite(0.0)
    case JStr(s) => |s| > 0
    case JArr(items) => |items| > 0
    case JObj(fields) => |fields| > 0
  }

  /** Python's `p in s` on two strings. */
  predicate Substring(p: string, s: string) {
    p <= s || (|s| > 0 && Substring(p, s[1..]))
  }

  /** Python's `key in container` for a string key. */
  function Contains(container: Json, key: string): (r: Result<bool>)
    ensures r.Err? <==> !(container.JObj? || container.JArr? || container.JStr?)
    ensures container.JObj? ==> r == Ok(key in Keys(container.fields))
    ensures container.JArr? ==> r == Ok(JStr(key) in container.items)
  {
    match container
    case JObj(fields) => Ok(key in Keys(fields))
    case JArr(items) => Ok(JStr(key) in items)
    case JStr(s) => Ok(Substring(key, s))
    case _ => Err(TypeError)
  }

  /** Python's `container[key]` for a string key: only a dict holding the key answers. */
  function Subscript(container: Json, key: string): (r: Result<Json>)
    ensures r.Ok? <==> container.JObj? && key in Keys(container.fields)
    ensures r.Ok? ==> (key, r.value) in container.fields
    ensures container.JObj? && r.Err? ==> r.error == KeyError(key)
  {
    match container
    case JObj(fields) =>
      (match Get(fields, key)
       case Some(v) => Ok(v)
       case None => Err(KeyError(key)))
    case _ => Err(TypeError)
  }

  /** Python's `len(v)`. */
  function Len(v: Json): (r: Result<nat>)
    ensures r.Ok? <==> v.JObj? || v.JArr? || v.JStr?
    ensures r == Ok(0) <==> v in {JObj([]), JArr([]), JStr([])}
  {
    match v
    case JObj(fields) => Ok(|fields|)
    case JArr(items) => Ok(|items|)
    case JStr(s) => Ok(|s|)
    case _ => Err(TypeError)
  }

  /** Python's `items[i]` for a list and an index that is itself a decoded value. */
  function ListIndex(items: seq<Json>, i: Json): (r: Result<Json>)
    ensures r.Ok? ==> r.value in items
    ensures !(i.JInt? || i.JBool?) ==> r == Err(TypeError)
  {
    var n :- match i
      case JInt(n) => Ok(n)
      case JBool(b) => Ok(if b then 1 else 0)
      case _ => Err(TypeError);
    if 0 <= n < |items| then Ok(items[n])
    else if -|items| <= n < 0 then Ok(items[|items| + n])
    else Err(IndexError)
  }

  /** For a dict, `key in d` and `d[key]` agree; no other value answers `d[key]`. */
  lemma SubscriptAgreesWithContains(container: Json, key: string)
    ensures Subscript(container, key).Ok? <==> container.JObj? && Contains(container, key) == Ok(true)
  {
  }

  /** Every character of `p` occurs in any string containing `p`. */
  lemma {:induction false} SubstringChars(p: string, s: string)
    requires Substring(p, s)
    ensures forall c :: c in p ==> c in s
  {
    if p <= s {
      forall c | c in p ensures c in s {
        var i :| 0 <= i < |p| && p[i] == c;
        assert s[i] == c;
      }
    } else {
      SubstringChars(p, s[1..]);
      forall c | c in p ensures c in s {
        assert c in s[1..];
        var i :| 0 <= i < |s[1..]| && s[1..][i] == c;
        assert s[i + 1] == c;
      }
    }
  }

  /** `p in s` holds exactly when `p` occurs at some offset of `s`. */
  lemma {:induction false} SubstringAt(p: string, s: string)
    ensures Substring(p, s) <==> exists i :: 0 <= i <= |s| - |p| && p <= s[i..]
  {
    if p <= s {
      assert p <= s[0..];
    } else if |s| > 0 {
      SubstringAt(p, s[1..]);
      if Substring(p, s[1..]) {
        var i :| 0 <= i <= |s[1..]| - |p| && p <= s[1..][i..];
        assert s[1..][i..] == s[i + 1..];
      }
      if exists i :: 0 <= i <= |s| - |p| && p <= s[i..] {
        var i :| 0 <= i <= |s| - |p| && p <= s[i..];
        assert i != 0;
        assert s[1..][i - 1..] == s[i..];
      }
    }
  }
}

=== FILE: rounding.dfy ===
/**
 * The numeric conversions `valcheck` applies: `round(x, 4)` and `float(n)`
 * for an integer `n`. Finite floats are modelled as exact reals, and an
 * integer converts to the nearest double, written as an integer.
 */
module Rounding {
  import opened Outcomes
  import opened PyJson

  /** `r` has at most four decimal places. */
  predicate FourPlaces(r: real) {
    (r * 10000.0).Floor as real == r * 10000.0
  }

  /** `round(x, 4)`: the nearest multiple of 0.0001, ties to the even multiple. */
  function Round4(x: real): (r: real)
    ensures FourPlaces(r)
    ensures -0.00005 <= r - x <= 0.00005
    ensures FourPlaces(x) ==> r == x
    ensures r - x == 0.00005 || x - r == 0.00005 ==> (r * 10000.0).Floor % 2 == 0
  {
    var scaled := x * 10000.0;
    var n := scaled.Floor;
    var frac := scaled - n as real;
    var q := if frac > 0.5 then n + 1
             else if frac < 0.5 then n
             else if n % 2 == 0 then n
             else n + 1;
    q as real / 10000.0
  }

  /** `round(f, 4)` on a Python float: infinities and NaN come back unchanged. */
  function RoundFloat(f: Float): (g: Float)
    ensures f.Finite? <==> g.Finite?
    ensures f.Finite? ==> FourPlaces(g.r) && -0.00005 <= g.r - f.r <= 0.00005
    ensures f.Finite? && (g.r - f.r == 0.00005 || f.r - g.r == 0.00005) ==> (g.r * 10000.0).Floor % 2 == 0
    ensures !f.Finite? ==> g == f
  {
    match f
    case Finite(r) => Finite(Round4(r))
    case _ => f
  }

  /**
   * 2^1024 - 2^970: the least integer magnitude that `float()` rounds past the
   * largest double, so converting it raises OverflowError.
   */
  const FloatLimit: int := 0xfffffffffffffc00000000000000000000000000000000000000000000000000000000000000000000000000000000000000000000000000000000000000000000000000000000000000000000000000000000000000000000000000000000000000000000000000000000000000000000000000000000000000000000000000

  /** 2^n. */
  function Pow2(n: nat): (p: nat)
    ensures p >= 1
  {
    if n == 0 then 1 else 2 * Pow2(n - 1)
  }

  /** The number of binary digits of `a`. */
  function BitLength(a: nat): (n: nat)
    ensures n == 0 <==> a == 0
    ensures n > 0 ==> Pow2(n - 1) <= a < Pow2(n)
  {
    if a == 0 then 0 else 1 + BitLength(a / 2)
  }

  /** The gap between neighbouring doubles around a magnitude of `a`: 53 significant bits. */
  function Spacing(a: nat): (p: nat)
    ensures p >= 1
  {
    var n := BitLength(a);
    if n <= 53 then 1 else Pow2(n - 53)
  }

  /** The multiple of `p` nearest to `a`, as its quotient; ties go to the even quotient. */
  function RoundQuotient(a: nat, p: nat): (k: nat)
    requires p >= 1
    ensures 2 * (k * p - a) <= p && 2 * (a - k * p) <= p
    ensures 2 * (k * p - a) == p || 2 * (a - k * p) == p ==> k % 2 == 0
  {
    var q := a / p;
    var rem := a % p;
    DivMod(a, p);
    NextMultiple(q, p);
    if 2 * rem > p || (2 * rem == p && q % 2 == 1) then q + 1 else q
  }

  lemma DivMod(a: nat, p: nat)
    requires p >= 1
    ensures a == (a / p) * p + a % p && 0 <= a % p < p
  {
  }

  lemma NextMultiple(q: nat, p: nat)
    ensures (q + 1) * p == q * p + p
  {
  }

  /**
   * The double nearest to the integer `i`, as an integer: the nearest
   * multiple of the spacing at `i`'s magnitude, ties to the even multiple.
   */
  function NearestDouble(i: int): (d: int)
    ensures var a := if i < 0 then -i else i;
      2 * (d - i) <= Spacing(a) && 2 * (i - d) <= Spacing(a)
    ensures i >= 0 ==> d >= 0
    ensures i < 0 ==> d <= 0
  {
    var a := if i < 0 then -i else i;
    var m := RoundQuotient(a, Spacing(a)) * Spacing(a);
    if i < 0 then -m else m
  }

  /** 2^53: up to this magnitude every integer is a double. */
  const ExactLimit: int := 0x20_0000_0000_0000

  /** `float(i)` for an integer: the nearest double, or OverflowError past the largest one. */
  function IntToFloat(i: int): (r: Result<Float>)
    ensures r.Ok? <==> -FloatLimit < i < FloatLimit
    ensures r.Ok? ==> r.value == Finite(NearestDouble(i) as real)
    ensures r.Err? ==> r.error == OverflowError
  {
    if -FloatLimit < i < FloatLimit then Ok(Finite(NearestDouble(i) as real)) else Err(OverflowError)
  }

  lemma {:induction false} Pow2Monotone(m: nat, n: nat)
    requires m <= n
    ensures Pow2(m) <= Pow2(n)
    decreases n
  {
    if m < n {
      Pow2Monotone(m, n - 1);
    }
  }

  /** The binary digits of `a` are fixed by the powers of two around it. */
  lemma BitLengthOf(a: nat, n: nat)
    requires n > 0 && Pow2(n - 1) <= a < Pow2(n)
    ensures BitLength(a) == n
  {
    var m := BitLength(a);
    if m < n {
      Pow2Monotone(m, n - 1);
    } else if m > n {
      Pow2Monotone(n, m - 1);
    }
  }

  lemma Pow2Exact()
    ensures Pow2(16) == 0x1_0000
    ensures Pow2(53) == ExactLimit
  {
    assert Pow2(4) == 16;
    assert Pow2(8) == 256;
    assert Pow2(12) == 4096;
    assert Pow2(16) == 0x1_0000;
    assert Pow2(20) == 0x10_0000;
    assert Pow2(24) == 0x100_0000;
    assert Pow2(28) == 0x1000_0000;
    assert Pow2(32) == 0x1_0000_0000;
    assert Pow2(36) == 0x10_0000_0000;
    assert Pow2(40) == 0x100_0000_0000;
    assert Pow2(44) == 0x1000_0000_0000;
    assert Pow2(48) == 0x1_0000_0000_0000;
    assert Pow2(52) == 0x10_0000_0000_0000;
  }

  lemma {:induction false} Pow2Add(m: nat, n: nat)
    ensures Pow2(m + n) == Pow2(m) * Pow2(n)
    decreases n
  {
    if n > 0 {
      Pow2Add(m, n - 1);
      assert Pow2(m + n) == 2 * Pow2(m + (n - 1));
    }
  }

  /** Two known powers of two multiply to the power of their exponents' sum. */
  lemma Pow2Sum(m: nat, n: nat, a: nat, b: nat)
    requires Pow2(m) == a && Pow2(n) == b
    ensures Pow2(m + n) == a * b
  {
    Pow2Add(m, n);
  }

  lemma Pow2Of106()
    ensures Pow2(106) == 0x400000000000000000000000000
  {
    Pow2Exact();
    Pow2Sum(53, 53, ExactLimit, ExactLimit);
  }

  lemma Pow2Of212()
    ensures Pow2(212) == 0x100000000000000000000000000000000000000000000000000000
  {
    Pow2Of106();
    Pow2Sum(106, 106, 0x400000000000000000000000000, 0x400000000000000000000000000);
  }

  lemma Pow2Of424()
    ensures Pow2(424) == 0x10000000000000000000000000000000000000000000000000000000000000000000000000000000000000000000000000000000000
  {
    Pow2Of212();
    Pow2Sum(212, 212, 0x100000000000000000000000000000000000000000000000000000, 0x100000000000000000000000000000000000000000000000000000);
  }

  lemma Pow2Of848()
    ensures Pow2(848) == 0x100000000000000000000000000000000000000000000000000000000000000000000000000000000000000000000000000000000000000000000000000000000000000000000000000000000000000000000000000000000000000000000000000000000000000000000
  {
    Pow2Of424();
    Pow2Sum(424, 424, 0x10000000000000000000000000000000000000000000000000000000000000000000000000000000000000000000000000000000000, 0x10000000000000000000000000000000000000000000000000000000000000000000000000000000000000000000000000000000000);
  }

  lemma Pow2Of970()
    ensures Pow2(970) == 0x400000000000000000000000000000000000000000000000000000000000000000000000000000000000000000000000000000000000000000000000000000000000000000000000000000000000000000000000000000000000000000000000000000000000000000000000000000000000000000000000000
  {
    Pow2Of848();
    Pow2Of106();
    Pow2Exact();
    Pow2Sum(848, 106, 0x100000000000000000000000000000000000000000000000000000000000000000000000000000000000000000000000000000000000000000000000000000000000000000000000000000000000000000000000000000000000000000000000000000000000000000000, 0x400000000000000000000000000);
    Pow2Sum(954, 16, 0x40000000000000000000000000000000000000000000000000000000000000000000000000000000000000000000000000000000000000000000000000000000000000000000000000000000000000000000000000000000000000000000000000000000000000000000000000000000000000000000000, 0x1_0000);
  }

  /** FloatLimit is 2^1024 - 2^970. */
  lemma FloatLimitValue()
    ensures FloatLimit == Pow2(1024) - Pow2(970)
  {
    Pow2Of970();
    Pow2Exact();
    assert Pow2(54) == 2 * ExactLimit;
    Pow2Sum(970, 54, 0x400000000000000000000000000000000000000000000000000000000000000000000000000000000000000000000000000000000000000000000000000000000000000000000000000000000000000000000000000000000000000000000000000000000000000000000000000000000000000000000000000, 2 * ExactLimit);
  }

  /** The powers of two that bound the top binade of doubles. */
  lemma Pow2TopBinade()
    ensures Pow2(971) == 2 * Pow2(970)
    ensures Pow2(1023) == Pow2(970) * ExactLimit
    ensures Pow2(1024) == Pow2(970) * (2 * ExactLimit)
  {
    Pow2Of970();
    Pow2Exact();
    Pow2Sum(970, 53, 0x400000000000000000000000000000000000000000000000000000000000000000000000000000000000000000000000000000000000000000000000000000000000000000000000000000000000000000000000000000000000000000000000000000000000000000000000000000000000000000000000000, ExactLimit);
    assert Pow2(1024) == 2 * Pow2(1023);
  }

  /** In the top binade, [2^1023, 2^1024), neighbouring doubles are 2^971 apart. */
  lemma SpacingTop(a: nat)
    requires Pow2(1023) <= a < Pow2(1024)
    ensures Spacing(a) == Pow2(971)
  {
    BitLengthOf(a, 1024);
  }

  lemma FloatLimitBinade()
    ensures Pow2(1023) <= FloatLimit - 1 && FloatLimit < Pow2(1024)
  {
    FloatLimitValue();
    Pow2TopBinade();
  }

  /** Division is fixed by any quotient and remainder that rebuild the dividend. */
  lemma DivUnique(a: nat, p: nat, q: nat, r: nat)
    requires p >= 1 && r < p && a == q * p + r
    ensures a / p == q && a % p == r
  {
    DivMod(a, p);
    var d := a / p;
    if d > q {
      MulMonotone(q + 1, d, p);
      NextMultiple(q, p);
    } else if d < q {
      MulMonotone(d + 1, q, p);
      NextMultiple(d, p);
    }
  }

  lemma MulMonotone(x: nat, y: nat, p: nat)
    requires x <= y
    ensures x * p <= y * p
  {
  }

  /**
   * Halfway between the odd multiple `q * p` and the next, rounding goes up
   * to the even quotient; one below halfway it stays at `q`.
   */
  lemma TieRounds(q: nat, p: nat)
    requires p >= 2 && p % 2 == 0 && q % 2 == 1
    ensures RoundQuotient(q * p + p / 2, p) == q + 1
    ensures RoundQuotient(q * p + p / 2 - 1, p) == q
  {
    DivUnique(q * p + p / 2, p, q, p / 2);
    DivUnique(q * p + p / 2 - 1, p, q, p / 2 - 1);
  }

  /** FloatLimit - 1 lies below the tie and FloatLimit on it, where the even quotient 2^53 wins. */
  lemma TopQuotients()
    ensures RoundQuotient(FloatLimit - 1, Pow2(971)) == ExactLimit - 1
    ensures RoundQuotient(FloatLimit, Pow2(971)) == ExactLimit
  {
    var p := Pow2(971);
    Pow2TopBinade();
    FloatLimitValue();
    assert FloatLimit == (ExactLimit - 1) * p + p / 2;
    TieRounds(ExactLimit - 1, p);
  }

  /** One below FloatLimit rounds to the largest double, 2^1024 - 2^971. */
  lemma BelowFloatLimit()
    ensures NearestDouble(FloatLimit - 1) == Pow2(1024) - Pow2(971)
  {
    var p := Pow2(971);
    FloatLimitBinade();
    SpacingTop(FloatLimit - 1);
    TopQuotients();
    assert NearestDouble(FloatLimit - 1) == (ExactLimit - 1) * p;
    Pow2TopBinade();
  }

  /** FloatLimit is the tie between the largest double and 2^1024, and goes to the even 2^1024, past the range. */
  lemma AtFloatLimit()
    ensures NearestDouble(FloatLimit) == Pow2(1024)
  {
    var p := Pow2(971);
    FloatLimitBinade();
    SpacingTop(FloatLimit);
    TopQuotients();
    assert NearestDouble(FloatLimit) == ExactLimit * p;
    Pow2TopBinade();
  }

  /** 2^1000 is well inside the double range, so `float(2**1000)` succeeds. */
  lemma LargePowerConverts()
    ensures IntToFloat(Pow2(1000)).Ok?
  {
    Pow2Monotone(1000, 1023);
    Pow2TopBinade();
    FloatLimitValue();
  }

  /** Integers up to 2^53 in magnitude convert exactly. */
  lemma NearestDoubleExact(i: int)
    requires -ExactLimit <= i <= ExactLimit
    ensures NearestDouble(i) == i
  {
    if -ExactLimit < i < ExactLimit {
      NearestDoubleBelow(i);
    } else {
      LimitExact();
    }
  }

  /** Below 2^53 in magnitude the spacing is 1, so nothing is rounded. */
  lemma NearestDoubleBelow(i: int)
    requires -ExactLimit < i < ExactLimit
    ensures NearestDouble(i) == i
  {
    var a := if i < 0 then -i else i;
    SpacingBelow(a);
    UnitSpacing(a);
  }

  /** 2^53 itself is even, so it stays put at spacing 2. */
  lemma LimitExact()
    ensures NearestDouble(ExactLimit) == ExactLimit
    ensures NearestDouble(-ExactLimit) == -ExactLimit
  {
    SpacingAtLimit();
    EvenAtSpacingTwo(ExactLimit);
  }

  lemma UnitSpacing(a: nat)
    ensures RoundQuotient(a, 1) * 1 == a
  {
  }

  lemma EvenAtSpacingTwo(a: nat)
    requires a % 2 == 0
    ensures RoundQuotient(a, 2) * 2 == a
  {
  }

  /** Below 2^53 the spacing is 1. */
  lemma SpacingBelow(a: nat)
    requires a < ExactLimit
    ensures Spacing(a) == 1
  {
    Pow2Exact();
    var n := BitLength(a);
    if n > 53 {
      Pow2Monotone(53, n - 1);
    }
  }

  /** At 2^53 the spacing is 2. */
  lemma SpacingAtLimit()
    ensures Spacing(ExactLimit) == 2
  {
    Pow2Exact();
    BitLengthOf(ExactLimit, 54);
  }

  /** 2^53 + 1 is the first integer that is not a double: it rounds down to the even 2^53. */
  lemma FirstInexact()
    ensures NearestDouble(ExactLimit + 1) == ExactLimit
  {
    Pow2Exact();
    BitLengthOf(ExactLimit + 1, 54);
    assert Spacing(ExactLimit + 1) == 2;
  }

  /** Rounding an integral value to four places leaves it unchanged. */
  lemma RoundIntegral(i: int)
    ensures Round4(i as real) == i as real
  {
    assert FourPlaces(i as real) by {
      assert ((i as real) * 10000.0).Floor == i * 10000;
    }
  }

  /** Exact halves go to the even neighbour, as Python's round does. */
  lemma RoundHalfEven()
    ensures Round4(0.00005) == 0.0
    ensures Round4(0.00015) == 0.0002
    ensures Round4(-0.00005) == 0.0
    ensures Round4(0.03125) == 0.0312
  {
    assert (0.00005 * 10000.0).Floor == 0;
    assert (0.00015 * 10000.0).Floor == 1;
    assert (-0.00005 * 10000.0).Floor == -1;
    assert (0.03125 * 10000.0).Floor == 312;
  }
}

=== FILE: rowfacts.dfy ===
/**
 * What each row builder produces: its exact column list, the value each
 * column holds, and the behaviour for absent sections.
 */
module RowFacts {
  import opened Outcomes
  import opened Assoc
  import opened PyJson
  import opened Normalise
  import opened Schema
  import opened Rows

  /** No '#' in `s`, stated index by index. */
  predicate NoHash(s: string) {
    forall i :: 0 <= i < |s| ==> s[i] != '#'
  }

  /** Field names with no '#', so each is its own source key and output name. */
  predicate Plain(fields: seq<string>) {
    forall i :: 0 <= i < |fields| ==> NoHash(fields[i])
  }

  /** Distinct column names, neither of them a column every row already has. */
  predicate Fresh(names: seq<string>) {
    Distinct(names) && TickerColumn !in names && StampColumn !in names
  }

  /** None of `names` is the key of the row's first entry. */
  predicate KeepsHead(row: Row, names: seq<string>) {
    |row| > 0 && forall i :: 0 <= i < |names| ==> names[i] != row[0].0
  }

  predicate Disjoint(names: seq<string>, row: Row) {
    forall i :: 0 <= i < |names| ==> names[i] !in Keys(row)
  }

  // ---------------------------------------------------------------------
  // Assigning a list of columns in turn

  /** `row[names[0]] = cells[0]; row[names[1]] = cells[1]; ...` */
  function SetAll(row: Row, names: seq<string>, cells: seq<Cell>): Row
    requires |names| == |cells|
    decreases |names|
  {
    if |names| == 0 then row else SetAll(Set(row, names[0], cells[0]), names[1..], cells[1..])
  }

  /** The entries `(names[i], cells[i])`, in order. */
  function Zip(names: seq<string>, cells: seq<Cell>): (r: Row)
    requires |names| == |cells|
    ensures |r| == |names|
    ensures forall i :: 0 <= i < |r| ==> r[i] == (names[i], cells[i])
  {
    if |names| == 0 then [] else [(names[0], cells[0])] + Zip(names[1..], cells[1..])
  }

  lemma KeysConcat(a: Row, b: Row)
    ensures Keys(a + b) == Keys(a) + Keys(b)
  {
    var ks := Keys(a + b);
    forall i | 0 <= i < |ks| ensures ks[i] == (Keys(a) + Keys(b))[i] {
      assert ks[i] == (a + b)[i].0;
    }
  }

  lemma DisjointAfterAppend(row: Row, names: seq<string>, c: Cell)
    requires Distinct(names) && Disjoint(names, row) && |names| > 0
    ensures Disjoint(names[1..], row + [(names[0], c)])
  {
    KeysAppend(row, (names[0], c));
    DistinctTail(names);
  }

  lemma AppendAssoc(a: Row, b: Row, c: Row)
    ensures (a + b) + c == a + (b + c)
  {
  }

  /** Assigning fresh, distinct names appends their entries in order. */
  lemma {:induction false} SetAllAppends(row: Row, names: seq<string>, cells: seq<Cell>)
    requires |names| == |cells|
    requires Distinct(names) && Disjoint(names, row)
    ensures SetAll(row, names, cells) == row + Zip(names, cells)
    decreases |names|
  {
    if |names| > 0 {
      var row' := row + [(names[0], cells[0])];
      SetAppends(row, names[0], cells[0]);
      assert Set(row, names[0], cells[0]) == row';
      DisjointAfterAppend(row, names, cells[0]);
      DistinctTail(names);
      SetAllAppends(row', names[1..], cells[1..]);
      var z := Zip(names[1..], cells[1..]);
      assert Zip(names, cells) == [(names[0], cells[0])] + z;
      AppendAssoc(row, [(names[0], cells[0])], z);
    }
  }

  lemma SetAllKeys(row: Row, names: seq<string>, cells: seq<Cell>)
    requires |names| == |cells|
    requires Distinct(names) && Disjoint(names, row)
    ensures Keys(SetAll(row, names, cells)) == Keys(row) + names
  {
    SetAllAppends(row, names, cells);
    KeysConcat(row, Zip(names, cells));
    assert Keys(Zip(names, cells)) == names;
  }

  lemma {:induction false} SetAllGet(row: Row, names: seq<string>, cells: seq<Cell>)
    requires |names| == |cells|
    requires Distinct(names)
    ensures forall i :: 0 <= i < |names| ==> Get(SetAll(row, names, cells), names[i]) == Some(cells[i])
    ensures forall k :: k !in names ==> Get(SetAll(row, names, cells), k) == Get(row, k)
    decreases |names|
  {
    if |names| > 0 {
      var row' := Set(row, names[0], cells[0]);
      SetAllGet(row', names[1..], cells[1..]);
      forall i | 0 <= i < |names| ensures Get(SetAll(row, names, cells), names[i]) == Some(cells[i]) {
        if i > 0 {
          assert names[1..][i - 1] == names[i];
        } else {
          assert names[0] !in names[1..] by {
            forall j | 0 <= j < |names[1..]| ensures names[1..][j] != names[0] {
              assert names[1..][j] == names[j + 1];
            }
          }
        }
      }
      forall k | k !in names ensures Get(SetAll(row, names, cells), k) == Get(row, k) {
        assert k !in names[1..] by {
          forall j | 0 <= j < |names[1..]| ensures names[1..][j] != k {
            assert names[1..][j] == names[j + 1];
          }
        }
        assert k != names[0];
      }
    }
  }

  lemma {:induction false} SetAllHead(row: Row, names: seq<string>, cells: seq<Cell>)
    requires |names| == |cells|
    requires KeepsHead(row, names)
    ensures |SetAll(row, names, cells)| > 0 && SetAll(row, names, cells)[0] == row[0]
    decreases |names|
  {
    if |names| > 0 {
      var row' := Set(row, names[0], cells[0]);
      assert row'[0] == row[0];
      assert KeepsHead(row', names[1..]) by {
        forall i | 0 <= i < |names[1..]| ensures names[1..][i] != row'[0].0 {
          assert names[1..][i] == names[i + 1];
        }
      }
      SetAllHead(row', names[1..], cells[1..]);
    }
  }

  /** A row's last entry after stamping a row that had no timestamp column yet. */
  lemma StampLast(row: Row)
    requires StampColumn !in Keys(row)
    ensures Stamp(row) == row + [(StampColumn, Now)]
    ensures Keys(Stamp(row)) == Keys(row) + [StampColumn]
  {
  }

  // ---------------------------------------------------------------------
  // Date flags

  /** The `"UpdatedAt" in key.lower()` test of the root tables never holds. */
  lemma UpdatedAtTestIsDead(key: string)
    ensures !Substring("UpdatedAt", Lower(key))
  {
    assert "UpdatedAt"[0] == 'U';
    assert 'U' !in Lower(key);
    if Substring("UpdatedAt", Lower(key)) {
      SubstringChars("UpdatedAt", Lower(key));
    }
  }

  /** The root flag reduces to "date" occurring in the lowered key. */
  lemma RootDateFlagIsLowerDate(key: string)
    ensures RootDateFlag(key) <==> Substring("date", Lower(key))
  {
    UpdatedAtTestIsDead(key);
  }

  /** Basics' UpdatedAt column is date-checked: "updatedat" holds "date". */
  lemma UpdatedAtIsFlagged()
    ensures RootDateFlag("UpdatedAt")
  {
    var low := Lower("UpdatedAt");
    assert "UpdatedAt"[2] == 'd' && "UpdatedAt"[3] == 'a' && "UpdatedAt"[4] == 't' && "UpdatedAt"[5] == 'e';
    assert low[2] == 'd' && low[3] == 'a' && low[4] == 't' && low[5] == 'e';
    assert low[2..6] == "date";
    SubstringAt("date", low);
    assert "date" <= low[2..];
  }

  /** ESG's RatingDate column is not date-checked: the section test is case-sensitive. */
  lemma RatingDateIsNotFlagged()
    ensures !SectionDateFlag("RatingDate")
  {
    assert "date"[0] == 'd';
    assert 'd' !in "RatingDate";
    if Substring("date", "RatingDate") {
      SubstringChars("date", "RatingDate");
    }
  }

  // ---------------------------------------------------------------------
  // Section tables

  lemma PlainTail(fields: seq<string>)
    requires Plain(fields) && |fields| > 0
    ensures Plain(fields[1..]) && '#' !in fields[0]
  {
    forall i | 0 <= i < |fields[1..]| ensures NoHash(fields[1..][i]) {
      assert fields[1..][i] == fields[i + 1];
    }
    assert NoHash(fields[0]);
  }

  /** The cell of field `i` of a section table whose fields have no '#'. */
  function FieldCell(parse: string -> Option<Float>, data: Json, field: string): Result<Json> {
    SectionCell(parse, data, field, field)
  }

  /**
   * Plain, distinct, fresh fields are appended in configuration order, each
   * holding its own cell; the loop fails exactly when some cell fails.
   */
  lemma {:induction false} SectionCellsSpec(parse: string -> Option<Float>, data: Json, fields: seq<string>, row: Row)
    requires Plain(fields) && Distinct(fields) && Disjoint(fields, row)
    ensures SectionCells(parse, data, fields, row).Ok? <==>
      forall i :: 0 <= i < |fields| ==> FieldCell(parse, data, fields[i]).Ok?
    ensures SectionCells(parse, data, fields, row).Ok? ==>
      var r := SectionCells(parse, data, fields, row).value;
      |r| == |row| + |fields| && r[..|row|] == row &&
      forall i :: 0 <= i < |fields| ==> r[|row| + i] == (fields[i], Value(FieldCell(parse, data, fields[i]).value))
    decreases |fields|
  {
    if |fields| > 0 {
      var f := fields[0];
      PlainTail(fields);
      DistinctTail(fields);
      assert SourceAndName(f) == Ok((f, f));
      var c := FieldCell(parse, data, f);
      if c.Ok? {
        var row' := row + [(f, Value(c.value))];
        SetAppends(row, f, Value(c.value));
        assert Set(row, f, Value(c.value)) == row';
        DisjointAfterAppend(row, fields, Value(c.value));
        SectionCellsSpec(parse, data, fields[1..], row');
        SectionCellsStep(parse, data, fields, row, row');
      }
    }
  }

  /** The inductive step of `SectionCellsSpec`, from the tail's facts to the whole list's. */
  lemma SectionCellsStep(parse: string -> Option<Float>, data: Json, fields: seq<string>, row: Row, row': Row)
    requires |fields| > 0 && '#' !in fields[0] && FieldCell(parse, data, fields[0]).Ok?
    requires row' == row + [(fields[0], Value(FieldCell(parse, data, fields[0]).value))]
    requires SectionCells(parse, data, fields, row) == SectionCells(parse, data, fields[1..], row')
    requires SectionCells(parse, data, fields[1..], row').Ok? <==>
      forall i :: 0 <= i < |fields[1..]| ==> FieldCell(parse, data, fields[1..][i]).Ok?
    requires SectionCells(parse, data, fields[1..], row').Ok? ==>
      var r := SectionCells(parse, data, fields[1..], row').value;
      |r| == |row'| + |fields[1..]| && r[..|row'|] == row' &&
      forall i :: 0 <= i < |fields[1..]| ==> r[|row'| + i] == (fields[1..][i], Value(FieldCell(parse, data, fields[1..][i]).value))
    ensures SectionCells(parse, data, fields, row).Ok? <==>
      forall i :: 0 <= i < |fields| ==> FieldCell(parse, data, fields[i]).Ok?
    ensures SectionCells(parse, data, fields, row).Ok? ==>
      var r := SectionCells(parse, data, fields, row).value;
      |r| == |row| + |fields| && r[..|row|] == row &&
      forall i :: 0 <= i < |fields| ==> r[|row| + i] == (fields[i], Value(FieldCell(parse, data, fields[i]).value))
  {
    SectionCellsStepOk(parse, data, fields, row, row');
    var tail := fields[1..];
    var whole := SectionCells(parse, data, fields, row);
    if whole.Ok? {
      var r := whole.value;
      assert r[..|row'|] == row';
      assert r[..|row|] == row'[..|row|] == row;
      forall i | 0 <= i < |fields| ensures r[|row| + i] == (fields[i], Value(FieldCell(parse, data, fields[i]).value)) {
        ShiftedEntry(r, row, row', i, tail, fields[i], Value(FieldCell(parse, data, fields[i]).value));
      }
    }
  }

  /** The inductive step of `SectionCellsSpec`, for when the loop succeeds. */
  lemma SectionCellsStepOk(parse: string -> Option<Float>, data: Json, fields: seq<string>, row: Row, row': Row)
    requires |fields| > 0 && FieldCell(parse, data, fields[0]).Ok?
    requires SectionCells(parse, data, fields, row) == SectionCells(parse, data, fields[1..], row')
    requires SectionCells(parse, data, fields[1..], row').Ok? <==>
      forall i :: 0 <= i < |fields[1..]| ==> FieldCell(parse, data, fields[1..][i]).Ok?
    ensures SectionCells(parse, data, fields, row).Ok? <==>
      forall i :: 0 <= i < |fields| ==> FieldCell(parse, data, fields[i]).Ok?
  {
    var tail := fields[1..];
    forall i | 0 < i < |fields| ensures fields[i] == tail[i - 1] {
    }
  }

  /** Configured field lists: no '#', no repeats, neither reserved column. */
  predicate Clean(fields: seq<string>) {
    Plain(fields) && Fresh(fields)
  }

  /**
   * A section-table row: the ticker, then each configured field's cell in
   * order, then the timestamp.
   */
  lemma SectionRowSpec(parse: string -> Option<Float>, ticker: string, payload: Json, column: string, fields: seq<string>)
    requires Clean(fields)
    requires SectionRow(parse, ticker, payload, column, fields).Ok?
    ensures SectionData(payload, column).Ok?
    ensures var r := SectionRow(parse, ticker, payload, column, fields).value;
      var data := SectionData(payload, column).value;
      |r| == |fields| + 2 && r[0] == (TickerColumn, Value(JStr(ticker))) && r[|fields| + 1] == (StampColumn, Now) &&
      forall i :: 0 <= i < |fields| ==>
        FieldCell(parse, data, fields[i]).Ok? && r[i + 1] == (fields[i], Value(FieldCell(parse, data, fields[i]).value))
  {
    var data := SectionData(payload, column).value;
    var cells := SectionCells(parse, data, fields, NewRow(ticker));
    assert SectionRow(parse, ticker, payload, column, fields) == Ok(Stamp(cells.value));
    StampedCells(parse, ticker, data, fields);
  }

  lemma StampedCells(parse: string -> Option<Float>, ticker: string, data: Json, fields: seq<string>)
    requires Clean(fields)
    requires SectionCells(parse, data, fields, NewRow(ticker)).Ok?
    ensures var r := Stamp(SectionCells(parse, data, fields, NewRow(ticker)).value);
      |r| == |fields| + 2 && r[0] == (TickerColumn, Value(JStr(ticker))) && r[|fields| + 1] == (StampColumn, Now) &&
      forall i :: 0 <= i < |fields| ==>
        FieldCell(parse, data, fields[i]).Ok? && r[i + 1] == (fields[i], Value(FieldCell(parse, data, fields[i]).value))
  {
    var start := NewRow(ticker);
    assert Disjoint(fields, start);
    SectionCellsSpec(parse, data, fields, start);
    var cells := SectionCells(parse, data, fields, start).value;
    forall i | 0 <= i < |fields| ensures cells[1 + i].0 == fields[i] {
      assert cells[|start| + i] == (fields[i], Value(FieldCell(parse, data, fields[i]).value));
    }
    StampedShape(cells, ticker, fields);
    var r := Stamp(cells);
    forall i | 0 <= i < |fields|
      ensures FieldCell(parse, data, fields[i]).Ok? && r[i + 1] == (fields[i], Value(FieldCell(parse, data, fields[i]).value))
    {
      assert r[i + 1] == cells[|start| + i];
    }
  }

  /** The timestamp is appended to a row whose keys are the ticker and clean fields. */
  lemma StampFresh(row: Row, fields: seq<string>)
    requires StampColumn !in fields
    requires |row| == 1 + |fields| && row[0].0 == TickerColumn
    requires forall i :: 0 <= i < |fields| ==> row[1 + i].0 == fields[i]
    ensures Stamp(row) == row + [(StampColumn, Now)]
  {
    forall j | 0 <= j < |row| ensures Keys(row)[j] != StampColumn {
      if j > 0 {
        assert row[1 + (j - 1)].0 == fields[j - 1];
      }
    }
  }

  /** Stamping a row of the ticker and fresh columns appends the timestamp and keeps the rest. */
  lemma StampedShape(row: Row, ticker: string, names: seq<string>)
    requires StampColumn !in names
    requires |row| == 1 + |names| && row[..1] == NewRow(ticker)
    requires forall i :: 0 <= i < |names| ==> row[1 + i].0 == names[i]
    ensures Stamp(row) == row + [(StampColumn, Now)] && row[0] == (TickerColumn, Value(JStr(ticker)))
  {
    assert row[0] == row[..1][0];
    StampFresh(row, names);
  }

  /** An absent or "NA" section gives a null in every configured column. */
  lemma SectionAbsentAllNull(parse: string -> Option<Float>, ticker: string, payload: Json, column: string, fields: seq<string>)
    requires Clean(fields)
    requires payload.JObj?
    requires Get(payload.fields, column) in {None, Some(JStr("NA"))}
    ensures SectionRow(parse, ticker, payload, column, fields).Ok?
    ensures var r := SectionRow(parse, ticker, payload, column, fields).value;
      |r| == |fields| + 2 && forall i :: 0 <= i < |fields| ==> r[i + 1] == (fields[i], Value(JNull))
  {
    var data := JObj([]);
    assert SectionData(payload, column) == Ok(data);
    assert forall i :: 0 <= i < |fields| ==> FieldCell(parse, data, fields[i]) == Ok(JNull);
    assert Disjoint(fields, NewRow(ticker));
    SectionCellsSpec(parse, data, fields, NewRow(ticker));
    SectionRowSpec(parse, ticker, payload, column, fields);
  }

  // ---------------------------------------------------------------------
  // Root tables

  /** The output name of a root column "path#name" (empty when it has no '#'). */
  function RootName(column: string): string {
    var parts := Split(column, '#');
    if |parts| >= 2 then parts[1] else ""
  }

  /** The top-level key a root column "path#name" reads. */
  function RootPath(column: string): string {
    Split(column, '#')[0]
  }

  function RootNames(columns: seq<string>): (names: seq<string>)
    ensures |names| == |columns|
    ensures forall i :: 0 <= i < |columns| ==> names[i] == RootName(columns[i])
  {
    if |columns| == 0 then [] else [RootName(columns[0])] + RootNames(columns[1..])
  }

  /** Every root column has a '#', so `c.split("#")[1]` exists. */
  predicate Paired(columns: seq<string>) {
    forall i :: 0 <= i < |columns| ==> |Split(columns[i], '#')| >= 2
  }

  /** The cell of a root column. */
  function ColumnCell(parse: string -> Option<Float>, payload: Json, column: string): Result<Json> {
    RootCell(parse, payload, RootPath(column), RootName(column))
  }

  /**
   * Paired columns with distinct, fresh names are appended in configuration
   * order, each holding its own cell; the loop fails exactly when some cell fails.
   */
  lemma {:induction false} RootCellsSpec(parse: string -> Option<Float>, payload: Json, columns: seq<string>, row: Row)
    requires Paired(columns) && Distinct(RootNames(columns)) && Disjoint(RootNames(columns), row)
    ensures RootCells(parse, payload, columns, row).Ok? <==>
      forall i :: 0 <= i < |columns| ==> ColumnCell(parse, payload, columns[i]).Ok?
    ensures RootCells(parse, payload, columns, row).Ok? ==>
      var r := RootCells(parse, payload, columns, row).value;
      |r| == |row| + |columns| && r[..|row|] == row &&
      forall i :: 0 <= i < |columns| ==> r[|row| + i] == (RootName(columns[i]), Value(ColumnCell(parse, payload, columns[i]).value))
    decreases |columns|
  {
    if |columns| > 0 {
      var names := RootNames(columns);
      var tail := columns[1..];
      assert RootNames(tail) == names[1..];
      assert Paired(tail) by {
        forall i | 0 <= i < |tail| ensures |Split(tail[i], '#')| >= 2 {
          assert tail[i] == columns[i + 1];
        }
      }
      DistinctTail(names);
      var c := ColumnCell(parse, payload, columns[0]);
      assert |Split(columns[0], '#')| >= 2;
      if c.Ok? {
        var row' := row + [(names[0], Value(c.value))];
        SetAppends(row, names[0], Value(c.value));
        assert Set(row, names[0], Value(c.value)) == row';
        DisjointAfterAppend(row, names, Value(c.value));
        RootCellsSpec(parse, payload, tail, row');
        RootCellsStep(parse, payload, columns, row, row');
      }
    }
  }

  /** The inductive step of `RootCellsSpec`. */
  lemma RootCellsStep(parse: string -> Option<Float>, payload: Json, columns: seq<string>, row: Row, row': Row)
    requires |columns| > 0 && |Split(columns[0], '#')| >= 2 && ColumnCell(parse, payload, columns[0]).Ok?
    requires row' == row + [(RootName(columns[0]), Value(ColumnCell(parse, payload, columns[0]).value))]
    requires RootCells(parse, payload, columns, row) == RootCells(parse, payload, columns[1..], row')
    requires RootCells(parse, payload, columns[1..], row').Ok? <==>
      forall i :: 0 <= i < |columns[1..]| ==> ColumnCell(parse, payload, columns[1..][i]).Ok?
    requires RootCells(parse, payload, columns[1..], row').Ok? ==>
      var r := RootCells(parse, payload, columns[1..], row').value;
      |r| == |row'| + |columns[1..]| && r[..|row'|] == row' &&
      forall i :: 0 <= i < |columns[1..]| ==> r[|row'| + i] == (RootName(columns[1..][i]), Value(ColumnCell(parse, payload, columns[1..][i]).value))
    ensures RootCells(parse, payload, columns, row).Ok? <==>
      forall i :: 0 <= i < |columns| ==> ColumnCell(parse, payload, columns[i]).Ok?
    ensures RootCells(parse, payload, columns, row).Ok? ==>
      var r := RootCells(parse, payload, columns, row).value;
      |r| == |row| + |columns| && r[..|row|] == row &&
      forall i :: 0 <= i < |columns| ==> r[|row| + i] == (RootName(columns[i]), Value(ColumnCell(parse, payload, columns[i]).value))
  {
    RootCellsStepOk(parse, payload, columns, row, row');
    var tail := columns[1..];
    var whole := RootCells(parse, payload, columns, row);
    if whole.Ok? {
      var r := whole.value;
      assert r[..|row'|] == row';
      assert r[..|row|] == row'[..|row|] == row;
      forall i | 0 <= i < |columns| ensures r[|row| + i] == (RootName(columns[i]), Value(ColumnCell(parse, payload, columns[i]).value)) {
        ShiftedEntry(r, row, row', i, tail, RootName(columns[i]), Value(ColumnCell(parse, payload, columns[i]).value));
      }
    }
  }

  /** The inductive step of `RootCellsSpec`, for when the loop succeeds. */
  lemma RootCellsStepOk(parse: string -> Option<Float>, payload: Json, columns: seq<string>, row: Row, row': Row)
    requires |columns| > 0 && ColumnCell(parse, payload, columns[0]).Ok?
    requires RootCells(parse, payload, columns, row) == RootCells(parse, payload, columns[1..], row')
    requires RootCells(parse, payload, columns[1..], row').Ok? <==>
      forall i :: 0 <= i < |columns[1..]| ==> ColumnCell(parse, payload, columns[1..][i]).Ok?
    ensures RootCells(parse, payload, columns, row).Ok? <==>
      forall i :: 0 <= i < |columns| ==> ColumnCell(parse, payload, columns[i]).Ok?
  {
    var tail := columns[1..];
    forall i | 0 < i < |columns| ensures columns[i] == tail[i - 1] {
    }
  }

  lemma ShiftedEntry(r: Row, row: Row, row': Row, i: nat, tail: seq<string>, name: string, cell: Cell)
    requires |row'| == |row| + 1 && |row| + i < |r|
    requires r[..|row'|] == row'
    requires i == 0 ==> row'[|row|] == (name, cell)
    requires i > 0 ==> r[|row'| + (i - 1)] == (name, cell)
    ensures r[|row| + i] == (name, cell)
  {
    if i == 0 {
      assert r[|row|] == r[..|row'|][|row|];
    }
  }

  /**
   * A root-table row: the ticker, then each configured column's cell in
   * order under its output name, then the timestamp.
   */
  lemma RootRowSpec(parse: string -> Option<Float>, ticker: string, payload: Json, columns: seq<string>)
    requires Paired(columns) && Fresh(RootNames(columns))
    requires RootRow(parse, ticker, payload, columns).Ok?
    ensures var r := RootRow(parse, ticker, payload, columns).value;
      |r| == |columns| + 2 && r[0] == (TickerColumn, Value(JStr(ticker))) && r[|columns| + 1] == (StampColumn, Now) &&
      forall i :: 0 <= i < |columns| ==>
        ColumnCell(parse, payload, columns[i]).Ok? && r[i + 1] == (RootName(columns[i]), Value(ColumnCell(parse, payload, columns[i]).value))
  {
    var names := RootNames(columns);
    var start := NewRow(ticker);
    assert Disjoint(names, start);
    RootCellsSpec(parse, payload, columns, start);
    var cells := RootCells(parse, payload, columns, start).value;
    forall i | 0 <= i < |names| ensures cells[1 + i].0 == names[i] {
      assert cells[|start| + i] == (RootName(columns[i]), Value(ColumnCell(parse, payload, columns[i]).value));
    }
    StampedShape(cells, ticker, names);
    assert RootRow(parse, ticker, payload, columns) == Ok(Stamp(cells));
    var r := Stamp(cells);
    forall i | 0 <= i < |columns|
      ensures ColumnCell(parse, payload, columns[i]).Ok? && r[i + 1] == (RootName(columns[i]), Value(ColumnCell(parse, payload, columns[i]).value))
    {
      assert r[i + 1] == cells[|start| + i];
    }
  }

  /** "a#b" splits into [a, b] when neither part has a '#'. */
  lemma SplitPair(a: string, b: string)
    requires '#' !in a && '#' !in b
    ensures Split(a + "#" + b, '#') == [a, b]
  {
    assert Join([a, b], '#') == a + "#" + b;
    SplitJoin([a, b], '#');
  }

  /** Both halves of every pair are free of '#'. */
  predicate HashFree(pairs: seq<(string, string)>) {
    forall i :: 0 <= i < |pairs| ==> NoHash(pairs[i].0) && NoHash(pairs[i].1)
  }

  function Seconds(pairs: seq<(string, string)>): (names: seq<string>)
    ensures |names| == |pairs|
    ensures forall i :: 0 <= i < |pairs| ==> names[i] == pairs[i].1
  {
    if |pairs| == 0 then [] else [pairs[0].1] + Seconds(pairs[1..])
  }

  /** A column built from '#'-free halves splits back into them. */
  lemma SplitColumn(path: string, name: string)
    requires NoHash(path) && NoHash(name)
    ensures Split(RootColumn(path, name), '#') == [path, name]
    ensures RootPath(RootColumn(path, name)) == path && RootName(RootColumn(path, name)) == name
  {
    SplitPair(path, name);
  }

  /** Columns built from '#'-free pairs are paired, and their names are the pairs' second halves. */
  lemma RootColumnsNames(pairs: seq<(string, string)>)
    requires HashFree(pairs)
    ensures Paired(RootColumns(pairs))
    ensures RootNames(RootColumns(pairs)) == Seconds(pairs)
    ensures forall i :: 0 <= i < |pairs| ==> RootPath(RootColumns(pairs)[i]) == pairs[i].0
  {
    var columns := RootColumns(pairs);
    forall i | 0 <= i < |pairs|
      ensures |Split(columns[i], '#')| >= 2 && RootName(columns[i]) == pairs[i].1 && RootPath(columns[i]) == pairs[i].0
    {
      SplitColumn(pairs[i].0, pairs[i].1);
    }
  }

  lemma BasicsHashFree()
    ensures HashFree(BasicsPairs)
  {
    BasicsGeneralHashFree();
    BasicsAddressHashFree();
    BasicsSectorHashFree();
  }

  lemma BasicsGeneralHashFree()
    ensures NoHash("General::FullTimeEmployees") && NoHash("FullTimeEmployees")
    ensures NoHash("General::UpdatedAt") && NoHash("UpdatedAt")
  {
  }

  lemma BasicsAddressHashFree()
    ensures NoHash("General::AddressData::ZIP") && NoHash("ZIP")
    ensures NoHash("General::AddressData::Country") && NoHash("Country")
    ensures NoHash("General::AddressData::City") && NoHash("City")
  {
  }

  lemma BasicsSectorHashFree()
    ensures NoHash("General::Sector") && NoHash("Sector")
    ensures NoHash("General::Industry") && NoHash("Industry")
    ensures NoHash("General::GicSector") && NoHash("GicSector")
    ensures NoHash("General::GicIndustry") && NoHash("GicIndustry")
  {
  }

  lemma DividendsHashFree()
    ensures HashFree(DividendsPairs)
  {
    DividendRateHashFree();
    DividendYieldHashFree();
    assert NoHash("SplitsDividends::PayoutRatio") && NoHash("PayoutRatio");
  }

  lemma DividendRateHashFree()
    ensures NoHash("SplitsDividends::ForwardAnnualDividendRate") && NoHash("ForwardAnnualDividendRate")
  {
  }

  lemma DividendYieldHashFree()
    ensures NoHash("SplitsDividends::ForwardAnnualDividendYield") && NoHash("ForwardAnnualDividendYield")
  {
  }

  // ---------------------------------------------------------------------
  // ESG activities table

  /** Nulling fresh, distinct columns appends a null entry for each, in order. */
  lemma {:induction false} NullColumnsSpec(names: seq<string>, row: Row)
    requires Distinct(names) && Disjoint(names, row)
    ensures var r := NullColumns(names, row);
      |r| == |row| + |names| && r[..|row|] == row &&
      forall i :: 0 <= i < |names| ==> r[|row| + i] == (names[i], Value(JNull))
    decreases |names|
  {
    if |names| > 0 {
      var row' := row + [(names[0], Value(JNull))];
      SetAppends(row, names[0], Value(JNull));
      assert Set(row, names[0], Value(JNull)) == row';
      DisjointAfterAppend(row, names, Value(JNull));
      DistinctTail(names);
      NullColumnsSpec(names[1..], row');
      var r := NullColumns(names, row);
      assert r[..|row'|] == row';
      assert r[..|row|] == row'[..|row|];
      forall i | 0 <= i < |names| ensures r[|row| + i] == (names[i], Value(JNull)) {
        if i > 0 {
          assert names[1..][i - 1] == names[i];
        }
        ShiftedEntry(r, row, row', i, names[1..], names[i], Value(JNull));
      }
    }
  }

  /** Without ESGScores.ActivitiesInvolvement, every known activity column is null. */
  lemma ActivitiesAbsentAllNull(ticker: string, payload: Json, known: seq<string>)
    requires Fresh(known)
    requires ActivitiesPresent(payload) == Ok(false)
    ensures ActivitiesRow(ticker, payload, known).Ok?
    ensures var r := ActivitiesRow(ticker, payload, known).value;
      |r| == |known| + 2 && r[0] == (TickerColumn, Value(JStr(ticker))) && r[|known| + 1] == (StampColumn, Now) &&
      forall i :: 0 <= i < |known| ==> r[i + 1] == (known[i], Value(JNull))
  {
    var start := NewRow(ticker);
    assert Disjoint(known, start);
    NullColumnsSpec(known, start);
    var nulls := NullColumns(known, start);
    forall i | 0 <= i < |known| ensures nulls[1 + i] == (known[i], Value(JNull)) {
      assert nulls[|start| + i] == (known[i], Value(JNull));
    }
    StampedShape(nulls, ticker, known);
    assert ActivitiesRow(ticker, payload, known) == Ok(Stamp(nulls));
    var r := Stamp(nulls);
    forall i | 0 <= i < |known| ensures r[i + 1] == (known[i], Value(JNull)) {
      assert r[i + 1] == nulls[1 + i];
    }
  }

  /** An ActivitiesInvolvement entry that has both an Activity and an Involvement. */
  predicate Entry(e: Json) {
    Subscript(e, "Activity").Ok? && Subscript(e, "Involvement").Ok?
  }

  predicate Entries(entries: Dict<Json>) {
    forall i :: 0 <= i < |entries| ==> Entry(entries[i].1)
  }

  /** The Involvement of the LAST entry whose Activity is the string `a`, if any. */
  function LastInvolvement(entries: Dict<Json>, a: string): (r: Option<Json>)
    requires Entries(entries)
    ensures r.Some? <==> exists i :: 0 <= i < |entries| && Subscript(entries[i].1, "Activity") == Ok(JStr(a))
  {
    if |entries| == 0 then None
    else
      var e := entries[|entries| - 1].1;
      if Subscript(e, "Activity") == Ok(JStr(a)) then Some(Subscript(e, "Involvement").value)
      else
        EntriesInit(entries);
        LastInvolvement(entries[..|entries| - 1], a)
  }

  /** Dropping the first entry keeps the rest well formed. */
  lemma EntriesTail(entries: Dict<Json>)
    requires Entries(entries) && |entries| > 0
    ensures Entries(entries[1..])
  {
    forall i | 0 <= i < |entries| - 1 ensures Entry(entries[1..][i].1) {
      assert entries[1..][i] == entries[i + 1];
    }
  }

  /** Dropping the last entry keeps the rest, each at its index. */
  lemma EntriesInit(entries: Dict<Json>)
    requires Entries(entries) && |entries| > 0
    ensures Entries(entries[..|entries| - 1])
    ensures forall i :: 0 <= i < |entries| - 1 ==> entries[..|entries| - 1][i] == entries[i]
  {
  }

  /** `LastInvolvement` read from the front: a later match overrides the first entry. */
  lemma {:induction false} LastInvolvementCons(entries: Dict<Json>, a: string)
    requires Entries(entries) && |entries| > 0
    ensures Entries(entries[1..])
    ensures LastInvolvement(entries, a) ==
      if LastInvolvement(entries[1..], a).Some? then LastInvolvement(entries[1..], a)
      else if Subscript(entries[0].1, "Activity") == Ok(JStr(a)) then Some(Subscript(entries[0].1, "Involvement").value)
      else None
    decreases |entries|
  {
    var n := |entries|;
    var rest := entries[1..];
    EntriesTail(entries);
    if n == 1 {
      assert rest == [];
    } else {
      var init := entries[..n - 1];
      var last := entries[n - 1].1;
      EntriesInit(entries);
      assert rest[|rest| - 1].1 == last;
      if Subscript(last, "Activity") != Ok(JStr(a)) {
        assert rest[..|rest| - 1] == init[1..];
        EntriesTail(init);
        assert LastInvolvement(entries, a) == LastInvolvement(init, a);
        assert LastInvolvement(rest, a) == LastInvolvement(init[1..], a);
        LastInvolvementCons(init, a);
        assert init[0] == entries[0];
      }
    }
  }

  /** What column `k` holds after the copy, by the last-entry-wins reading. */
  function Copied(entries: Dict<Json>, known: seq<string>, row: Row, k: string): Option<Cell>
    requires Entries(entries)
  {
    if k in known && LastInvolvement(entries, k).Some? then Some(Value(LastInvolvement(entries, k).value))
    else Get(row, k)
  }

  /**
   * Copying well-formed entries: a known activity's column holds the
   * Involvement of its last entry, and every other column is untouched.
   */
  lemma {:induction false} CopyFromDictSpec(entries: Dict<Json>, known: seq<string>, row: Row)
    requires Entries(entries)
    ensures CopyFromDict(entries, known, row).Ok?
    ensures forall k ::
      Get(CopyFromDict(entries, known, row).value, k) == Copied(entries, known, row, k)
    decreases |entries|
  {
    if |entries| > 0 {
      var e := entries[0].1;
      var activity := Subscript(e, "Activity").value;
      var involvement := Subscript(e, "Involvement").value;
      var row' := if activity.JStr? && activity.s in known then Set(row, activity.s, Value(involvement)) else row;
      assert CopyActivity(e, known, row) == Ok(row');
      EntriesTail(entries);
      CopyFromDictSpec(entries[1..], known, row');
      assert CopyFromDict(entries, known, row) == CopyFromDict(entries[1..], known, row');
      forall k ensures Copied(entries[1..], known, row', k) == Copied(entries, known, row, k) {
        CopiedStep(entries, known, row, k);
      }
    }
  }

  /** One entry copied, then the rest: the same columns as copying all of them. */
  lemma CopiedStep(entries: Dict<Json>, known: seq<string>, row: Row, k: string)
    requires Entries(entries) && |entries| > 0
    ensures Entries(entries[1..])
    ensures var e := entries[0].1;
      var activity := Subscript(e, "Activity").value;
      var row' := if activity.JStr? && activity.s in known then Set(row, activity.s, Value(Subscript(e, "Involvement").value)) else row;
      Copied(entries[1..], known, row', k) == Copied(entries, known, row, k)
  {
    LastInvolvementCons(entries, k);
  }

  /** An entry without an Activity or an Involvement aborts the copy. */
  lemma {:induction false} CopyFromDictFails(entries: Dict<Json>, known: seq<string>, row: Row)
    requires !Entries(entries)
    ensures CopyFromDict(entries, known, row).Err?
    decreases |entries|
  {
    if Entry(entries[0].1) {
      var i :| 0 <= i < |entries| && !Entry(entries[i].1);
      assert entries[1..][i - 1] == entries[i];
      var row' := CopyActivity(entries[0].1, known, row).value;
      CopyFromDictFails(entries[1..], known, row');
    }
  }

  /** Copying never moves the ticker out of the first position. */
  lemma {:induction false} CopyFromDictHead(entries: Dict<Json>, known: seq<string>, row: Row)
    requires |row| > 0 && row[0].0 !in known
    ensures CopyFromDict(entries, known, row).Ok? ==>
      var r := CopyFromDict(entries, known, row).value; |r| > 0 && r[0] == row[0]
    decreases |entries|
  {
    if |entries| > 0 {
      var step := CopyActivity(entries[0].1, known, row);
      if step.Ok? {
        assert |step.value| > 0 && step.value[0] == row[0];
        CopyFromDictHead(entries[1..], known, step.value);
      }
    }
  }

  /**
   * With ActivitiesInvolvement a dict of well-formed entries: a known
   * activity's column holds its last entry's Involvement verbatim (or is
   * missing when no entry names it), and no other column appears.
   */
  lemma ActivitiesCopied(ticker: string, payload: Json, known: seq<string>, entries: Dict<Json>)
    requires Fresh(known)
    requires ActivitiesPresent(payload) == Ok(true)
    requires Subscript(payload, "ESGScores").Ok?
    requires Subscript(Subscript(payload, "ESGScores").value, "ActivitiesInvolvement") == Ok(JObj(entries))
    requires Entries(entries)
    ensures ActivitiesRow(ticker, payload, known).Ok?
    ensures var r := ActivitiesRow(ticker, payload, known).value;
      |r| >= 2 && r[0] == (TickerColumn, Value(JStr(ticker))) && r[|r| - 1] == (StampColumn, Now)
    ensures var r := ActivitiesRow(ticker, payload, known).value;
      forall a :: a in known ==>
        Get(r, a) == if LastInvolvement(entries, a).Some? then Some(Value(LastInvolvement(entries, a).value)) else None
    ensures var r := ActivitiesRow(ticker, payload, known).value;
      forall k :: k !in known && k != TickerColumn && k != StampColumn ==> Get(r, k) == None
  {
    var start := NewRow(ticker);
    CopyFromDictSpec(entries, known, start);
    assert ActivitiesRow(ticker, payload, known) == Ok(Stamp(CopyFromDict(entries, known, start).value));
    CopiedRow(ticker, known, entries);
  }

  /** The stamped row copied from well-formed entries, before it is tied to a payload. */
  lemma CopiedRow(ticker: string, known: seq<string>, entries: Dict<Json>)
    requires Fresh(known) && Entries(entries)
    ensures CopyFromDict(entries, known, NewRow(ticker)).Ok?
    ensures var r := Stamp(CopyFromDict(entries, known, NewRow(ticker)).value);
      |r| >= 2 && r[0] == (TickerColumn, Value(JStr(ticker))) && r[|r| - 1] == (StampColumn, Now) &&
      (forall a :: a in known ==>
        Get(r, a) == if LastInvolvement(entries, a).Some? then Some(Value(LastInvolvement(entries, a).value)) else None) &&
      (forall k :: k !in known && k != TickerColumn && k != StampColumn ==> Get(r, k) == None)
  {
    var start := NewRow(ticker);
    CopyFromDictSpec(entries, known, start);
    CopyFromDictHead(entries, known, start);
    var copied := CopyFromDict(entries, known, start).value;
    CopiedCells(entries, known, ticker, copied);
    StampedCopy(entries, known, ticker, copied);
  }

  /** The copied row's cells: a known activity's last Involvement, and nothing else but the ticker. */
  lemma CopiedCells(entries: Dict<Json>, known: seq<string>, ticker: string, copied: Row)
    requires Entries(entries) && Fresh(known)
    requires forall k :: Get(copied, k) == Copied(entries, known, NewRow(ticker), k)
    ensures forall a :: a in known ==>
      Get(copied, a) == if LastInvolvement(entries, a).Some? then Some(Value(LastInvolvement(entries, a).value)) else None
    ensures forall k :: k !in known && k != TickerColumn ==> Get(copied, k) == None
  {
    forall a | a in known
      ensures Get(copied, a) == if LastInvolvement(entries, a).Some? then Some(Value(LastInvolvement(entries, a).value)) else None
    {
      assert Get(copied, a) == Copied(entries, known, NewRow(ticker), a);
      assert a != TickerColumn;
    }
    forall k | k !in known && k != TickerColumn ensures Get(copied, k) == None {
      assert Get(copied, k) == Copied(entries, known, NewRow(ticker), k);
    }
  }

  /** Stamping the copied row adds the timestamp last and changes no other column. */
  lemma StampedCopy(entries: Dict<Json>, known: seq<string>, ticker: string, copied: Row)
    requires Entries(entries) && StampColumn !in known
    requires forall a :: a in known ==>
      Get(copied, a) == if LastInvolvement(entries, a).Some? then Some(Value(LastInvolvement(entries, a).value)) else None
    requires forall k :: k !in known && k != TickerColumn ==> Get(copied, k) == None
    requires |copied| > 0 && copied[0] == (TickerColumn, Value(JStr(ticker)))
    ensures var r := Stamp(copied);
      |r| >= 2 && r[0] == (TickerColumn, Value(JStr(ticker))) && r[|r| - 1] == (StampColumn, Now) &&
      (forall a :: a in known ==>
        Get(r, a) == if LastInvolvement(entries, a).Some? then Some(Value(LastInvolvement(entries, a).value)) else None) &&
      (forall k :: k !in known && k != TickerColumn && k != StampColumn ==> Get(r, k) == None)
  {
    assert Get(copied, StampColumn) == None;
    assert Stamp(copied) == copied + [(StampColumn, Now)];
  }

  /** A list-valued ActivitiesInvolvement whose first element is not an index raises TypeError. */
  lemma ActivitiesListFails(items: seq<Json>, known: seq<string>, row: Row)
    requires |items| > 0 && !(items[0].JInt? || items[0].JBool?)
    ensures CopyActivities(JArr(items), known, row) == Err(TypeError)
  {
  }

  // ---------------------------------------------------------------------
  // Balance table

  /** A quarterly row's shape: the ticker key first, more than two keys, the timestamp set. */
  predicate QuarterShaped(row: Row) {
    |row| > 2 && row[0].0 == TickerColumn && Get(row, StampColumn) == Some(Now)
  }

  /** Normalising a record's fields never moves the first key. */
  lemma {:induction false} BalanceCellsHead(parse: string -> Option<Float>, items: Dict<Json>, row: Row)
    requires |row| > 0
    ensures BalanceCells(parse, items, row).Ok? ==>
      |BalanceCells(parse, items, row).value| > 0 && BalanceCells(parse, items, row).value[0].0 == row[0].0
    decreases |items|
  {
    if |items| > 0 {
      var cell := Valcheck(parse, items[0].1, Substring("date", items[0].0));
      if cell.Ok? {
        var row' := Set(row, items[0].0, Value(cell.value));
        assert |row'| > 0 && row'[0].0 == row[0].0;
        BalanceCellsHead(parse, items[1..], row');
      }
    }
  }

  /** One quarterly record gives at most one row, and that row is shaped. */
  lemma QuarterRowShaped(parse: string -> Option<Float>, ticker: string, record: Json)
    ensures QuarterRow(parse, ticker, record).Ok? ==>
      var rows := QuarterRow(parse, ticker, record).value;
      |rows| <= 1 && forall i :: 0 <= i < |rows| ==> QuarterShaped(rows[i])
  {
    if record != JNull && record.JObj? {
      var row := BalanceCells(parse, record.fields, NewRow(ticker));
      if row.Ok? && |row.value| > 2 {
        BalanceCellsHead(parse, record.fields, NewRow(ticker));
        StampShaped(row.value);
        assert QuarterRow(parse, ticker, record) == Ok([Stamp(row.value)]);
      }
    }
  }

  /** A None record is skipped. */
  lemma QuarterRowNone(parse: string -> Option<Float>, ticker: string)
    ensures QuarterRow(parse, ticker, JNull) == Ok([])
  {
  }

  /** The row of a dict record: the ticker, each field in order holding its normalised value, the timestamp. */
  predicate RecordRow(parse: string -> Option<Float>, ticker: string, items: Dict<Json>, row: Row) {
    |row| == |items| + 2 && row[0] == (TickerColumn, Value(JStr(ticker))) && row[|items| + 1] == (StampColumn, Now)
    && forall i :: 0 <= i < |items| ==>
      QuarterCell(parse, items[i]).Ok? && row[i + 1] == (items[i].0, Value(QuarterCell(parse, items[i]).value))
  }

  /**
   * A dict record with distinct keys other than the ticker and timestamp
   * columns fails exactly when one of its fields fails to normalise, and
   * otherwise gives its row when it has at least two fields, and nothing
   * when it has fewer.
   */
  lemma QuarterRowSpec(parse: string -> Option<Float>, ticker: string, items: Dict<Json>)
    requires Distinct(Keys(items)) && TickerColumn !in Keys(items) && StampColumn !in Keys(items)
    ensures QuarterRow(parse, ticker, JObj(items)).Ok? <==>
      forall i :: 0 <= i < |items| ==> QuarterCell(parse, items[i]).Ok?
    ensures QuarterRow(parse, ticker, JObj(items)).Ok? && |items| < 2 ==>
      QuarterRow(parse, ticker, JObj(items)).value == []
    ensures QuarterRow(parse, ticker, JObj(items)).Ok? && |items| >= 2 ==>
      var rows := QuarterRow(parse, ticker, JObj(items)).value;
      |rows| == 1 && RecordRow(parse, ticker, items, rows[0])
  {
    var start := NewRow(ticker);
    assert Disjoint(Keys(items), start);
    BalanceCellsSpec(parse, items, start);
    var cells := BalanceCells(parse, items, start);
    if cells.Ok? {
      if |items| >= 2 {
        RecordCells(parse, ticker, items);
        StampedShape(cells.value, ticker, Keys(items));
        StampedRecord(parse, ticker, items, cells.value);
        assert QuarterRow(parse, ticker, JObj(items)) == Ok([Stamp(cells.value)]);
      } else {
        assert QuarterRow(parse, ticker, JObj(items)) == Ok([]);
      }
    } else {
      assert QuarterRow(parse, ticker, JObj(items)).Err?;
    }
  }

  /** The normalised fields of a dict record, following the ticker, with the timestamp appended make its row. */
  lemma StampedRecord(parse: string -> Option<Float>, ticker: string, items: Dict<Json>, cells: Row)
    requires |cells| == 1 + |items| && cells[..1] == NewRow(ticker)
    requires forall i :: 0 <= i < |items| ==>
      QuarterCell(parse, items[i]).Ok? && cells[1 + i] == (items[i].0, Value(QuarterCell(parse, items[i]).value))
    ensures RecordRow(parse, ticker, items, cells + [(StampColumn, Now)])
  {
    var r := cells + [(StampColumn, Now)];
    assert r[0] == cells[..1][0];
    forall i | 0 <= i < |items|
      ensures QuarterCell(parse, items[i]).Ok? && r[i + 1] == (items[i].0, Value(QuarterCell(parse, items[i]).value))
    {
      assert r[i + 1] == cells[1 + i];
    }
  }

  /** The normalised fields of a dict record follow the ticker, in order. */
  lemma RecordCells(parse: string -> Option<Float>, ticker: string, items: Dict<Json>)
    requires Distinct(Keys(items)) && TickerColumn !in Keys(items)
    requires BalanceCells(parse, items, NewRow(ticker)).Ok?
    ensures var cells := BalanceCells(parse, items, NewRow(ticker)).value;
      |cells| == 1 + |items| && cells[..1] == NewRow(ticker) &&
      forall i :: 0 <= i < |items| ==>
        cells[1 + i].0 == Keys(items)[i] && QuarterCell(parse, items[i]).Ok?
        && cells[1 + i] == (items[i].0, Value(QuarterCell(parse, items[i]).value))
  {
    var start := NewRow(ticker);
    assert Disjoint(Keys(items), start);
    BalanceCellsSpec(parse, items, start);
    var cells := BalanceCells(parse, items, start).value;
    forall i | 0 <= i < |items|
      ensures cells[1 + i].0 == Keys(items)[i]
      ensures QuarterCell(parse, items[i]).Ok? && cells[1 + i] == (items[i].0, Value(QuarterCell(parse, items[i]).value))
    {
      assert cells[|start| + i] == (items[i].0, Value(QuarterCell(parse, items[i]).value));
    }
  }

  /** Stamping a row that starts with the ticker and has more than two keys gives a shaped row. */
  lemma StampShaped(row: Row)
    requires |row| > 2 && row[0].0 == TickerColumn
    ensures QuarterShaped(Stamp(row))
  {
    SetKeys(row, StampColumn, Now);
    SetHead(row, StampColumn, Now);
    assert |Stamp(row)| == |Keys(Stamp(row))|;
  }

  /** Each quarterly record gives at most one row, and every row is shaped. */
  lemma {:induction false} QuarterRowsSpec(parse: string -> Option<Float>, ticker: string, records: Dict<Json>)
    ensures QuarterRows(parse, ticker, records).Ok? ==>
      var rows := QuarterRows(parse, ticker, records).value;
      |rows| <= |records| && forall i :: 0 <= i < |rows| ==> QuarterShaped(rows[i])
    decreases |records|
  {
    if |records| > 0 {
      var record := records[0].1;
      QuarterRowShaped(parse, ticker, record);
      QuarterRowsSpec(parse, ticker, records[1..]);
      var first := QuarterRow(parse, ticker, record);
      var rest := QuarterRows(parse, ticker, records[1..]);
      if first.Ok? && rest.Ok? {
        var rows := first.value + rest.value;
        forall i | 0 <= i < |rows| ensures QuarterShaped(rows[i]) {
          if i >= |first.value| {
            assert rows[i] == rest.value[i - |first.value|];
          }
        }
      }
    }
  }

  /** At most two balance rows per ticker, each shaped. */
  lemma BalanceRowsAtMostTwo(parse: string -> Option<Float>, ticker: string, payload: Json)
    ensures BalanceRows(parse, ticker, payload).Ok? ==>
      var rows := BalanceRows(parse, ticker, payload).value;
      |rows| <= 2 && forall i :: 0 <= i < |rows| ==> QuarterShaped(rows[i])
  {
    var balance := BalanceSheet(payload);
    if balance.Ok? && Subscript(balance.value, "quarterly").Ok? {
      var data := Subscript(balance.value, "quarterly").value;
      if data.JObj? {
        QuarterRowsSpec(parse, ticker, FirstTwo(data.fields));
      }
    }
  }

  /** No Financials, nested or flat: no balance rows. */
  lemma NoFinancialsNoRows(parse: string -> Option<Float>, ticker: string, payload: Json)
    requires payload.JObj?
    requires "Financials" !in Keys(payload.fields) && "Financials::Balance_Sheet" !in Keys(payload.fields)
    ensures BalanceRows(parse, ticker, payload) == Ok([])
  {
  }

  /** A Financials dict without Balance_Sheet raises KeyError. */
  lemma MissingBalanceSheet(parse: string -> Option<Float>, ticker: string, payload: Json, financials: Dict<Json>)
    requires payload.JObj?
    requires Get(payload.fields, "Financials") == Some(JObj(financials))
    requires "Balance_Sheet" !in Keys(financials)
    ensures BalanceRows(parse, ticker, payload) == Err(KeyError("Balance_Sheet"))
  {
  }

  /** A balance sheet without quarterly data, or with an empty one, gives no rows. */
  lemma NoQuarterlyNoRows(parse: string -> Option<Float>, ticker: string, payload: Json, sheet: Dict<Json>)
    requires payload.JObj?
    requires "Financials" in Keys(payload.fields) || "Financials::Balance_Sheet" in Keys(payload.fields)
    requires BalanceSheet(payload) == Ok(JObj(sheet))
    requires Get(sheet, "quarterly") in {None, Some(JObj([])), Some(JArr([])), Some(JStr(""))}
    ensures BalanceRows(parse, ticker, payload) == Ok([])
  {
  }

  /** Only the first two quarterly records, in their dict order, are read. */
  lemma FirstTwoRecords(parse: string -> Option<Float>, ticker: string, payload: Json, sheet: Dict<Json>, records: Dict<Json>)
    requires payload.JObj?
    requires "Financials" in Keys(payload.fields) || "Financials::Balance_Sheet" in Keys(payload.fields)
    requires BalanceSheet(payload) == Ok(JObj(sheet))
    requires Get(sheet, "quarterly") == Some(JObj(records)) && |records| > 0
    ensures BalanceRows(parse, ticker, payload) ==
      QuarterRows(parse, ticker, records[..if |records| < 2 then |records| else 2])
  {
    assert BalanceRows(parse, ticker, payload) == QuarterlyRows(parse, ticker, payload);
    assert Subscript(JObj(sheet), "quarterly") == Ok(JObj(records));
    assert QuarterlyRows(parse, ticker, payload) == QuarterRows(parse, ticker, FirstTwo(records));
  }

  /** The value one quarterly field gets: valcheck, date-flagged when "date" is in its key. */
  function QuarterCell(parse: string -> Option<Float>, item: (string, Json)): Result<Json> {
    Valcheck(parse, item.1, Substring("date", item.0))
  }

  /**
   * A record's fields, with keys distinct and new to the row, are appended
   * in order, each holding its normalised value.
   */
  lemma {:induction false} BalanceCellsSpec(parse: string -> Option<Float>, items: Dict<Json>, row: Row)
    requires Distinct(Keys(items)) && Disjoint(Keys(items), row)
    ensures BalanceCells(parse, items, row).Ok? <==>
      forall i :: 0 <= i < |items| ==> QuarterCell(parse, items[i]).Ok?
    ensures BalanceCells(parse, items, row).Ok? ==>
      var r := BalanceCells(parse, items, row).value;
      |r| == |row| + |items| && r[..|row|] == row &&
      forall i :: 0 <= i < |items| ==> r[|row| + i] == (items[i].0, Value(QuarterCell(parse, items[i]).value))
    decreases |items|
  {
    if |items| > 0 {
      var c := QuarterCell(parse, items[0]);
      var tail := items[1..];
      assert Keys(tail) == Keys(items)[1..];
      DistinctTail(Keys(items));
      if c.Ok? {
        var row' := row + [(items[0].0, Value(c.value))];
        SetAppends(row, items[0].0, Value(c.value));
        assert Set(row, items[0].0, Value(c.value)) == row';
        DisjointAfterAppend(row, Keys(items), Value(c.value));
        BalanceCellsSpec(parse, tail, row');
        BalanceCellsStep(parse, items, row, row');
      }
    }
  }

  /** The inductive step of `BalanceCellsSpec`. */
  lemma BalanceCellsStep(parse: string -> Option<Float>, items: Dict<Json>, row: Row, row': Row)
    requires |items| > 0 && QuarterCell(parse, items[0]).Ok?
    requires row' == row + [(items[0].0, Value(QuarterCell(parse, items[0]).value))]
    requires BalanceCells(parse, items, row) == BalanceCells(parse, items[1..], row')
    requires BalanceCells(parse, items[1..], row').Ok? <==>
      forall i :: 0 <= i < |items[1..]| ==> QuarterCell(parse, items[1..][i]).Ok?
    requires BalanceCells(parse, items[1..], row').Ok? ==>
      var r := BalanceCells(parse, items[1..], row').value;
      |r| == |row'| + |items[1..]| && r[..|row'|] == row' &&
      forall i :: 0 <= i < |items[1..]| ==> r[|row'| + i] == (items[1..][i].0, Value(QuarterCell(parse, items[1..][i]).value))
    ensures BalanceCells(parse, items, row).Ok? <==>
      forall i :: 0 <= i < |items| ==> QuarterCell(parse, items[i]).Ok?
    ensures BalanceCells(parse, items, row).Ok? ==>
      var r := BalanceCells(parse, items, row).value;
      |r| == |row| + |items| && r[..|row|] == row &&
      forall i :: 0 <= i < |items| ==> r[|row| + i] == (items[i].0, Value(QuarterCell(parse, items[i]).value))
  {
    BalanceCellsStepOk(parse, items, row, row');
    var tail := items[1..];
    var whole := BalanceCells(parse, items, row);
    if whole.Ok? {
      var r := whole.value;
      assert r[..|row'|] == row';
      assert r[..|row|] == row'[..|row|] == row;
      forall i | 0 <= i < |items| ensures r[|row| + i] == (items[i].0, Value(QuarterCell(parse, items[i]).value)) {
        ShiftedEntry(r, row, row', i, Keys(tail), items[i].0, Value(QuarterCell(parse, items[i]).value));
      }
    }
  }

  /** The inductive step of `BalanceCellsSpec`, for when the loop succeeds. */
  lemma BalanceCellsStepOk(parse: string -> Option<Float>, items: Dict<Json>, row: Row, row': Row)
    requires |items| > 0 && QuarterCell(parse, items[0]).Ok?
    requires BalanceCells(parse, items, row) == BalanceCells(parse, items[1..], row')
    requires BalanceCells(parse, items[1..], row').Ok? <==>
      forall i :: 0 <= i < |items[1..]| ==> QuarterCell(parse, items[1..][i]).Ok?
    ensures BalanceCells(parse, items, row).Ok? <==>
      forall i :: 0 <= i < |items| ==> QuarterCell(parse, items[i]).Ok?
  {
    var tail := items[1..];
    forall i | 0 < i < |items| ensures items[i] == tail[i - 1] {
    }
  }
}

=== FILE: rows.dfy ===
/**
 * The rows `Agent.transform` builds for one ticker, one builder per kind of
 * table: section tables, root (`#`) tables, the ESG activities table and the
 * quarterly balance table.
 */
module Rows {
  import opened Outcomes
  import opened Assoc
  import opened PyJson
  import opened Normalise
  import opened Schema

  /** A row cell: a normalised value, or the creation time `timenow()` returned. */
  datatype Cell = Value(v: Json) | Now

  type Row = Dict<Cell>

  const TickerColumn := "bbg_comp_ticker"
  const StampColumn := "timestamp_created_utc"

  /** `{"bbg_comp_ticker": ticker}`. */
  function NewRow(ticker: string): Row {
    [(TickerColumn, Value(JStr(ticker)))]
  }

  /** `row["timestamp_created_utc"] = self.timenow()`. */
  function Stamp(row: Row): (r: Row)
    ensures Get(r, StampColumn) == Some(Now)
    ensures StampColumn !in Keys(row) ==> r == row + [(StampColumn, Now)]
  {
    if StampColumn !in Keys(row) then SetAppends(row, StampColumn, Now); Set(row, StampColumn, Now)
    else Set(row, StampColumn, Now)
  }

  // ---------------------------------------------------------------------
  // Section tables

  /** The section a section table reads; an absent or "NA" section reads as `{}`. */
  function SectionData(payload: Json, column: string): Result<Json>
  {
    var present :- Contains(payload, column);
    if !present then Ok(JObj([]))
    else
      var section :- Subscript(payload, column);
      Ok(if section == JStr("NA") then JObj([]) else section)
  }

  /** A field's source key and output name: `k, name = k.split("#")` when it holds '#'. */
  function SourceAndName(field: string): (r: Result<(string, string)>)
    ensures '#' !in field ==> r == Ok((field, field))
  {
    if '#' !in field then Ok((field, field))
    else
      var parts := Split(field, '#');
      if |parts| != 2 then Err(ValueError) else Ok((parts[0], parts[1]))
  }

  /** The section-table date flag: "date" in the output name, case-sensitive. */
  predicate SectionDateFlag(name: string) {
    Substring("date", name)
  }

  /** The value a section field gets: valcheck of the section's entry, or None. */
  function SectionCell(parse: string -> Option<Float>, data: Json, src: string, name: string): (r: Result<Json>)
    ensures Contains(data, src) == Ok(false) ==> r == Ok(JNull)
    ensures Subscript(data, src).Ok? ==> r == Valcheck(parse, Subscript(data, src).value, SectionDateFlag(name))
  {
    var has :- Contains(data, src);
    if has then
      var x :- Subscript(data, src);
      Valcheck(parse, x, SectionDateFlag(name))
    else Ok(JNull)
  }

  function SectionCells(parse: string -> Option<Float>, data: Json, fields: seq<string>, row: Row): Result<Row>
    decreases |fields|
  {
    if |fields| == 0 then Ok(row)
    else
      var names :- SourceAndName(fields[0]);
      var cell :- SectionCell(parse, data, names.0, names.1);
      SectionCells(parse, data, fields[1..], Set(row, names.1, Value(cell)))
  }

  /** The row a section table gets for one ticker. */
  function SectionRow(parse: string -> Option<Float>, ticker: string, payload: Json, column: string, fields: seq<string>): Result<Row>
  {
    var data :- SectionData(payload, column);
    var row :- SectionCells(parse, data, fields, NewRow(ticker));
    Ok(Stamp(row))
  }

  // ---------------------------------------------------------------------
  // Root tables

  /**
   * The root-table date flag. The second test can never hold: a lowered
   * string has no capital letters (see `RowFacts.UpdatedAtTestIsDead`).
   */
  predicate RootDateFlag(key: string) {
    Substring("date", Lower(key)) || Substring("UpdatedAt", Lower(key))
  }

  /** The value a root column gets: valcheck of the literal top-level key, or None. */
  function RootCell(parse: string -> Option<Float>, payload: Json, column: string, key: string): (r: Result<Json>)
    ensures Contains(payload, column) == Ok(false) ==> r == Ok(JNull)
    ensures Subscript(payload, column).Ok? ==> r == Valcheck(parse, Subscript(payload, column).value, RootDateFlag(key))
  {
    var has :- Contains(payload, column);
    if has then
      var x :- Subscript(payload, column);
      Valcheck(parse, x, RootDateFlag(key))
    else Ok(JNull)
  }

  function RootCells(parse: string -> Option<Float>, payload: Json, columns: seq<string>, row: Row): Result<Row>
    decreases |columns|
  {
    if |columns| == 0 then Ok(row)
    else
      var parts := Split(columns[0], '#');
      if |parts| < 2 then Err(IndexError)
      else
        var cell :- RootCell(parse, payload, parts[0], parts[1]);
        RootCells(parse, payload, columns[1..], Set(row, parts[1], Value(cell)))
  }

  /** The row a root table gets for one ticker: each path is one literal top-level key. */
  function RootRow(parse: string -> Option<Float>, ticker: string, payload: Json, columns: seq<string>): Result<Row>
  {
    var row :- RootCells(parse, payload, columns, NewRow(ticker));
    Ok(Stamp(row))
  }

  // ---------------------------------------------------------------------
  // ESG activities table

  /** ESGScores is present and not "NA", and so is its ActivitiesInvolvement. */
  function ActivitiesPresent(payload: Json): Result<bool>
  {
    var hasEsg :- Contains(payload, "ESGScores");
    if !hasEsg then Ok(false)
    else
      var esg :- Subscript(payload, "ESGScores");
      if esg == JStr("NA") then Ok(false)
      else
        var hasInvolvement :- Contains(esg, "ActivitiesInvolvement");
        if !hasInvolvement then Ok(false)
        else
          var involvement :- Subscript(esg, "ActivitiesInvolvement");
          Ok(involvement != JStr("NA"))
  }

  /** One `{"Activity": a, "Involvement": x}` entry: a known activity's column gets x verbatim. */
  function CopyActivity(entry: Json, known: seq<string>, row: Row): Result<Row>
  {
    var activity :- Subscript(entry, "Activity");
    var involvement :- Subscript(entry, "Involvement");
    Ok(if activity.JStr? && activity.s in known then Set(row, activity.s, Value(involvement)) else row)
  }

  /** `for i in d: d[i]` over a dict: its values in order. */
  function CopyFromDict(entries: Dict<Json>, known: seq<string>, row: Row): Result<Row>
    decreases |entries|
  {
    if |entries| == 0 then Ok(row)
    else
      var row' :- CopyActivity(entries[0].1, known, row);
      CopyFromDict(entries[1..], known, row')
  }

  /** `for i in xs: xs[i]` over a list: each element is used as an index. */
  function CopyFromList(items: seq<Json>, indices: seq<Json>, known: seq<string>, row: Row): Result<Row>
    decreases |indices|
  {
    if |indices| == 0 then Ok(row)
    else
      var entry :- ListIndex(items, indices[0]);
      var row' :- CopyActivity(entry, known, row);
      CopyFromList(items, indices[1..], known, row')
  }

  /** The loop over ActivitiesInvolvement, for whatever value it holds. */
  function CopyActivities(involvement: Json, known: seq<string>, row: Row): Result<Row>
  {
    match involvement
    case JObj(entries) => CopyFromDict(entries, known, row)
    case JArr(items) => CopyFromList(items, items, known, row)
    case JStr(s) => if |s| == 0 then Ok(row) else Err(TypeError)  // s[c] with a str index
    case _ => Err(TypeError)                                       // not iterable
  }

  /** `for k in names: row[k] = None`. */
  function NullColumns(names: seq<string>, row: Row): Row
    decreases |names|
  {
    if |names| == 0 then row else NullColumns(names[1..], Set(row, names[0], Value(JNull)))
  }

  /** The row the activities table gets for one ticker. */
  function ActivitiesRow(ticker: string, payload: Json, known: seq<string>): Result<Row>
  {
    var present :- ActivitiesPresent(payload);
    if present then
      var esg :- Subscript(payload, "ESGScores");
      var involvement :- Subscript(esg, "ActivitiesInvolvement");
      var row :- CopyActivities(involvement, known, NewRow(ticker));
      Ok(Stamp(row))
    else
      Ok(Stamp(NullColumns(known, NewRow(ticker))))
  }

  // ---------------------------------------------------------------------
  // Balance table

  /** Every field of one quarterly record, normalised; "date" in the key flags a date. */
  function BalanceCells(parse: string -> Option<Float>, items: Dict<Json>, row: Row): Result<Row>
    decreases |items|
  {
    if |items| == 0 then Ok(row)
    else
      var cell :- Valcheck(parse, items[0].1, Substring("date", items[0].0));
      BalanceCells(parse, items[1..], Set(row, items[0].0, Value(cell)))
  }

  /** One quarterly record: None is skipped, and a row needs two fields besides the ticker. */
  function QuarterRow(parse: string -> Option<Float>, ticker: string, record: Json): Result<seq<Row>>
  {
    if record == JNull then Ok([])
    else if !record.JObj? then Err(AttributeError)   // `.items()` outside the try
    else
      var row :- BalanceCells(parse, record.fields, NewRow(ticker));
      Ok(if |row| > 2 then [Stamp(row)] else [])
  }

  function QuarterRows(parse: string -> Option<Float>, ticker: string, records: Dict<Json>): Result<seq<Row>>
    decreases |records|
  {
    if |records| == 0 then Ok([])
    else
      var first :- QuarterRow(parse, ticker, records[0].1);
      var rest :- QuarterRows(parse, ticker, records[1..]);
      Ok(first + rest)
  }

  /** The Balance_Sheet object: nested under Financials, or under the flat key. */
  function BalanceSheet(payload: Json): Result<Json>
  {
    var nested :- Contains(payload, "Financials");
    if nested then
      var financials :- Subscript(payload, "Financials");
      Subscript(financials, "Balance_Sheet")
    else
      Subscript(payload, "Financials::Balance_Sheet")
  }

  /** The rows from the first two quarterly records of the payload's balance sheet. */
  function QuarterlyRows(parse: string -> Option<Float>, ticker: string, payload: Json): Result<seq<Row>>
  {
    var balance :- BalanceSheet(payload);
    var hasQuarterly :- Contains(balance, "quarterly");
    if !hasQuarterly then Ok([])
    else
      var data :- Subscript(balance, "quarterly");
      var n :- Len(data);
      if n == 0 then Ok([])
      // `list(data.keys())[i]` sits inside a bare try: a non-dict ends the loop at once
      else if !data.JObj? then Ok([])
      else QuarterRows(parse, ticker, FirstTwo(data.fields))
  }

  function FirstTwo(records: Dict<Json>): (r: Dict<Json>)
    ensures r == records[..if |records| <= 2 then |records| else 2]
  {
    if |records| <= 2 then records else records[..2]
  }

  /** The rows the balance table gets for one ticker. */
  function BalanceRows(parse: string -> Option<Float>, ticker: string, payload: Json): Result<seq<Row>>
  {
    var flat :- Contains(payload, "Financials::Balance_Sheet");
    if flat then QuarterlyRows(parse, ticker, payload)
    else
      var nested :- Contains(payload, "Financials");
      if nested then QuarterlyRows(parse, ticker, payload) else Ok([])
  }

  // ---------------------------------------------------------------------
  // Dispatch

  /** The rows one configured table gets for one ticker. */
  function TableRows(parse: string -> Option<Float>, name: string, spec: Spec, ticker: string, payload: Json): Result<seq<Row>>
  {
    if name == ActivitiesTable then
      var row :- ActivitiesRow(ticker, payload, spec.1);
      Ok([row])
    else if name == BalanceTable then
      BalanceRows(parse, ticker, payload)
    else if spec.0 != RootMarker then
      var row :- SectionRow(parse, ticker, payload, spec.0, spec.1);
      Ok([row])
    else
      var row :- RootRow(parse, ticker, payload, spec.1);
      Ok([row])
  }

  /** The rows every configured table gets for one ticker, in configuration order. */
  function TickerRows(parse: string -> Option<Float>, ticker: string, payload: Json, specs: seq<(string, Spec)>): (r: Result<seq<seq<Row>>>)
    ensures r.Ok? <==> forall i :: 0 <= i < |specs| ==> TableRows(parse, specs[i].0, specs[i].1, ticker, payload).Ok?
    ensures r.Ok? ==> |r.value| == |specs|
    ensures r.Ok? ==> forall i :: 0 <= i < |specs| ==>
      TableRows(parse, specs[i].0, specs[i].1, ticker, payload) == Ok(r.value[i])
    decreases |specs|
  {
    if |specs| == 0 then Ok([])
    else
      var first :- TableRows(parse, specs[0].0, specs[0].1, ticker, payload);
      var rest :- TickerRows(parse, ticker, payload, specs[1..]);
      Ok([first] + rest)
  }
}

=== FILE: schema.dfy ===
/**
 * The static `Agent.FIELDS` table, with the string helpers its entries are
 * read through: `str.split("#")` and `str.lower()`.
 *
 * Each table is configured by a pair (column, fields). Column "#" marks a
 * root table whose fields are "A::B::C#Name" strings, looked up as literal
 * top-level keys; any other column names the payload section a section table
 * reads.
 */
module Schema {

  type Spec = (string, seq<string>)

  const BasicsTable := "etl.eodhd_basics"
  const EsgScoresTable := "etl.eodhd_esg_scores"
  const ActivitiesTable := "etl.eodhd_esg_scores_activities"
  const HighlightsTable := "etl.eodhd_highlights"
  const ValuationTable := "etl.eodhd_valuation"
  const SharesStatsTable := "etl.eodhd_shares_stats"
  const DividendsTable := "etl.eodhd_dividends"
  const BalanceTable := "etl.eodhd_balance"
  const FundamentalsTable := "etl.eodhd_fundamentals"

  const RootMarker := "#"

  /**
   * A root-table column "path#name": the top-level payload key `path` and the
   * output column `name`. The basics and dividends pairs below are their
   * tables' columns taken apart at the '#'.
   */
  function RootColumn(path: string, name: string): string {
    path + "#" + name
  }

  function RootColumns(pairs: seq<(string, string)>): (columns: seq<string>)
    ensures |columns| == |pairs|
    ensures forall i :: 0 <= i < |pairs| ==> columns[i] == RootColumn(pairs[i].0, pairs[i].1)
  {
    if |pairs| == 0 then [] else [RootColumn(pairs[0].0, pairs[0].1)] + RootColumns(pairs[1..])
  }

  const BasicsPairs: seq<(string, string)> := [
    ("General::FullTimeEmployees", "FullTimeEmployees"),
    ("General::UpdatedAt", "UpdatedAt"),
    ("General::AddressData::ZIP", "ZIP"),
    ("General::AddressData::Country", "Country"),
    ("General::AddressData::City", "City"),
    ("General::Sector", "Sector"),
    ("General::Industry", "Industry"),
    ("General::GicSector", "GicSector"),
    ("General::GicIndustry", "GicIndustry")
  ]

  const BasicsFields: seq<string> := [
    "General::FullTimeEmployees#FullTimeEmployees",
    "General::UpdatedAt#UpdatedAt",
    "General::AddressData::ZIP#ZIP",
    "General::AddressData::Country#Country",
    "General::AddressData::City#City",
    "General::Sector#Sector",
    "General::Industry#Industry",
    "General::GicSector#GicSector",
    "General::GicIndustry#GicIndustry"
  ]

  const EsgScoresFields: seq<string> := [
    "RatingDate", "TotalEsg", "TotalEsgPercentile", "EnvironmentScore",
    "EnvironmentScorePercentile", "GovernanceScore", "GovernanceScorePercentile",
    "ControversyLevel", "SocialScore", "SocialScorePercentile"
  ]

  /** The activity names the activities table knows. */
  const KnownActivities: seq<string> := [
    "adult", "alcoholic", "animalTesting", "catholic", "controversialWeapons",
    "smallArms", "furLeather", "gambling", "gmo", "militaryContract", "nuclear",
    "pesticides", "palmOil", "coal", "tobacco"
  ]

  const HighlightsFields: seq<string> := [
    "EBITDA", "PERatio", "PEGRatio", "WallStreetTargetPrice", "BookValue",
    "DividendShare", "DividendYield", "EarningsShare", "EPSEstimateCurrentYear",
    "EPSEstimateNextYear", "EPSEstimateNextQuarter", "EPSEstimateCurrentQuarter",
    "MostRecentQuarter", "ProfitMargin", "OperatingMarginTTM", "ReturnOnAssetsTTM",
    "ReturnOnEquityTTM", "RevenueTTM", "RevenuePerShareTTM",
    "QuarterlyRevenueGrowthYOY", "GrossProfitTTM", "DilutedEpsTTM",
    "QuarterlyEarningsGrowthYOY"
  ]

  const ValuationFields: seq<string> := [
    "TrailingPE", "ForwardPE", "PriceSalesTTM", "PriceBookMRQ",
    "EnterpriseValueRevenue", "EnterpriseValueEbitda"
  ]

  const SharesStatsFields: seq<string> := [
    "SharesOutstanding", "SharesFloat", "SharesShortPriorMonth", "ShortRatio",
    "ShortPercentOutstanding", "ShortPercentFloat"
  ]

  const DividendsPairs: seq<(string, string)> := [
    ("SplitsDividends::ForwardAnnualDividendRate", "ForwardAnnualDividendRate"),
    ("SplitsDividends::ForwardAnnualDividendYield", "ForwardAnnualDividendYield"),
    ("SplitsDividends::PayoutRatio", "PayoutRatio")
  ]

  const DividendsFields: seq<string> := [
    "SplitsDividends::ForwardAnnualDividendRate#ForwardAnnualDividendRate",
    "SplitsDividends::ForwardAnnualDividendYield#ForwardAnnualDividendYield",
    "SplitsDividends::PayoutRatio#PayoutRatio"
  ]

  /** `Agent.FIELDS`, in its declaration order (the order tables are produced in). */
  const Fields: seq<(string, Spec)> := [
    (BasicsTable, (RootMarker, BasicsFields)),
    (EsgScoresTable, ("ESGScores", EsgScoresFields)),
    (ActivitiesTable, ("ESGScores&ActivitiesInvolvement", KnownActivities)),
    (HighlightsTable, ("Highlights", HighlightsFields)),
    (ValuationTable, ("Valuation", ValuationFields)),
    (SharesStatsTable, ("SharesStats", SharesStatsFields)),
    (DividendsTable, (RootMarker, DividendsFields)),
    (BalanceTable, (RootMarker, []))
  ]

  function TableNames(specs: seq<(string, Spec)>): (names: seq<string>)
    ensures |names| == |specs|
    ensures forall i :: 0 <= i < |specs| ==> names[i] == specs[i].0
  {
    if |specs| == 0 then [] else [specs[0].0] + TableNames(specs[1..])
  }

  // ---------------------------------------------------------------------
  // str.split and str.lower

  /** `s.split(sep)` for a one-character separator. */
  function Split(s: string, sep: char): (parts: seq<string>)
    ensures |parts| >= 1
    ensures forall i :: 0 <= i < |parts| ==> sep !in parts[i]
    ensures Join(parts, sep) == s
  {
    if |s| == 0 then [""]
    else
      var rest := Split(s[1..], sep);
      if s[0] == sep then [""] + rest
      else [[s[0]] + rest[0]] + rest[1..]
  }

  /** `sep.join(parts)`. */
  function Join(parts: seq<string>, sep: char): string
    requires |parts| >= 1
  {
    if |parts| == 1 then parts[0] else parts[0] + [sep] + Join(parts[1..], sep)
  }

  /** Splitting a join of separator-free parts gives the parts back. */
  lemma {:induction false} SplitJoin(parts: seq<string>, sep: char)
    requires |parts| >= 1
    requires forall i :: 0 <= i < |parts| ==> sep !in parts[i]
    ensures Split(Join(parts, sep), sep) == parts
  {
    if |parts| == 1 {
      SplitPlain(parts[0], sep);
    } else {
      SplitJoin(parts[1..], sep);
      SplitPrefix(parts[0], Join(parts[1..], sep), sep);
    }
  }

  lemma {:induction false} SplitPlain(s: string, sep: char)
    requires sep !in s
    ensures Split(s, sep) == [s]
  {
    if |s| > 0 {
      SplitPlain(s[1..], sep);
    }
  }

  /** Splitting `a + sep + b` for a separator-free `a`. */
  lemma {:induction false} SplitPrefix(a: string, b: string, sep: char)
    requires sep !in a
    ensures Split(a + [sep] + b, sep) == [a] + Split(b, sep)
  {
    if |a| == 0 {
      assert a + [sep] + b == [sep] + b;
      assert ([sep] + b)[1..] == b;
    } else {
      SplitPrefix(a[1..], b, sep);
      assert (a + [sep] + b)[1..] == a[1..] + [sep] + b;
      assert [a[0]] + a[1..] == a;
    }
  }

  /** ASCII `str.lower()`. */
  function Lower(s: string): (t: string)
    ensures |t| == |s|
    ensures forall i :: 0 <= i < |s| ==> !('A' <= t[i] <= 'Z')
    ensures forall i :: 0 <= i < |s| ==> ('A' <= s[i] <= 'Z' || t[i] == s[i])
    ensures forall i :: 0 <= i < |s| && 'A' <= s[i] <= 'Z' ==> t[i] as int == s[i] as int + 32
  {
    if |s| == 0 then []
    else [LowerChar(s[0])] + Lower(s[1..])
  }

  function LowerChar(c: char): char {
    if 'A' <= c <= 'Z' then (c as int - 'A' as int + 'a' as int) as char else c
  }
}

=== FILE: tablefacts.dfy ===
/**
 * The rows each configured table gets per ticker: one row for every
 * ticker with a truthy payload, in ticker order, that row starting with
 * the ticker and ending with the timestamp; at most two balance rows per
 * ticker; and the same frame for the combined fundamentals rows.
 */
module TableFacts {
  import opened Outcomes
  import opened Assoc
  import opened PyJson
  import opened Schema
  import opened Rows
  import opened Transform
  import opened RowFacts
  import opened TransformFacts
  import opened ConfigFacts

  /** A row of one ticker: its ticker cell first, the timestamp last. */
  predicate Framed(row: Row, ticker: string) {
    |row| >= 2 && row[0] == (TickerColumn, Value(JStr(ticker))) && row[|row| - 1] == (StampColumn, Now)
  }

  /** The tickers whose payload is truthy, in input order. */
  function TruthyTickers(data: Dict<Json>): (tickers: seq<string>)
    ensures |tickers| <= |data|
    ensures |tickers| == 0 <==> !AnyTruthy(data)
    decreases |data|
  {
    if |data| == 0 then []
    else
      var rest := TruthyTickers(data[1..]);
      assert AnyTruthy(data[1..]) ==> AnyTruthy(data) by {
        if AnyTruthy(data[1..]) {
          var i :| 0 <= i < |data[1..]| && Truthy(data[1..][i].1);
          assert data[i + 1] == data[1..][i];
        }
      }
      assert AnyTruthy(data) && !Truthy(data[0].1) ==> AnyTruthy(data[1..]) by {
        if AnyTruthy(data) && !Truthy(data[0].1) {
          var i :| 0 <= i < |data| && Truthy(data[i].1);
          assert data[1..][i - 1] == data[i];
        }
      }
      if Truthy(data[0].1) then [data[0].0] + rest else rest
  }

  /** A table that gives each ticker exactly one framed row, whenever it gives rows at all. */
  ghost predicate OneRowEach(parse: string -> Option<Float>, name: string, spec: Spec) {
    forall ticker, payload :: TableRows(parse, name, spec, ticker, payload).Ok? ==>
      |TableRows(parse, name, spec, ticker, payload).value| == 1
      && Framed(TableRows(parse, name, spec, ticker, payload).value[0], ticker)
  }

  /** Such a table has one row per truthy ticker, in ticker order. */
  lemma {:induction false} TableOfFramed(parse: string -> Option<Float>, data: Dict<Json>, name: string, spec: Spec)
    requires OneRowEach(parse, name, spec)
    ensures TableOf(parse, data, name, spec).Ok? ==>
      var rows := TableOf(parse, data, name, spec).value;
      |rows| == |TruthyTickers(data)| && forall i :: 0 <= i < |rows| ==> Framed(rows[i], TruthyTickers(data)[i])
    decreases |data|
  {
    if |data| > 0 {
      TableOfFramed(parse, data[1..], name, spec);
      if Truthy(data[0].1) {
        TableOfStep(parse, data, name, spec);
        var table := TableOf(parse, data, name, spec);
        if table.Ok? {
          var first := TableRows(parse, name, spec, data[0].0, data[0].1).value;
          var rest := TableOf(parse, data[1..], name, spec).value;
          var tickers := TruthyTickers(data);
          assert tickers == [data[0].0] + TruthyTickers(data[1..]);
          forall i | 0 <= i < |table.value| ensures Framed(table.value[i], tickers[i]) {
            if i > 0 {
              assert table.value[i] == rest[i - 1];
            }
          }
        }
      }
    }
  }

  /** The balance table gives each ticker at most two rows. */
  lemma {:induction false} BalanceTableBound(parse: string -> Option<Float>, data: Dict<Json>, spec: Spec)
    ensures TableOf(parse, data, BalanceTable, spec).Ok? ==>
      |TableOf(parse, data, BalanceTable, spec).value| <= 2 * |TruthyTickers(data)|
    decreases |data|
  {
    if |data| > 0 {
      BalanceTableBound(parse, data[1..], spec);
      if Truthy(data[0].1) {
        TableOfStep(parse, data, BalanceTable, spec);
        BalanceRowsAtMostTwo(parse, data[0].0, data[0].1);
      }
    }
  }

  // ---------------------------------------------------------------------
  // One framed row per ticker, by kind of table

  /** A section table whose output columns are plain, distinct and fresh. */
  lemma SectionOneRowEach(parse: string -> Option<Float>, name: string, spec: Spec)
    requires name != ActivitiesTable && name != BalanceTable && spec.0 != RootMarker
    requires Clean(spec.1)
    ensures OneRowEach(parse, name, spec)
  {
    forall ticker, payload | TableRows(parse, name, spec, ticker, payload).Ok?
      ensures |TableRows(parse, name, spec, ticker, payload).value| == 1
      ensures Framed(TableRows(parse, name, spec, ticker, payload).value[0], ticker)
    {
      SectionRowSpec(parse, ticker, payload, spec.0, spec.1);
    }
  }

  /** A root table whose columns each name a path and a fresh, distinct output column. */
  lemma RootOneRowEach(parse: string -> Option<Float>, name: string, spec: Spec)
    requires name != ActivitiesTable && name != BalanceTable && spec.0 == RootMarker
    requires Paired(spec.1) && Fresh(RootNames(spec.1))
    ensures OneRowEach(parse, name, spec)
  {
    forall ticker, payload | TableRows(parse, name, spec, ticker, payload).Ok?
      ensures |TableRows(parse, name, spec, ticker, payload).value| == 1
      ensures Framed(TableRows(parse, name, spec, ticker, payload).value[0], ticker)
    {
      RootRowSpec(parse, ticker, payload, spec.1);
    }
  }

  /** Copying one activity writes only a known column. */
  lemma CopyActivityKeeps(entry: Json, known: seq<string>, row: Row)
    requires |row| > 0 && row[0].0 !in known && StampColumn !in known
    ensures CopyActivity(entry, known, row).Ok? ==>
      var r := CopyActivity(entry, known, row).value;
      |r| > 0 && r[0] == row[0] && Get(r, StampColumn) == Get(row, StampColumn)
  {
  }

  lemma {:induction false} CopyFromDictKeeps(entries: Dict<Json>, known: seq<string>, row: Row)
    requires |row| > 0 && row[0].0 !in known && StampColumn !in known
    ensures CopyFromDict(entries, known, row).Ok? ==>
      var r := CopyFromDict(entries, known, row).value;
      |r| > 0 && r[0] == row[0] && Get(r, StampColumn) == Get(row, StampColumn)
    decreases |entries|
  {
    if |entries| > 0 {
      CopyActivityKeeps(entries[0].1, known, row);
      var step := CopyActivity(entries[0].1, known, row);
      if step.Ok? {
        CopyFromDictKeeps(entries[1..], known, step.value);
      }
    }
  }

  lemma {:induction false} CopyFromListKeeps(items: seq<Json>, indices: seq<Json>, known: seq<string>, row: Row)
    requires |row| > 0 && row[0].0 !in known && StampColumn !in known
    ensures CopyFromList(items, indices, known, row).Ok? ==>
      var r := CopyFromList(items, indices, known, row).value;
      |r| > 0 && r[0] == row[0] && Get(r, StampColumn) == Get(row, StampColumn)
    decreases |indices|
  {
    if |indices| > 0 {
      var entry := ListIndex(items, indices[0]);
      if entry.Ok? {
        CopyActivityKeeps(entry.value, known, row);
        var step := CopyActivity(entry.value, known, row);
        if step.Ok? {
          CopyFromListKeeps(items, indices[1..], known, step.value);
        }
      }
    }
  }

  /** Whatever the involvement value holds, copying it keeps the ticker first and adds no timestamp. */
  lemma CopyActivitiesKeeps(involvement: Json, known: seq<string>, row: Row)
    requires |row| > 0 && row[0].0 !in known && StampColumn !in known
    ensures CopyActivities(involvement, known, row).Ok? ==>
      var r := CopyActivities(involvement, known, row).value;
      |r| > 0 && r[0] == row[0] && Get(r, StampColumn) == Get(row, StampColumn)
  {
    match involvement
    case JObj(entries) => CopyFromDictKeeps(entries, known, row);
    case JArr(items) => CopyFromListKeeps(items, items, known, row);
    case _ =>
  }

  /** The activities table, for a fresh list of known activities. */
  lemma ActivitiesOneRowEach(parse: string -> Option<Float>, spec: Spec)
    requires Fresh(spec.1)
    ensures OneRowEach(parse, ActivitiesTable, spec)
  {
    forall ticker, payload | TableRows(parse, ActivitiesTable, spec, ticker, payload).Ok?
      ensures |TableRows(parse, ActivitiesTable, spec, ticker, payload).value| == 1
      ensures Framed(TableRows(parse, ActivitiesTable, spec, ticker, payload).value[0], ticker)
    {
      var present := ActivitiesPresent(payload).value;
      if present {
        var esg := Subscript(payload, "ESGScores").value;
        var involvement := Subscript(esg, "ActivitiesInvolvement").value;
        CopyActivitiesKeeps(involvement, spec.1, NewRow(ticker));
        var row := CopyActivities(involvement, spec.1, NewRow(ticker)).value;
        assert StampColumn !in Keys(row);
        assert ActivitiesRow(ticker, payload, spec.1) == Ok(row + [(StampColumn, Now)]);
      } else {
        ActivitiesAbsentAllNull(ticker, payload, spec.1);
      }
    }
  }

  /** Combining framed rows keeps each row's ticker first and puts a fresh timestamp last. */
  lemma CombinedFramed(table: seq<Row>, others: seq<string>, result: Output, tickers: seq<string>)
    requires |table| == |tickers| && forall i :: 0 <= i < |table| ==> Framed(table[i], tickers[i])
    ensures CombineRows(table, others, result).Ok? ==>
      var rows := CombineRows(table, others, result).value;
      |rows| == |tickers| && forall i :: 0 <= i < |rows| ==> Framed(rows[i], tickers[i])
  {
    if CombineRows(table, others, result).Ok? {
      var rows := CombineRows(table, others, result).value;
      forall i | 0 <= i < |rows| ensures Framed(rows[i], tickers[i]) {
        assert CombineRow(table[i], others, result).Ok?;
        CombinedRowFramed(table[i], tickers[i], others, result);
      }
    }
  }

  /** A framed row stays framed, with the same ticker, when the combine step rebuilds it. */
  lemma CombinedRowFramed(row: Row, ticker: string, others: seq<string>, result: Output)
    requires Framed(row, ticker) && CombineRow(row, others, result).Ok?
    ensures Framed(CombineRow(row, others, result).value, ticker)
  {
    CombineRowSpec(row, others, result);
    assert Get(row, TickerColumn) == Some(Value(JStr(ticker)));
  }


  // ---------------------------------------------------------------------
  // The configured tables

  /** Where each table sits in the configuration, and which kind of table it is. */
  lemma FieldsOrder()
    ensures |Fields| == 8
    ensures Fields[0] == (BasicsTable, (RootMarker, BasicsFields))
    ensures Fields[1] == (EsgScoresTable, ("ESGScores", EsgScoresFields))
    ensures Fields[2] == (ActivitiesTable, ("ESGScores&ActivitiesInvolvement", KnownActivities))
    ensures Fields[5] == (SharesStatsTable, ("SharesStats", SharesStatsFields))
    ensures Fields[6] == (DividendsTable, (RootMarker, DividendsFields))
    ensures Fields[7].0 == BalanceTable
  {
  }

  /** The tables the combine step leaves alone. */
  lemma KeptTables()
    ensures BasicsTable !in FundamentalsParts && BasicsTable != FundamentalsTable
    ensures EsgScoresTable !in FundamentalsParts && EsgScoresTable != FundamentalsTable
    ensures ActivitiesTable !in FundamentalsParts && ActivitiesTable != FundamentalsTable
    ensures SharesStatsTable !in FundamentalsParts && SharesStatsTable != FundamentalsTable
    ensures BalanceTable !in FundamentalsParts && BalanceTable != FundamentalsTable
  {
    assert FundamentalsParts == [DividendsTable, ValuationTable, HighlightsTable];
  }

  lemma BasicsOneRowEach(parse: string -> Option<Float>)
    ensures OneRowEach(parse, BasicsTable, (RootMarker, BasicsFields))
  {
    BasicsHashFree();
    BasicsNamesFresh();
    RootPairsReady(BasicsPairs);
    BasicsColumns();
    RootOneRowEach(parse, BasicsTable, (RootMarker, BasicsFields));
  }

  lemma DividendsOneRowEach(parse: string -> Option<Float>)
    ensures OneRowEach(parse, DividendsTable, (RootMarker, DividendsFields))
  {
    DividendsHashFree();
    DividendsNamesFresh();
    RootPairsReady(DividendsPairs);
    DividendsColumns();
    RootOneRowEach(parse, DividendsTable, (RootMarker, DividendsFields));
  }

  lemma EsgScoresOneRowEach(parse: string -> Option<Float>)
    ensures OneRowEach(parse, EsgScoresTable, ("ESGScores", EsgScoresFields))
  {
    EsgScoresClean();
    SectionOneRowEach(parse, EsgScoresTable, ("ESGScores", EsgScoresFields));
  }

  lemma SharesStatsOneRowEach(parse: string -> Option<Float>)
    ensures OneRowEach(parse, SharesStatsTable, ("SharesStats", SharesStatsFields))
  {
    SharesStatsClean();
    SectionOneRowEach(parse, SharesStatsTable, ("SharesStats", SharesStatsFields));
  }

  lemma HighlightsOneRowEach(parse: string -> Option<Float>)
    ensures OneRowEach(parse, HighlightsTable, ("Highlights", HighlightsFields))
  {
    HighlightsClean();
    SectionOneRowEach(parse, HighlightsTable, ("Highlights", HighlightsFields));
  }

  lemma ValuationOneRowEach(parse: string -> Option<Float>)
    ensures OneRowEach(parse, ValuationTable, ("Valuation", ValuationFields))
  {
    ValuationClean();
    SectionOneRowEach(parse, ValuationTable, ("Valuation", ValuationFields));
  }

  lemma KnownActivitiesOneRowEach(parse: string -> Option<Float>)
    ensures OneRowEach(parse, ActivitiesTable, ("ESGScores&ActivitiesInvolvement", KnownActivities))
  {
    KnownActivitiesFresh();
    ActivitiesOneRowEach(parse, ("ESGScores&ActivitiesInvolvement", KnownActivities));
  }

  /** A table in the loop's output is the reference concatenation of its rows. */
  lemma CollectedTableAt(parse: string -> Option<Float>, data: Dict<Json>, specs: seq<(string, Spec)>, name: string, spec: Spec)
    requires Distinct(TableNames(specs)) && AnyTruthy(data)
    requires Collect(parse, data, specs, []).Ok? && (name, spec) in specs
    ensures TableOf(parse, data, name, spec).Ok?
    ensures Get(Collect(parse, data, specs, []).value, name) == Some(TableOf(parse, data, name, spec).value)
  {
    var j :| 0 <= j < |specs| && specs[j] == (name, spec);
    var empty: Output := [];
    CollectSpec(parse, data, specs, empty);
    var r := Collect(parse, data, specs, empty).value;
    var table := TableOf(parse, data, name, spec).value;
    assert Keys(r) == TableNames(specs);
    assert Keys(r)[j] == name;
    assert Get(r, name).GetOr([]) == Get(empty, name).GetOr([]) + table;
    assert Get(empty, name).GetOr([]) + table == table;
  }

  lemma CollectedTable(parse: string -> Option<Float>, data: Dict<Json>, j: nat)
    requires AnyTruthy(data) && Collect(parse, data, Fields, []).Ok? && j < |Fields|
    ensures TableOf(parse, data, Fields[j].0, Fields[j].1).Ok?
    ensures Get(Collect(parse, data, Fields, []).value, Fields[j].0) == Some(TableOf(parse, data, Fields[j].0, Fields[j].1).value)
  {
    FieldsDistinct();
    CollectedTableAt(parse, data, Fields, Fields[j].0, Fields[j].1);
  }

  // ---------------------------------------------------------------------
  // The output of `Agent.transform`

  /** One framed row per ticker, in ticker order. */
  predicate FramedTable(table: Option<seq<Row>>, tickers: seq<string>) {
    table.Some? && |table.value| == |tickers| && forall i :: 0 <= i < |tickers| ==> Framed(table.value[i], tickers[i])
  }

  /** A configured table that the combine step leaves alone reaches the output as the loop built it. */
  lemma RunKeepsTable(parse: string -> Option<Float>, data: Dict<Json>, j: nat)
    requires Run(parse, data).Ok? && j < |Fields|
    requires Fields[j].0 !in FundamentalsParts && Fields[j].0 != FundamentalsTable
    ensures TableOf(parse, data, Fields[j].0, Fields[j].1).Ok?
    ensures Get(Run(parse, data).value, Fields[j].0) == Some(TableOf(parse, data, Fields[j].0, Fields[j].1).value)
  {
    RunSucceeds(parse, data);
    RunCombines(parse, data);
    CollectedTable(parse, data, j);
  }

  /** A kept table whose rows are one framed row per ticker. */
  lemma RunFramedTable(parse: string -> Option<Float>, data: Dict<Json>, j: nat)
    requires Run(parse, data).Ok? && j < |Fields|
    requires Fields[j].0 !in FundamentalsParts && Fields[j].0 != FundamentalsTable
    requires OneRowEach(parse, Fields[j].0, Fields[j].1)
    ensures FramedTable(Get(Run(parse, data).value, Fields[j].0), TruthyTickers(data))
  {
    RunKeepsTable(parse, data, j);
    TableOfFramed(parse, data, Fields[j].0, Fields[j].1);
  }

  /** The basics table: one row per ticker with a truthy payload, in ticker order. */
  lemma RunBasics(parse: string -> Option<Float>, data: Dict<Json>)
    requires Run(parse, data).Ok?
    ensures FramedTable(Get(Run(parse, data).value, BasicsTable), TruthyTickers(data))
  {
    FieldsOrder();
    KeptTables();
    BasicsOneRowEach(parse);
    RunFramedTable(parse, data, 0);
  }

  /** The ESG scores table: one row per ticker with a truthy payload, in ticker order. */
  lemma RunEsgScores(parse: string -> Option<Float>, data: Dict<Json>)
    requires Run(parse, data).Ok?
    ensures FramedTable(Get(Run(parse, data).value, EsgScoresTable), TruthyTickers(data))
  {
    FieldsOrder();
    KeptTables();
    EsgScoresOneRowEach(parse);
    RunFramedTable(parse, data, 1);
  }

  /** The activities table: one row per ticker with a truthy payload, in ticker order. */
  lemma RunActivities(parse: string -> Option<Float>, data: Dict<Json>)
    requires Run(parse, data).Ok?
    ensures FramedTable(Get(Run(parse, data).value, ActivitiesTable), TruthyTickers(data))
  {
    FieldsOrder();
    KeptTables();
    KnownActivitiesOneRowEach(parse);
    RunFramedTable(parse, data, 2);
  }

  /** The shares stats table: one row per ticker with a truthy payload, in ticker order. */
  lemma RunSharesStats(parse: string -> Option<Float>, data: Dict<Json>)
    requires Run(parse, data).Ok?
    ensures FramedTable(Get(Run(parse, data).value, SharesStatsTable), TruthyTickers(data))
  {
    FieldsOrder();
    KeptTables();
    SharesStatsOneRowEach(parse);
    RunFramedTable(parse, data, 5);
  }

  /** The balance table: at most two rows per ticker with a truthy payload, and some such ticker exists. */
  lemma RunBalance(parse: string -> Option<Float>, data: Dict<Json>)
    requires Run(parse, data).Ok?
    ensures |TruthyTickers(data)| > 0
    ensures Get(Run(parse, data).value, BalanceTable).Some?
    ensures |Get(Run(parse, data).value, BalanceTable).value| <= 2 * |TruthyTickers(data)|
  {
    RunSucceeds(parse, data);
    FieldsOrder();
    KeptTables();
    RunKeepsTable(parse, data, 7);
    BalanceTableBound(parse, data, Fields[7].1);
  }

  /** The fundamentals table: one combined row per dividends row, so one per ticker. */
  lemma RunFundamentals(parse: string -> Option<Float>, data: Dict<Json>)
    requires Run(parse, data).Ok?
    ensures FramedTable(Get(Run(parse, data).value, FundamentalsTable), TruthyTickers(data))
  {
    RunSucceeds(parse, data);
    RunCombines(parse, data);
    var collected := Collect(parse, data, Fields, []).value;
    FieldsOrder();
    KeptTables();
    CollectedTable(parse, data, 6);
    var dividends := TableOf(parse, data, Fields[6].0, Fields[6].1).value;
    DividendsOneRowEach(parse);
    TableOfFramed(parse, data, Fields[6].0, Fields[6].1);
    assert Lookup(collected, DividendsTable) == Ok(dividends);
    CombinedFramed(dividends, [ValuationTable, HighlightsTable], collected, TruthyTickers(data));
  }
}

=== FILE: transform.dfy ===
/**
 * `Agent.transform`: the loop over tickers that fills every configured
 * table, then the combine step that merges dividends, valuation and
 * highlights into one fundamentals table.
 */
module Transform {
  import opened Outcomes
  import opened Assoc
  import opened PyJson
  import opened Schema
  import opened Rows

  type Output = Dict<seq<Row>>

  /** `if not table in result: result[table] = []`, then the table's new rows appended. */
  function Append(result: Output, name: string, rows: seq<Row>): (r: Output)
    ensures Get(r, name) == Some(Get(result, name).GetOr([]) + rows)
    ensures forall j :: j != name ==> Get(r, j) == Get(result, j)
    ensures Keys(r) == if name in Keys(result) then Keys(result) else Keys(result) + [name]
  {
    SetKeys(result, name, Get(result, name).GetOr([]) + rows);
    Set(result, name, Get(result, name).GetOr([]) + rows)
  }

  /** One ticker's rows added to every configured table, in configuration order. */
  function AddRows(result: Output, specs: seq<(string, Spec)>, rows: seq<seq<Row>>): Output
    requires |rows| == |specs|
    decreases |specs|
  {
    if |specs| == 0 then result
    else AddRows(Append(result, specs[0].0, rows[0]), specs[1..], rows[1..])
  }

  /** The loop over tickers: a falsy payload (a failed fetch, `{}`) is skipped. */
  function Collect(parse: string -> Option<Float>, data: Dict<Json>, specs: seq<(string, Spec)>, result: Output): Result<Output>
    decreases |data|
  {
    if |data| == 0 then Ok(result)
    else if !Truthy(data[0].1) then Collect(parse, data[1..], specs, result)
    else
      var rows :- TickerRows(parse, data[0].0, data[0].1, specs);
      Collect(parse, data[1..], specs, AddRows(result, specs, rows))
  }

  // ---------------------------------------------------------------------
  // Combine step

  /** The combine rules: the combined table, then the tables it is made from. */
  const CombineRules: Dict<seq<string>> := [(FundamentalsTable, FundamentalsParts)]

  /** The fundamentals table's parts: the base table first, then the tables it borrows from. */
  const FundamentalsParts := [DividendsTable, ValuationTable, HighlightsTable]

  /** `Agent.find_ticker`: the first row whose ticker cell equals `ticker`, or None (`False`). */
  function FindTicker(ticker: Cell, rows: seq<Row>): (r: Result<Option<Row>>)
    ensures (forall i :: 0 <= i < |rows| ==> TickerColumn in Keys(rows[i])) ==> r.Ok?
    ensures r.Ok? && r.value.Some? ==>
      (exists i :: 0 <= i < |rows| && rows[i] == r.value.value
        && Get(rows[i], TickerColumn) == Some(ticker)
        && forall j :: 0 <= j < i ==> Get(rows[j], TickerColumn) != Some(ticker))
    ensures r.Ok? && r.value.None? ==> forall i :: 0 <= i < |rows| ==> Get(rows[i], TickerColumn) != Some(ticker)
    decreases |rows|
  {
    if |rows| == 0 then Ok(None)
    else
      match Get(rows[0], TickerColumn)
      case None => Err(KeyError(TickerColumn))
      case Some(c) =>
        if c == ticker then Ok(Some(rows[0]))
        else
          var found :- FindTicker(ticker, rows[1..]);
          Ok(found)
  }

  /** `for k in source: if k not in target: target[k] = source[k]`. */
  function CopyMissing(target: Row, source: Row): Row
    decreases |source|
  {
    if |source| == 0 then target
    else if source[0].0 in Keys(target) then CopyMissing(target, source[1..])
    else CopyMissing(Set(target, source[0].0, source[0].1), source[1..])
  }

  /** Columns from the first row matching the ticker in each of the other tables. */
  function MergeOthers(merged: Row, ticker: Cell, others: seq<string>, result: Output): Result<Row>
    decreases |others|
  {
    if |others| == 0 then Ok(merged)
    else
      var rows :- match Get(result, others[0]) case Some(t) => Ok(t) case None => Err(KeyError(others[0]));
      var found :- FindTicker(ticker, rows);
      var merged' := if found.Some? && |found.value| > 0 then CopyMissing(merged, found.value) else merged;
      MergeOthers(merged', ticker, others[1..], result)
  }

  /** The combined row for one base-table row, with a fresh timestamp moved to the end. */
  function CombineRow(row: Row, others: seq<string>, result: Output): Result<Row>
  {
    var ticker :- match Get(row, TickerColumn) case Some(c) => Ok(c) case None => Err(KeyError(TickerColumn));
    var merged :- MergeOthers(CopyMissing([(TickerColumn, ticker)], row), ticker, others, result);
    var unstamped :- Remove(merged, StampColumn);
    Ok(Stamp(unstamped))
  }

  /** One combined row per base row, in base order; the first failure is the table's. */
  function CombineRows(table: seq<Row>, others: seq<string>, result: Output): (r: Result<seq<Row>>)
    ensures r.Ok? <==> forall i :: 0 <= i < |table| ==> CombineRow(table[i], others, result).Ok?
    ensures r.Ok? ==> |r.value| == |table|
    ensures r.Ok? ==> forall i :: 0 <= i < |table| ==> r.value[i] == CombineRow(table[i], others, result).value
    decreases |table|
  {
    if |table| == 0 then Ok([])
    else
      var first :- CombineRow(table[0], others, result);
      var rest :- CombineRows(table[1..], others, result);
      Ok([first] + rest)
  }

  /** `for table in parts: if table in result: del result[table]`. */
  function DropTables(result: Output, parts: seq<string>): Output
    decreases |parts|
  {
    if |parts| == 0 then result
    else
      match Remove(result, parts[0])
      case Ok(r) => DropTables(r, parts[1..])
      case Err(_) => DropTables(result, parts[1..])
  }

  /**
   * One combine rule. The combined table must not be one of its parts: in
   * Python the part's lookups would then see the list being appended to.
   */
  function ApplyRule(result: Output, key: string, parts: seq<string>): Result<Output>
    requires key !in parts
  {
    if |parts| == 0 then Ok(result)
    else
      var started := Set(result, key, []);
      var base :- match Get(started, parts[0]) case Some(t) => Ok(t) case None => Err(KeyError(parts[0]));
      var combined :- CombineRows(base, parts[1..], started);
      Ok(DropTables(Set(started, key, combined), parts))
  }

  function Combine(result: Output, rules: Dict<seq<string>>): Result<Output>
    requires forall i :: 0 <= i < |rules| ==> rules[i].0 !in rules[i].1
    decreases |rules|
  {
    if |rules| == 0 then Ok(result)
    else
      var next :- ApplyRule(result, rules[0].0, rules[0].1);
      Combine(next, rules[1..])
  }

  /** `Agent(data).transform()`, before the conversion to DataFrames. */
  function Run(parse: string -> Option<Float>, data: Dict<Json>): Result<Output>
  {
    var collected :- Collect(parse, data, Fields, []);
    FundamentalsRule();
    Combine(collected, CombineRules)
  }

  /** The one combine rule builds the fundamentals table from three others. */
  lemma FundamentalsRule()
    ensures FundamentalsTable !in FundamentalsParts
    ensures CombineRules == [(FundamentalsTable, FundamentalsParts)]
  {
  }
}

=== FILE: transformfacts.dfy ===
/**
 * What `Agent.transform` returns: the combine step's first-wins merge, the
 * fundamentals table it builds, the tables it drops, and the per-table view
 * of the loop over tickers.
 */
module TransformFacts {
  import opened Outcomes
  import opened Assoc
  import opened PyJson
  import opened Schema
  import opened Rows
  import opened Transform

  // ---------------------------------------------------------------------
  // First-wins merging

  /** The value of `k` in the first row that has the key, in order. */
  function FirstGet(rows: seq<Row>, k: string): (r: Option<Cell>)
    ensures r.Some? <==> exists i :: 0 <= i < |rows| && k in Keys(rows[i])
  {
    if |rows| == 0 then None
    else if k in Keys(rows[0]) then Get(rows[0], k)
    else FirstGet(rows[1..], k)
  }

  /** Over two rows, the first wins. */
  lemma FirstOfTwo(a: Row, b: Row, k: string)
    ensures FirstGet([a, b], k) == if k in Keys(a) then Get(a, k) else Get(b, k)
  {
    assert [a, b][1..] == [b];
    assert [b][1..] == [];
  }

  /** Copying the missing columns: the target keeps its own, the source fills the rest. */
  lemma {:induction false} CopyMissingSpec(target: Row, source: Row)
    ensures forall k :: Get(CopyMissing(target, source), k) == FirstGet([target, source], k)
    ensures Distinct(Keys(target)) ==> Distinct(Keys(CopyMissing(target, source)))
    ensures |target| > 0 ==> |CopyMissing(target, source)| > 0 && CopyMissing(target, source)[0] == target[0]
    ensures Keys(CopyMissing(target, source)) == Keys(target) + Missing(Keys(target), Keys(source))
    decreases |source|
  {
    CopyMissingKeys(target, source);
    if |source| > 0 {
      var e := source[0];
      var rest := source[1..];
      var target' := if e.0 in Keys(target) then target else Set(target, e.0, e.1);
      assert CopyMissing(target, source) == CopyMissing(target', rest);
      SetKeys(target, e.0, e.1);
      if Distinct(Keys(target)) {
        SetDistinct(target, e.0, e.1);
      }
      CopyMissingSpec(target', rest);
      forall k ensures Get(CopyMissing(target, source), k) == FirstGet([target, source], k) {
        FirstOfTwo(target, source, k);
        FirstOfTwo(target', rest, k);
        assert k != e.0 ==> Get(source, k) == Get(rest, k);
      }
    }
  }

  /** Copying the missing columns keeps the target's columns in front and adds the source's new ones after them, in source order. */
  lemma {:induction false} CopyMissingKeys(target: Row, source: Row)
    ensures Keys(CopyMissing(target, source)) == Keys(target) + Missing(Keys(target), Keys(source))
    decreases |source|
  {
    if |source| > 0 {
      var e := source[0];
      var rest := source[1..];
      var ks := Keys(source);
      assert Keys(rest) == ks[1..] && ks[0] == e.0;
      if e.0 in Keys(target) {
        assert CopyMissing(target, source) == CopyMissing(target, rest);
        assert Missing(Keys(target), ks) == Missing(Keys(target), ks[1..]);
        CopyMissingKeys(target, rest);
      } else {
        var target' := Set(target, e.0, e.1);
        assert CopyMissing(target, source) == CopyMissing(target', rest);
        SetKeys(target, e.0, e.1);
        var m := Missing(Keys(target) + [e.0], ks[1..]);
        assert Missing(Keys(target), ks) == [e.0] + m;
        CopyMissingKeys(target', rest);
        assert (Keys(target) + [e.0]) + m == Keys(target) + ([e.0] + m);
      }
    }
  }

  /** The first-wins lookup through a list of rows, one row at a time. */
  lemma FirstGetCons(a: Row, rest: seq<Row>, k: string)
    ensures FirstGet([a] + rest, k) == if k in Keys(a) then Get(a, k) else FirstGet(rest, k)
  {
    assert ([a] + rest)[1..] == rest;
  }

  /** Two rows that agree on every key can stand for each other at the head of the list. */
  lemma FirstGetSameHead(a: Row, b: Row, rest: seq<Row>)
    requires forall k :: Get(a, k) == Get(b, k)
    ensures forall k :: FirstGet([a] + rest, k) == FirstGet([b] + rest, k)
  {
    forall k ensures FirstGet([a] + rest, k) == FirstGet([b] + rest, k) {
      FirstGetCons(a, rest, k);
      FirstGetCons(b, rest, k);
      assert Get(a, k) == Get(b, k);
    }
  }

  // ---------------------------------------------------------------------
  // The combined row

  /** The table named `name` in `result`, or KeyError. */
  function Lookup(result: Output, name: string): (r: Result<seq<Row>>)
    ensures r.Ok? <==> name in Keys(result)
    ensures r.Ok? ==> Get(result, name) == Some(r.value)
    ensures r.Err? ==> r.error == KeyError(name)
  {
    match Get(result, name) case Some(t) => Ok(t) case None => Err(KeyError(name))
  }

  /**
   * The rows the combine step borrows columns from: in each of the other
   * tables, the first row whose ticker cell matches, unless there is none or
   * it is empty.
   */
  function Partners(ticker: Cell, others: seq<string>, result: Output): (r: Result<seq<Row>>)
    ensures r.Ok? ==> forall i :: 0 <= i < |r.value| ==> Get(r.value[i], TickerColumn) == Some(ticker)
    ensures r.Ok? ==> |r.value| <= |others|
    decreases |others|
  {
    if |others| == 0 then Ok([])
    else
      var rows :- Lookup(result, others[0]);
      var found :- FindTicker(ticker, rows);
      var rest :- Partners(ticker, others[1..], result);
      Ok((if found.Some? && |found.value| > 0 then [found.value] else []) + rest)
  }

  /** The row a successful `find_ticker` contributes: none when it found nothing or an empty row. */
  function Front(found: Option<Row>): (r: seq<Row>)
    ensures |r| <= 1
  {
    if found.Some? && |found.value| > 0 then [found.value] else []
  }

  /** The merged row after taking the missing columns of what `find_ticker` returned. */
  function Absorb(merged: Row, found: Option<Row>): Row {
    if Front(found) == [] then merged else CopyMissing(merged, found.value)
  }

  /** Unfolding one step of the merge and of the partner list. */
  lemma MergeOthersStep(merged: Row, ticker: Cell, others: seq<string>, result: Output, found: Option<Row>)
    requires |others| > 0 && Lookup(result, others[0]).Ok?
    requires FindTicker(ticker, Lookup(result, others[0]).value) == Ok(found)
    ensures MergeOthers(merged, ticker, others, result)
      == MergeOthers(Absorb(merged, found), ticker, others[1..], result)
    ensures Partners(ticker, others[1..], result).Ok? <==> Partners(ticker, others, result).Ok?
    ensures Partners(ticker, others, result).Ok? ==>
      Partners(ticker, others, result).value == Front(found) + Partners(ticker, others[1..], result).value
  {
  }

  /** With the step's partner in front, the first-wins lookup is unchanged by absorbing it. */
  lemma AbsorbFront(merged: Row, found: Option<Row>, rest: seq<Row>)
    ensures forall k :: FirstGet([Absorb(merged, found)] + rest, k) == FirstGet([merged] + (Front(found) + rest), k)
  {
    if Front(found) == [] {
      assert Front(found) + rest == rest;
    } else {
      var merged' := CopyMissing(merged, found.value);
      CopyMissingSpec(merged, found.value);
      assert Front(found) + rest == [found.value] + rest;
      forall k ensures FirstGet([merged'] + rest, k) == FirstGet([merged] + ([found.value] + rest), k) {
        FirstGetCons(merged', rest, k);
        FirstGetCons(merged, [found.value] + rest, k);
        FirstGetCons(found.value, rest, k);
        FirstOfTwo(merged, found.value, k);
      }
    }
  }

  /** Merging the other tables' rows is the first-wins lookup through the partners. */
  lemma {:induction false} MergeOthersSpec(merged: Row, ticker: Cell, others: seq<string>, result: Output)
    ensures MergeOthers(merged, ticker, others, result).Ok? <==> Partners(ticker, others, result).Ok?
    ensures MergeOthers(merged, ticker, others, result).Ok? ==>
      forall k :: Get(MergeOthers(merged, ticker, others, result).value, k)
        == FirstGet([merged] + Partners(ticker, others, result).value, k)
    ensures MergeOthers(merged, ticker, others, result).Ok? && Distinct(Keys(merged)) ==>
      Distinct(Keys(MergeOthers(merged, ticker, others, result).value))
    ensures MergeOthers(merged, ticker, others, result).Ok? && |merged| > 0 ==>
      |MergeOthers(merged, ticker, others, result).value| > 0 && MergeOthers(merged, ticker, others, result).value[0] == merged[0]
    ensures MergeOthers(merged, ticker, others, result).Ok? ==>
      Keys(MergeOthers(merged, ticker, others, result).value)
        == Keys(merged) + Missing(Keys(merged), AllKeys(Partners(ticker, others, result).value))
    decreases |others|
  {
    MergeOthersKeys(merged, ticker, others, result);
    if |others| > 0 && Lookup(result, others[0]).Ok? && FindTicker(ticker, Lookup(result, others[0]).value).Ok? {
      var found := FindTicker(ticker, Lookup(result, others[0]).value).value;
      var merged' := Absorb(merged, found);
      if Front(found) != [] {
        CopyMissingSpec(merged, found.value);
      }
      MergeOthersStep(merged, ticker, others, result, found);
      MergeOthersSpec(merged', ticker, others[1..], result);
      var rest := Partners(ticker, others[1..], result);
      if rest.Ok? {
        AbsorbFront(merged, found, rest.value);
      }
    }
  }

  /** The columns of each row in turn, repeats included. */
  function AllKeys(rows: seq<Row>): seq<string>
    decreases |rows|
  {
    if |rows| == 0 then [] else Keys(rows[0]) + AllKeys(rows[1..])
  }

  /** Absorbing the step's partner adds its new columns just as reading it first in the partner list does. */
  lemma AbsorbKeys(merged: Row, found: Option<Row>, rest: seq<Row>)
    ensures Keys(Absorb(merged, found)) + Missing(Keys(Absorb(merged, found)), AllKeys(rest))
      == Keys(merged) + Missing(Keys(merged), AllKeys(Front(found) + rest))
  {
    if Front(found) == [] {
      assert Front(found) + rest == rest;
    } else {
      CopyMissingKeys(merged, found.value);
      assert ([found.value] + rest)[1..] == rest;
      assert AllKeys(Front(found) + rest) == Keys(found.value) + AllKeys(rest);
      MissingThen(Keys(merged), Keys(found.value), AllKeys(rest));
    }
  }

  /** The merged row keeps its columns in front and adds each partner's new columns after them, partner by partner. */
  lemma {:induction false} MergeOthersKeys(merged: Row, ticker: Cell, others: seq<string>, result: Output)
    ensures MergeOthers(merged, ticker, others, result).Ok? && Partners(ticker, others, result).Ok? ==>
      Keys(MergeOthers(merged, ticker, others, result).value)
        == Keys(merged) + Missing(Keys(merged), AllKeys(Partners(ticker, others, result).value))
    decreases |others|
  {
    if |others| == 0 {
      assert Keys(merged) + [] == Keys(merged);
    } else if Lookup(result, others[0]).Ok? && FindTicker(ticker, Lookup(result, others[0]).value).Ok? {
      var found := FindTicker(ticker, Lookup(result, others[0]).value).value;
      MergeOthersStep(merged, ticker, others, result, found);
      MergeOthersKeys(Absorb(merged, found), ticker, others[1..], result);
      var rest := Partners(ticker, others[1..], result);
      if rest.Ok? {
        AbsorbKeys(merged, found, rest.value);
      }
    }
  }

  /** Taking the timestamp out of the ticker-first columns leaves the ticker and the rest without both. */
  lemma UnstampedKeys(all: seq<string>)
    ensures Missing([StampColumn], [TickerColumn] + Missing([TickerColumn], all))
      == [TickerColumn] + Missing([TickerColumn, StampColumn], all)
  {
    var x := Missing([TickerColumn], all);
    assert TickerColumn !in [StampColumn] by {
      assert TickerColumn[0] != StampColumn[0];
    }
    assert ([TickerColumn] + x)[1..] == x;
    assert [StampColumn] + [TickerColumn] == [StampColumn, TickerColumn];
    MissingTwice([TickerColumn], [StampColumn, TickerColumn], all);
    MissingSame([TickerColumn] + [StampColumn, TickerColumn], [TickerColumn, StampColumn], all);
  }

  /** Before the timestamp moves: the ticker, then the base row's and the partners' other columns at first appearance. */
  lemma MergedRowKeys(row: Row, ticker: Cell, others: seq<string>, result: Output)
    ensures
      var merged := MergeOthers(CopyMissing([(TickerColumn, ticker)], row), ticker, others, result);
      merged.Ok? && Partners(ticker, others, result).Ok? ==>
        Keys(merged.value) == [TickerColumn] + Missing([TickerColumn], AllKeys([row] + Partners(ticker, others, result).value))
  {
    var first: Row := [(TickerColumn, ticker)];
    var start := CopyMissing(first, row);
    assert Keys(first) == [TickerColumn];
    CopyMissingKeys(first, row);
    MergeOthersKeys(start, ticker, others, result);
    var partners := Partners(ticker, others, result);
    if partners.Ok? {
      assert ([row] + partners.value)[1..] == partners.value;
      assert AllKeys([row] + partners.value) == Keys(row) + AllKeys(partners.value);
      MissingThen([TickerColumn], Keys(row), AllKeys(partners.value));
    }
  }

  /**
   * The combined row's column order: the ticker, then every other column of
   * the base row and then of each partner in turn, each at its first
   * appearance, then the timestamp.
   */
  lemma CombineRowKeys(row: Row, others: seq<string>, result: Output)
    ensures CombineRow(row, others, result).Ok? && TickerOf(row).Ok? && Partners(TickerOf(row).value, others, result).Ok? ==>
      Keys(CombineRow(row, others, result).value)
        == [TickerColumn] + Missing([TickerColumn, StampColumn], AllKeys([row] + Partners(TickerOf(row).value, others, result).value)) + [StampColumn]
  {
    if CombineRow(row, others, result).Ok? && TickerOf(row).Ok? {
      var ticker := TickerOf(row).value;
      var start := CopyMissing([(TickerColumn, ticker)], row);
      var partners := Partners(ticker, others, result);
      if partners.Ok? {
        MergedRowKeys(row, ticker, others, result);
        BaseCopy(row, ticker);
        MergeOthersSpec(start, ticker, others, result);
        var merged := MergeOthers(start, ticker, others, result).value;
        var all := AllKeys([row] + partners.value);
        RemoveKeys(merged, StampColumn);
        UnstampedKeys(all);
        var unstamped := Remove(merged, StampColumn).value;
        assert CombineRow(row, others, result) == Ok(Stamp(unstamped));
        KeysAppend(unstamped, (StampColumn, Now));
      }
    }
  }

  /** The ticker cell of a base-table row, or KeyError. */
  function TickerOf(row: Row): (r: Result<Cell>)
    ensures r.Ok? <==> TickerColumn in Keys(row)
    ensures r.Ok? ==> Get(row, TickerColumn) == Some(r.value)
    ensures r.Err? ==> r.error == KeyError(TickerColumn)
  {
    match Get(row, TickerColumn) case Some(c) => Ok(c) case None => Err(KeyError(TickerColumn))
  }

  /** Starting from the ticker and copying the base row in changes no cell, only the order. */
  lemma BaseCopy(row: Row, ticker: Cell)
    requires Get(row, TickerColumn) == Some(ticker)
    ensures forall k :: Get(CopyMissing([(TickerColumn, ticker)], row), k) == Get(row, k)
    ensures Distinct(Keys(CopyMissing([(TickerColumn, ticker)], row)))
    ensures |CopyMissing([(TickerColumn, ticker)], row)| > 0 && CopyMissing([(TickerColumn, ticker)], row)[0] == (TickerColumn, ticker)
  {
    var start: Row := [(TickerColumn, ticker)];
    CopyMissingSpec(start, row);
    forall k ensures Get(CopyMissing(start, row), k) == Get(row, k) {
      FirstOfTwo(start, row, k);
    }
  }

  /**
   * A combined row: the ticker first, a fresh timestamp last, and every
   * other column from the first of the base row and its partners that has
   * it. It fails when the base row has no ticker, when a part table is
   * missing, or when no row involved has a timestamp to delete.
   */
  lemma CombineRowSpec(row: Row, others: seq<string>, result: Output)
    ensures CombineRow(row, others, result).Ok? <==>
      TickerOf(row).Ok? && Partners(TickerOf(row).value, others, result).Ok?
      && FirstGet([row] + Partners(TickerOf(row).value, others, result).value, StampColumn).Some?
    ensures CombineRow(row, others, result).Ok? ==>
      var r := CombineRow(row, others, result).value;
      var ticker := TickerOf(row).value;
      |r| >= 2 && r[0] == (TickerColumn, ticker) && r[|r| - 1] == (StampColumn, Now) && Distinct(Keys(r))
      && forall k :: k != StampColumn ==> Get(r, k) == FirstGet([row] + Partners(ticker, others, result).value, k)
  {
    if TickerOf(row).Ok? {
      var ticker := TickerOf(row).value;
      var start := CopyMissing([(TickerColumn, ticker)], row);
      BaseCopy(row, ticker);
      MergeOthersSpec(start, ticker, others, result);
      var merged := MergeOthers(start, ticker, others, result);
      if merged.Ok? {
        var partners := Partners(ticker, others, result).value;
        FirstGetSameHead(start, row, partners);
        assert StampColumn in Keys(merged.value) <==> FirstGet([row] + partners, StampColumn).Some?;
        var unstamped := Remove(merged.value, StampColumn);
        if unstamped.Ok? {
          assert merged.value[0] == (TickerColumn, ticker);
          assert CombineRow(row, others, result) == Ok(Stamp(unstamped.value));
          KeysAppend(unstamped.value, (StampColumn, Now));
          var r := Stamp(unstamped.value);
          assert Distinct(Keys(r)) by {
            forall i, j | 0 <= i < j < |r| ensures Keys(r)[i] != Keys(r)[j] {
              if j == |r| - 1 {
                assert Keys(r)[i] == Keys(unstamped.value)[i];
              } else {
                assert Keys(r)[i] == Keys(unstamped.value)[i] && Keys(r)[j] == Keys(unstamped.value)[j];
              }
            }
          }
          forall k | k != StampColumn ensures Get(r, k) == FirstGet([row] + partners, k) {
            assert Get(r, k) == Get(unstamped.value, k) == Get(merged.value, k);
          }
        }
      }
    }
  }

  /** The combine step reads only the part tables, so tables elsewhere in the result do not matter. */
  lemma {:induction false} MergeOthersAgree(merged: Row, ticker: Cell, others: seq<string>, a: Output, b: Output)
    requires forall t :: t in others ==> Get(a, t) == Get(b, t)
    ensures MergeOthers(merged, ticker, others, a) == MergeOthers(merged, ticker, others, b)
    decreases |others|
  {
    if |others| > 0 {
      assert Get(a, others[0]) == Get(b, others[0]);
      assert forall t :: t in others[1..] ==> t in others;
      if Get(a, others[0]).Some? && FindTicker(ticker, Get(a, others[0]).value).Ok? {
        var found := FindTicker(ticker, Get(a, others[0]).value).value;
        var merged' := if found.Some? && |found.value| > 0 then CopyMissing(merged, found.value) else merged;
        MergeOthersAgree(merged', ticker, others[1..], a, b);
      }
    }
  }

  lemma {:induction false} CombineRowsAgree(table: seq<Row>, others: seq<string>, a: Output, b: Output)
    requires forall t :: t in others ==> Get(a, t) == Get(b, t)
    ensures CombineRows(table, others, a) == CombineRows(table, others, b)
    decreases |table|
  {
    if |table| > 0 {
      if Get(table[0], TickerColumn).Some? {
        var ticker := Get(table[0], TickerColumn).value;
        MergeOthersAgree(CopyMissing([(TickerColumn, ticker)], table[0]), ticker, others, a, b);
      }
      CombineRowsAgree(table[1..], others, a, b);
    }
  }

  /** Deleting the part tables: each is gone, whether or not it was there, and nothing else changes. */
  lemma {:induction false} DropTablesSpec(result: Output, parts: seq<string>)
    requires Distinct(Keys(result))
    ensures forall t :: Get(DropTables(result, parts), t) == if t in parts then None else Get(result, t)
    ensures Distinct(Keys(DropTables(result, parts)))
    decreases |parts|
  {
    if |parts| > 0 {
      var next := match Remove(result, parts[0]) case Ok(r) => r case Err(_) => result;
      assert DropTables(result, parts) == DropTables(next, parts[1..]);
      DropTablesSpec(next, parts[1..]);
      forall t ensures Get(DropTables(result, parts), t) == if t in parts then None else Get(result, t) {
        assert t in parts <==> t == parts[0] || t in parts[1..];
        assert parts[0] !in Keys(next);
      }
    }
  }

  /** The combined table of a rule: the base table's rows, each combined with the other parts. */
  function Combined(result: Output, parts: seq<string>): Result<seq<Row>>
    requires |parts| > 0
  {
    var base :- Lookup(result, parts[0]);
    CombineRows(base, parts[1..], result)
  }

  /**
   * One combine rule: the combined table holds the base table's rows
   * combined, the part tables are gone, and every other table is as it was.
   * It fails when the base table is missing or a row cannot be combined.
   */
  lemma ApplyRuleSpec(result: Output, key: string, parts: seq<string>)
    requires key !in parts && |parts| > 0 && Distinct(Keys(result))
    ensures ApplyRule(result, key, parts).Ok? <==> Combined(result, parts).Ok?
    ensures ApplyRule(result, key, parts).Ok? ==>
      var r := ApplyRule(result, key, parts).value;
      Distinct(Keys(r))
      && Get(r, key) == Some(Combined(result, parts).value)
      && forall t :: t != key ==> Get(r, t) == if t in parts then None else Get(result, t)
  {
    var started := Set(result, key, []);
    SetDistinct(result, key, []);
    assert Get(started, parts[0]) == Get(result, parts[0]);
    if Lookup(result, parts[0]).Ok? {
      var base := Lookup(result, parts[0]).value;
      assert forall t :: t in parts[1..] ==> t in parts;
      CombineRowsAgree(base, parts[1..], started, result);
      var combined := CombineRows(base, parts[1..], result);
      if combined.Ok? {
        var filled := Set(started, key, combined.value);
        SetDistinct(started, key, combined.value);
        assert ApplyRule(result, key, parts) == Ok(DropTables(filled, parts));
        DropTablesSpec(filled, parts);
      }
    }
  }

  // ---------------------------------------------------------------------
  // The loop over tickers, one table at a time

  predicate AnyTruthy(data: Dict<Json>) {
    exists i :: 0 <= i < |data| && Truthy(data[i].1)
  }

  /**
   * Reference for one table of the loop's output: the rows the table gets
   * from each ticker with a truthy payload, concatenated in ticker order.
   */
  function TableOf(parse: string -> Option<Float>, data: Dict<Json>, name: string, spec: Spec): Result<seq<Row>>
    decreases |data|
  {
    if |data| == 0 then Ok([])
    else if !Truthy(data[0].1) then TableOf(parse, data[1..], name, spec)
    else
      var rows :- TableRows(parse, name, spec, data[0].0, data[0].1);
      var rest :- TableOf(parse, data[1..], name, spec);
      Ok(rows + rest)
  }

  /** The configuration after its first table: still distinct, and without the first name. */
  lemma NamesTail(specs: seq<(string, Spec)>)
    requires |specs| > 0 && Distinct(TableNames(specs))
    ensures Distinct(TableNames(specs[1..]))
    ensures specs[0].0 !in TableNames(specs[1..])
    ensures TableNames(specs) == [specs[0].0] + TableNames(specs[1..])
  {
    var names := TableNames(specs);
    assert TableNames(specs[1..]) == names[1..];
    DistinctTail(names);
  }

  /** One ticker's rows go to the end of each configured table. */
  lemma {:induction false} AddRowsSpec(acc: Output, specs: seq<(string, Spec)>, rows: seq<seq<Row>>)
    requires |rows| == |specs| && Distinct(TableNames(specs))
    ensures forall j :: 0 <= j < |specs| ==>
      Get(AddRows(acc, specs, rows), specs[j].0) == Some(Get(acc, specs[j].0).GetOr([]) + rows[j])
    decreases |specs|
  {
    if |specs| > 0 {
      var acc' := Append(acc, specs[0].0, rows[0]);
      NamesTail(specs);
      AddRowsSpec(acc', specs[1..], rows[1..]);
      AddRowsElsewhere(acc', specs[1..], rows[1..]);
      var r := AddRows(acc, specs, rows);
      assert r == AddRows(acc', specs[1..], rows[1..]);
      forall j | 0 <= j < |specs| ensures Get(r, specs[j].0) == Some(Get(acc, specs[j].0).GetOr([]) + rows[j]) {
        if j > 0 {
          assert specs[1..][j - 1] == specs[j] && rows[1..][j - 1] == rows[j];
          assert TableNames(specs)[0] != TableNames(specs)[j];
        }
      }
    }
  }

  /** A ticker's rows touch no table outside the configuration. */
  lemma {:induction false} AddRowsElsewhere(acc: Output, specs: seq<(string, Spec)>, rows: seq<seq<Row>>)
    requires |rows| == |specs|
    ensures forall t :: t !in TableNames(specs) ==> Get(AddRows(acc, specs, rows), t) == Get(acc, t)
    decreases |specs|
  {
    if |specs| > 0 {
      var acc' := Append(acc, specs[0].0, rows[0]);
      assert TableNames(specs[1..]) == TableNames(specs)[1..];
      AddRowsElsewhere(acc', specs[1..], rows[1..]);
    }
  }

  /** Once every table exists, a ticker's rows create no table. */
  lemma {:induction false} AddRowsKeepsKeys(acc: Output, specs: seq<(string, Spec)>, rows: seq<seq<Row>>)
    requires |rows| == |specs|
    requires forall j :: 0 <= j < |specs| ==> specs[j].0 in Keys(acc)
    ensures Keys(AddRows(acc, specs, rows)) == Keys(acc)
    decreases |specs|
  {
    if |specs| > 0 {
      var acc' := Append(acc, specs[0].0, rows[0]);
      forall j | 0 <= j < |specs[1..]| ensures specs[1..][j].0 in Keys(acc') {
        assert specs[1..][j] == specs[j + 1];
      }
      AddRowsKeepsKeys(acc', specs[1..], rows[1..]);
    }
  }

  /** The first ticker with rows creates the tables, in configuration order. */
  lemma {:induction false} AddRowsNewKeys(acc: Output, specs: seq<(string, Spec)>, rows: seq<seq<Row>>)
    requires |rows| == |specs| && Distinct(TableNames(specs))
    requires forall j :: 0 <= j < |specs| ==> specs[j].0 !in Keys(acc)
    ensures Keys(AddRows(acc, specs, rows)) == Keys(acc) + TableNames(specs)
    decreases |specs|
  {
    if |specs| > 0 {
      var acc' := Append(acc, specs[0].0, rows[0]);
      var names := TableNames(specs);
      NamesTail(specs);
      forall j | 0 <= j < |specs[1..]| ensures specs[1..][j].0 !in Keys(acc') {
        assert specs[1..][j] == specs[j + 1];
        assert names[0] != names[j + 1];
      }
      AddRowsNewKeys(acc', specs[1..], rows[1..]);
      SeqAssoc(Keys(acc), [names[0]], TableNames(specs[1..]));
    }
  }

  lemma SeqAssoc(a: seq<string>, b: seq<string>, c: seq<string>)
    ensures (a + b) + c == a + (b + c)
  {
  }

  /** The configured table names are distinct. */
  lemma FieldsDistinct()
    ensures Distinct(TableNames(Fields))
  {
    FieldsTableNames();
    ConfiguredNamesDistinct();
  }

  /** The configured table names, in configuration order. */
  const ConfiguredNames := [BasicsTable, EsgScoresTable, ActivitiesTable, HighlightsTable, ValuationTable, SharesStatsTable, DividendsTable, BalanceTable]

  lemma FieldsTableNames()
    ensures TableNames(Fields) == ConfiguredNames
  {
    FieldsNamesFront();
    FieldsNamesBack();
    var names := TableNames(Fields);
    forall j | 0 <= j < |names| ensures names[j] == ConfiguredNames[j] {
      assert names[j] == Fields[j].0;
    }
  }

  lemma FieldsNamesFront()
    ensures |Fields| == 8
    ensures Fields[0].0 == BasicsTable && Fields[1].0 == EsgScoresTable
    ensures Fields[2].0 == ActivitiesTable && Fields[3].0 == HighlightsTable
  {
  }

  lemma FieldsNamesBack()
    ensures Fields[4].0 == ValuationTable && Fields[5].0 == SharesStatsTable
    ensures Fields[6].0 == DividendsTable && Fields[7].0 == BalanceTable
  {
  }

  lemma ConfiguredNamesDistinct()
    ensures Distinct(ConfiguredNames)
  {
  }

  lemma RowsAssoc(a: seq<Row>, b: seq<Row>, c: seq<Row>)
    ensures (a + b) + c == a + (b + c)
  {
  }

  /** One table after one more ticker with rows: its rows, then the rest's. */
  lemma TableOfStep(parse: string -> Option<Float>, data: Dict<Json>, name: string, spec: Spec)
    requires |data| > 0 && Truthy(data[0].1)
    ensures TableOf(parse, data, name, spec).Ok? <==>
      TableRows(parse, name, spec, data[0].0, data[0].1).Ok? && TableOf(parse, data[1..], name, spec).Ok?
    ensures TableOf(parse, data, name, spec).Ok? ==>
      TableOf(parse, data, name, spec).value
        == TableRows(parse, name, spec, data[0].0, data[0].1).value + TableOf(parse, data[1..], name, spec).value
  {
  }

  /**
   * The loop over tickers builds each table as the reference says: the
   * rows it already had, then the table's rows from every ticker with a
   * truthy payload, in ticker order. The tables exist, in configuration
   * order, exactly when some payload is truthy.
   */
  lemma {:induction false} CollectSpec(parse: string -> Option<Float>, data: Dict<Json>, specs: seq<(string, Spec)>, acc: Output)
    requires Distinct(TableNames(specs))
    requires acc == [] || Keys(acc) == TableNames(specs)
    ensures Collect(parse, data, specs, acc).Ok? <==>
      forall j :: 0 <= j < |specs| ==> TableOf(parse, data, specs[j].0, specs[j].1).Ok?
    ensures Collect(parse, data, specs, acc).Ok? ==> forall j :: 0 <= j < |specs| ==>
      Get(Collect(parse, data, specs, acc).value, specs[j].0).GetOr([])
        == Get(acc, specs[j].0).GetOr([]) + TableOf(parse, data, specs[j].0, specs[j].1).value
    ensures Collect(parse, data, specs, acc).Ok? ==>
      Keys(Collect(parse, data, specs, acc).value) == if acc == [] && !AnyTruthy(data) then [] else TableNames(specs)
    decreases |data|
  {
    if |data| == 0 {
    } else if !Truthy(data[0].1) {
      CollectSpec(parse, data[1..], specs, acc);
      assert AnyTruthy(data) <==> AnyTruthy(data[1..]) by {
        if AnyTruthy(data) {
          var i :| 0 <= i < |data| && Truthy(data[i].1);
          assert data[1..][i - 1] == data[i];
        }
        if AnyTruthy(data[1..]) {
          var i :| 0 <= i < |data[1..]| && Truthy(data[1..][i].1);
          assert data[1..][i] == data[i + 1];
        }
      }
    } else {
      forall j | 0 <= j < |specs| {
        TableOfStep(parse, data, specs[j].0, specs[j].1);
      }
      assert AnyTruthy(data);
      var ticker := TickerRows(parse, data[0].0, data[0].1, specs);
      if ticker.Ok? {
        var rows := ticker.value;
        var acc' := AddRows(acc, specs, rows);
        CollectTruthyStep(parse, data, specs, acc);
        CollectSpec(parse, data[1..], specs, acc');
        var r := Collect(parse, data, specs, acc);
        if r.Ok? {
          forall j | 0 <= j < |specs| ensures Get(r.value, specs[j].0).GetOr([])
            == Get(acc, specs[j].0).GetOr([]) + TableOf(parse, data, specs[j].0, specs[j].1).value
          {
            RowsAssoc(Get(acc, specs[j].0).GetOr([]), rows[j], TableOf(parse, data[1..], specs[j].0, specs[j].1).value);
          }
        }
      }
    }
  }

  /** A ticker with rows: every table exists afterwards and has the ticker's rows at its end. */
  lemma CollectTruthyStep(parse: string -> Option<Float>, data: Dict<Json>, specs: seq<(string, Spec)>, acc: Output)
    requires |data| > 0 && Truthy(data[0].1) && Distinct(TableNames(specs))
    requires acc == [] || Keys(acc) == TableNames(specs)
    requires TickerRows(parse, data[0].0, data[0].1, specs).Ok?
    ensures var rows := TickerRows(parse, data[0].0, data[0].1, specs).value;
      var acc' := AddRows(acc, specs, rows);
      Keys(acc') == TableNames(specs)
      && Collect(parse, data, specs, acc) == Collect(parse, data[1..], specs, acc')
      && forall j :: 0 <= j < |specs| ==> Get(acc', specs[j].0).GetOr([]) == Get(acc, specs[j].0).GetOr([]) + rows[j]
  {
    var rows := TickerRows(parse, data[0].0, data[0].1, specs).value;
    AddRowsSpec(acc, specs, rows);
    if acc == [] {
      AddRowsNewKeys(acc, specs, rows);
    } else {
      forall j | 0 <= j < |specs| ensures specs[j].0 in Keys(acc) {
        assert Keys(acc)[j] == specs[j].0;
      }
      AddRowsKeepsKeys(acc, specs, rows);
    }
  }

  /** With no truthy payload the loop adds nothing. */
  lemma {:induction false} CollectNothing(parse: string -> Option<Float>, data: Dict<Json>, specs: seq<(string, Spec)>, acc: Output)
    requires !AnyTruthy(data)
    ensures Collect(parse, data, specs, acc) == Ok(acc)
    decreases |data|
  {
    if |data| > 0 {
      assert !Truthy(data[0].1);
      forall i | 0 <= i < |data[1..]| ensures !Truthy(data[1..][i].1) {
        assert data[1..][i] == data[i + 1];
      }
      CollectNothing(parse, data[1..], specs, acc);
    }
  }

  /**
   * No ticker with a truthy payload: the loop leaves the result empty, and
   * the combine step's lookup of the dividends table raises KeyError.
   */
  lemma RunWithoutData(parse: string -> Option<Float>, data: Dict<Json>)
    requires !AnyTruthy(data)
    ensures Run(parse, data) == Err(KeyError(DividendsTable))
  {
    CollectNothing(parse, data, Fields, []);
    var started: Output := Set([], FundamentalsTable, []);
    assert started == [(FundamentalsTable, [])];
    assert Get(started, DividendsTable) == None;
  }

  /**
   * `Agent.transform` succeeds exactly when some payload is truthy, the loop
   * succeeds and every dividends row can be combined.
   */
  lemma RunSucceeds(parse: string -> Option<Float>, data: Dict<Json>)
    ensures Run(parse, data).Ok? <==>
      AnyTruthy(data) && Collect(parse, data, Fields, []).Ok? && Combined(Collect(parse, data, Fields, []).value, FundamentalsParts).Ok?
  {
    if !AnyTruthy(data) {
      RunWithoutData(parse, data);
    } else if Collect(parse, data, Fields, []).Ok? {
      RunCombines(parse, data);
    }
  }

  /**
   * After a successful loop with some truthy payload, the fundamentals
   * table holds the combined dividends rows, the dividends, valuation and
   * highlights tables are gone, and every other table is the loop's.
   */
  lemma RunCombines(parse: string -> Option<Float>, data: Dict<Json>)
    requires AnyTruthy(data) && Collect(parse, data, Fields, []).Ok?
    ensures Run(parse, data).Ok? <==> Combined(Collect(parse, data, Fields, []).value, FundamentalsParts).Ok?
    ensures Run(parse, data).Ok? ==>
      var collected := Collect(parse, data, Fields, []).value;
      var r := Run(parse, data).value;
      Distinct(Keys(r))
      && Get(r, FundamentalsTable) == Some(Combined(collected, FundamentalsParts).value)
      && forall t :: t != FundamentalsTable ==> Get(r, t) == if t in FundamentalsParts then None else Get(collected, t)
  {
    CollectedDistinct(parse, data);
    RunUnfold(parse, data);
    ApplyRuleSpec(Collect(parse, data, Fields, []).value, FundamentalsTable, FundamentalsParts);
  }

  /** The loop's output has one entry per configured table. */
  lemma CollectedDistinct(parse: string -> Option<Float>, data: Dict<Json>)
    requires Collect(parse, data, Fields, []).Ok?
    ensures Distinct(Keys(Collect(parse, data, Fields, []).value))
  {
    FieldsDistinct();
    CollectSpec(parse, data, Fields, []);
  }

  lemma CombineOneRule(result: Output, key: string, parts: seq<string>)
    requires key !in parts
    ensures Combine(result, [(key, parts)]) == ApplyRule(result, key, parts)
  {
    var rules := [(key, parts)];
    assert rules[1..] == [];
    if ApplyRule(result, key, parts).Ok? {
      assert Combine(result, rules) == Combine(ApplyRule(result, key, parts).value, []);
    }
  }

  /** After a successful loop, `Agent.transform` applies its one combine rule. */
  lemma RunUnfold(parse: string -> Option<Float>, data: Dict<Json>)
    requires Collect(parse, data, Fields, []).Ok?
    ensures FundamentalsTable !in FundamentalsParts
    ensures Run(parse, data) == ApplyRule(Collect(parse, data, Fields, []).value, FundamentalsTable, FundamentalsParts)
  {
    var collected := Collect(parse, data, Fields, []).value;
    FundamentalsRule();
    assert Run(parse, data) == Combine(collected, CombineRules);
    CombineOneRule(collected, FundamentalsTable, FundamentalsParts);
  }
}
